=== FILE: README.md ===
# retro-chat-rooms in Dafny

This project models the core of a chat server in the style of late-1990s web chat rooms. Users join a room with a nickname and a colour, and talk in "speech modes" such as *says-to* or *screams-at*. They reach the room through a browser or through a native client over a raw TCP socket.

The model covers these parts of the server:

- **Raw-socket wire codec** (`Wire`, `Schema`, `Codes`, `Messages`).
  - A frame is a 4-byte header: a 16-bit big-endian message type, then a 16-bit big-endian payload length.
  - The payload is a space-separated list of quote-wrapped fields.
  - Their order is fixed per message kind by the `fieldOrder` tags.
  - `Messages` covers the dispatch of client frames, the per-connection push filter, and the registration and send handlers.
- **Chat store** (`ChatSchema`, `ChatStore`).
  - Users, per-user outboxes, room member lists and a public history of at most 10 messages per room.
  - Ping stamps and user-list-change stamps.
  - Every publish on a room's event bus is kept as an appended event log.
- **Admission** (`Levenshtein`, `Validations`, `Profanity`, `UserState`, `ClientInfoText`).
  - Nickname similarity: Levenshtein distance and the substring percentage.
  - Nickname validation that collects every error.
  - The ordered message gate: ban, one cooldown notice, blocked words, scream throttle, then masking and acceptance.
  - Word masking.
  - The per-connection cooldown and last-scream state.
  - Client-description formatting.
- **Flood control** (`Flood`, `SessionFlood`).
  - A per-IP record with a flood counter that bans once it reaches its maximum.
  - The same record reached through a session's "ip" value.
- **Older room models.**
  - `Rooms` models the `chatroom` package: newest-first history capped at 200, lookup priority owner > Discord > web, and the sliding-window abuse check. `chatroom/query.go` and `chatroom/owner.go` are modelled there too.
  - `LegacyRoom` models the first room type at the repository root, including the poll-rate clamp.
- **Small helpers and sweeps** (`Session`, `PubSub`, `Templates`, `Join`, `Tasks`, `Clock`, `Dynamic`, `Text`).
  - The session key/value store and `getIP`.
  - The subscriber registry.
  - The template visibility filters.
  - The decision logic of the join form.
  - One pass of the session-cleanup sweep and of the user-status sweep.

**Representation**

- Go strings are Dafny strings with one character per byte.
- Time is an integer count of nanoseconds. `Clock.Sub` saturates as Go's `time.Sub` does.
- A Go panic becomes a `Failure` result, and the model discards every effect of the failed call. The Go program does not: see "## Left out".
- Collaborators whose code is not part of this model are parameters of the operations that call them:
  - hashing and UUIDs (`nameId`, `digest`);
  - `floodcontrol.RecordMessage` (`record`);
  - owner logout;
  - timestamp formatting;
  - the user-agent parser;
  - the platform constants.

## Model

| member | source | states |
|---|---|---|
| Clock.Sub | chat/chat.go:381-392 | The difference of two instants saturates at the bounds of a 64-bit duration and is exact in between, as Go's `time.Sub` is. |
| Clock.UnixSeconds | sockets/socket-user-state.go:49-52 | The Unix second of an instant is the whole second that contains it. |
| Clock.ZeroTimeIsLongAgo | floodcontrol/flood-control.go:84 | A record stamped with the zero time is never within a few minutes of a real instant. |
| Dynamic.Lookup | session/session.go:35-46 | A missing key reads as nil; a present key reads as its stored value. |
| Codes.CodesAreWellSeparated | sockets/constants.go:4-19 | Every code fits in 16 bits, server codes and client codes are each pairwise distinct, server codes are below 100 and client codes are at least 100. |
| Schema.TagsAreDeclarationOrder | sockets/schema.go:1-82 | In every message kind the field-order tags are exactly 0..n-1 in declaration order, so they form a permutation and fill every payload slot. |
| Schema.Rebuild | sockets/schema.go:1-82 | Refilling a message with new field values keeps its kind and tags. |
| Schema.RebuildValues | sockets/schema.go:1-82 | Refilling with values of the same kinds yields exactly those values. |
| Wire.BigEndianUint16 | sockets/protocol.go:143-147 | Two bytes read big-endian give a value below 65536. |
| Wire.PutUint16 | sockets/protocol.go:165-189 | Two bytes whose big-endian reading is the value modulo 65536, as Go's `uint16` conversion truncates. |
| Wire.BytesOfByteString | sockets/protocol.go:149-157 | Converting a byte string to bytes and back gives the string unchanged. |
| Wire.DetermineMessageType | sockets/protocol.go:138-158 | Fewer than 4 bytes fail with "message too short". Otherwise type and length are the big-endian values of bytes 0-1 and 2-3. Fewer body bytes than the length fail with "message length mismatch", both directions. The content is exactly the declared length of bytes. |
| Wire.EncodeFrame | sockets/protocol.go:165-189 | A frame is 4 header bytes followed by the payload bytes. |
| Wire.DecodeEncodeFrame | sockets/protocol.go:138-189 | Decoding an encoded frame returns the type and length modulo 65536 and the payload cut to that length, as the 16-bit truncation dictates. |
| Wire.DecodeEncodeFrameExact | sockets/protocol.go:138-189 | For a type and payload that fit in 16 bits, decoding an encoded frame returns exactly that type, length and payload. |
| Wire.TrailingBytesIgnored | sockets/protocol.go:149-157 | Bytes beyond the declared length do not change the decoded frame. |
| Wire.SerializeMessage | sockets/protocol.go:165-190 | The frame is 4 bytes longer than the serialized object, and a type and payload that fit in 16 bits decode back unchanged. |
| Wire.QuoteField | sockets/protocol.go:88-95 | A field is left as it is or wrapped in quotes, and the empty field becomes `""`. |
| Wire.QuoteFieldForm | sockets/protocol.go:88-95 | A field with no quote, backslash or other white space and no `[]` prefix is either bare or wrapped in quotes around text without quotes or backslashes. |
| Wire.PlaceStoresAtTag | sockets/protocol.go:71-100 | Every encoded field lands at its tag's index and other slots keep their contents. |
| Wire.ExtractFromInterface | sockets/protocol.go:71-100 | One encoded text per field, each stored at the field's tag. |
| Wire.ExtractInDeclarationOrder | sockets/protocol.go:71-100 | Because tags are declaration order, the extracted list is the fields encoded in order. |
| Wire.WrapInt32 | sockets/protocol.go:41-69 | An integer is reduced into the int32 range and is unchanged when it already fits. |
| Wire.ParseAndSet | sockets/protocol.go:41-69 | Setting a field from a token never changes the field's kind. |
| Wire.SetFromText | sockets/protocol.go:41-69 | Setting a field from its own text representation recovers its decoded value. |
| Wire.Inject | sockets/protocol.go:102-136 | Fails exactly when some tag indexes past the token list; otherwise the i-th field is set from the token at its tag. |
| Wire.DeserializeMessage | sockets/protocol.go:102-195 | Fails exactly when there are fewer tokens than fields, and otherwise keeps the template's kind and tags. |
| Wire.TooFewTokensFails | sockets/protocol.go:131-133 | A payload with too few tokens fails instead of filling the message. |
| Wire.TokenizeJoin | sockets/protocol.go:103-135 | Tokenizing fields joined by single spaces gives back the text each one encodes. |
| Wire.SerializedTokens | sockets/protocol.go:103-163 | Tokenizing a serialized message with safe fields gives each field's text in order. |
| Wire.SerializeObject | sockets/protocol.go:160-163 | When every field is safe on the wire, tokenizing the serialized object gives back each field's text in declaration order. |
| Wire.DeserializeSerialize | sockets/protocol.go:71-195 | Deserializing a serialized message into a template of the same kinds yields the template refilled with the decoded field values. |
| Wire.RequestRoundTrip | sockets/protocol.go:71-195 | For a message of string fields without quotes, backslashes or tab/newline and no `[]` prefix, decode(encode(m)) succeeds and yields each field trimmed of spaces. |
| Wire.DecodeUserListAdd | sockets/protocol.go:71-195 | A user-list-add payload decodes, into a message of its kind, to its four fields without outer spaces. |
| Wire.DecodeUserListRemove | sockets/protocol.go:71-195 | A user-list-remove payload decodes, into a message of its kind, to its two fields without outer spaces. |
| Wire.IntToStringNoSpace | sockets/protocol.go:14-38 | A decimal integer has no spaces, so it goes on the wire bare. |
| ChatSchema.FindUser | chat/schema.go:54-62 | The result is none exactly when no user has the id; otherwise it is the first user with that id. |
| ChatSchema.GetFrom | chat/schema.go:49-63 | An empty sender gives none; otherwise the first involved user with the sender's id, whose id is the sender. |
| ChatSchema.GetTo | chat/schema.go:65-79 | The same contract as `GetFrom`, for the addressee. |
| ChatSchema.GetFromFindsListedSender | chat/schema.go:54-62 | A sender listed among the involved users is always found. |
| ChatSchema.DeliveryAudience | chat/chat.go:347-353 | A private message with an addressee reaches exactly its addressee and sender; any other message reaches everyone. |
| ChatStore.HtmlEscapeSafe | chat/chat.go:73 | An escaped nickname contains no quote, angle bracket or NUL, and a nickname without special characters is unchanged. |
| ChatStore.InstantiateUser | chat/chat.go:67-96 | Fails with "user exists" iff the id is present, and with "nickname selected" iff a user has the same escaped, lowered and trimmed nickname. On success the user is added with an empty outbox, appended to the room's members, and stamped with now; history and events are unchanged. |
| ChatStore.InstantiateUserValid | chat/chat.go:67-96 | Adding a user keeps the store's invariants: members belong to their room, are listed once, and have outboxes and pings. |
| ChatStore.Without | chat/chat.go:106-109 | Removing an id from a member list keeps exactly the other ids. |
| ChatStore.RemoveUser | chat/chat.go:98-122 | Unknown users and admin Discord users leave the store unchanged and return the empty user. Any other user is deleted from every per-user map and from its room's member list, and nothing else changes. |
| ChatStore.RemoveUserValid | chat/chat.go:98-122 | Removing a user keeps the store's invariants. |
| ChatStore.DeliverContents | chat/chat.go:347-353 | A member who should see a message gets it appended to the outbox; every other outbox is unchanged. |
| ChatStore.AppendHistory | chat/chat.go:357-365 | Below capacity the message is appended; at capacity the oldest messages are evicted first so that the new one fits. |
| ChatStore.AppendHistoryBounded | chat/chat.go:357-365 | The history never exceeds 10 messages and is a suffix of the old history plus the new message. |
| ChatStore.Publish | chat/chat.go:60-65 | Publishing to an unknown room fails (the nil bus panics); otherwise exactly one event is appended to the log. |
| ChatStore.SendMessage | chat/chat.go:343-368 | Fails iff the room is unknown. Otherwise members who should see it get the message. Only public or unaddressed messages enter the history. One posted event is logged. Users, members and pings are unchanged. |
| ChatStore.SendMessageReaches | chat/chat.go:343-368 | A user's outbox grows by the message exactly when the user is a room member who should see it. |
| ChatStore.SendMessageValid | chat/chat.go:343-368 | Sending keeps the store's invariants. |
| ChatStore.UserListUpdated | chat/chat.go:60-65 | Fails iff the room is unknown; otherwise stamps the room's list change with now and logs the event. |
| ChatStore.UserListUpdatedValid | chat/chat.go:60-65 | The list-change stamp keeps the store's invariants. |
| ChatStore.GetSingleRoom | chat/chat.go:186-191 | Found exactly for a known room id, and then it is that room. |
| ChatStore.AnnounceJoin | chat/chat.go:285-316 | Fails iff the user's room is unknown, or the introduction's room has no bus. On success it appends exactly these events, in order: the joined message; the private introduction, when the room has an intro message and the user is a web user; the user-joined event. It stamps the room's list change with now. Users, members, pings and rooms are unchanged. |
| ChatStore.AnnounceJoinValid | chat/chat.go:285-316 | The announcements keep the store's invariants. |
| ChatStore.RegisterUser | chat/chat.go:276-319 | Fails with "user exists" and "nickname selected" under the same conditions as `instantiateUser`. A Discord user is registered iff neither applies. Any other user is registered iff neither applies, the room is known, and a room that introduces the user has its own bus. On success the user is stored with its nickname escaped. A Discord user publishes nothing. Any other user's registration appends exactly the join events of `AnnounceJoin`: the joined message, the private introduction when the room has one and the user is a web user, and the user-joined event. |
| ChatStore.RegisterUserValid | chat/chat.go:276-319 | Registration keeps the store's invariants. |
| ChatStore.RegisterDiscordUserSeedsHistory | chat/chat.go:283-285 | A Discord user's outbox starts as the room's public history and no event is published. |
| ChatStore.RegisterUserAnnounces | chat/chat.go:283-316 | A web or socket user's registration first posts the joined message, ends with the user-joined event, and stamps the room's list change. |
| ChatStore.SendMessageExtends | chat/chat.go:343-368 | Sending a message only appends to outboxes: every earlier outbox is a prefix of the new one. |
| ChatStore.RegisterUserSeedsOutbox | chat/chat.go:276-319 | Every registered user's outbox begins with the room's public history as it was before the registration. |
| ChatStore.AnnounceJoinIntroduces | chat/chat.go:298-313 | For a member of a room with an intro message who is a web user, the introduction is the last message of the user's outbox. |
| ChatStore.RegisterUserIntroduces | chat/chat.go:284-313 | A web user registered without a Discord id in a room with an intro message is sent the introduction privately: it is posted on the room's bus and is the last message of the user's outbox. |
| ChatStore.RegisterUserWithoutIntroduction | chat/chat.go:284-316 | A Discord user, a non-web user, or a user whose room has no intro message gets no private message from registration. |
| ChatStore.DeregisterUser | chat/chat.go:321-341 | An unknown id changes nothing. An admin Discord user, any other Discord user, or a user without an id publishes nothing. Any other removed user appends exactly the left message and then the user-left event, and deregistration fails only when that user's room is unknown. |
| ChatStore.DeregisterUserValid | chat/chat.go:321-341 | Deregistration keeps the store's invariants. |
| ChatStore.DeregisterUserRemoves | chat/chat.go:321-341 | A removable user (known, not an admin Discord user) loses exactly its user entry and ping stamp; otherwise users and pings are unchanged. |
| ChatStore.Ping | chat/chat.go:370-379 | Only an existing ping stamp is set to now; anything else leaves the store as it was. |
| ChatStore.IsUserStale | chat/chat.go:381-392 | False for a user without a ping; otherwise true iff more than 120 seconds have passed since the ping. |
| ChatStore.PingKeepsUserFresh | chat/chat.go:370-392 | A user who pinged is not stale for the next 120 seconds. |
| ChatStore.HasUserListChanged | chat/chat.go:394-404 | Reports whether the room's change stamp is at least a millisecond later than the user's, and always resets the user's stamp to now. |
| ChatStore.UserListChangeIsReported | chat/chat.go:394-404 | Asking twice at the same instant reports no change the second time. |
| ChatStore.UserHasMessages | chat/chat.go:406-425 | True iff the user has a ping and a non-empty outbox whose last message is newer than the ping. |
| ChatStore.GetUser | chat/chat.go:240-245 | Found exactly for a known id, and then it is that user. |
| ChatStore.GetRoomUsers | chat/chat.go:222-230 | One entry per member of the room, in member order, each the stored user or the empty user. |
| ChatStore.GetUserMessageList | chat/chat.go:200-205 | Found exactly when the user has an outbox, and then it is the outbox. |
| ChatStore.WithoutDistinct | chat/chat.go:106-109 | Filtering a member list keeps its ids distinct. |
| Levenshtein.LevenshteinDistance | chat/validations.go:37-70 | The matrix method computes the recursive edit distance of the two strings. |
| Levenshtein.EditDistanceFacts | chat/validations.go:37-70 | The distance is zero iff the strings are equal, is symmetric, and lies between the length difference and the longer length. |
| Levenshtein.DistSymmetric | chat/validations.go:37-70 | Swapping the strings does not change the distance of any prefix pair. |
| Levenshtein.DistZeroIffEqual | chat/validations.go:37-70 | A prefix pair has distance zero exactly when the prefixes are equal. |
| Levenshtein.DistBounds | chat/validations.go:37-70 | A prefix pair's distance lies between the length difference and the longer length. |
| Validations.Quotient | chat/validations.go:26-80 | Float division: 0/0 is NaN, x/0 is +Inf, and otherwise the exact quotient. |
| Validations.SubstringPercentage | chat/validations.go:24-34 | Zero when the substring does not occur. Otherwise the result is the percentage of the string the substring covers, so that percentage × string length = 100 × substring length; NaN for an empty string. |
| Validations.PercentageThreshold | chat/validations.go:26-80 | The substring percentage reaches 70 exactly when the substring occurs in a non-empty string and 10 times the substring length is at least 7 times the string length. |
| Validations.DistanceThreshold | chat/validations.go:78-80 | The distance ratio is at most 0.25 exactly when the length is positive and 4·d ≤ length, since 0/0 compares false. |
| Validations.Normalize | chat/validations.go:73-75 | A normalized nickname has no white space, underscore, hyphen or capital letter. |
| Validations.IsNickVariation | chat/validations.go:72-81 | True iff the normalized names are close: either contains the other at 70% of its length or more, or their distance is at most a quarter of the second's length. |
| Validations.SameNormalFormIsVariation | chat/validations.go:72-81 | Non-empty names equal after normalisation are always variations. |
| Validations.EmptyNormalFormIsNoVariation | chat/validations.go:72-81 | A name that normalizes to nothing is never a variation. |
| Validations.UserErrors | chat/validations.go:206-245 | Each of the eight checks adds its error exactly when it fails, so errors accumulate instead of stopping at the first. |
| Validations.FirstUserError | chat/validations.go:206-245 | A ban is reported first, and an empty nickname first when not banned. |
| Validations.UserAcceptedIffClean | chat/validations.go:206-245 | No error is reported iff the user is not banned, the nickname matches the allowed characters with 3 to 20 bytes, and the nickname is clean, free and not logged in. |
| Validations.AppendErrorTexts | chat/validations.go:206-245 | The caller's errors are kept and the new texts follow in check order. |
| Validations.SelectExact | chat/validations.go:206-245 | From distinct candidates, an error is selected exactly when its flag is set. |
| Validations.ValidateUser | chat/validations.go:206-245 | The caller's errors stay in front and one text per failed check follows, in check order. Nothing is added iff the connection is not banned and the nickname matches the allowed characters, has 3 to 20 bytes, is clean, is free and is not logged in. A banned connection's first new error is the ban. |
| Validations.Accepted | chat/validations.go:180-203 | An accepted message keeps sender, addressee, privacy and speech mode, masks the body, and lists the sender then the addressee when known. |
| Validations.ContentGate | chat/validations.go:142-203 | Blocked words or a scream too soon give a private notice and leave the state alone; otherwise the message is accepted, and a scream stamps the last-scream time. |
| Validations.ValidateMessage | chat/validations.go:83-204 | Unknown room, unknown sender or blank body: nothing happens. Otherwise the attempt is recorded. A ban gives the kick notice. Cooldown gives one private notice and sets the flag, then silence. Outside cooldown the flag is reset and the content gate decides. |
| Validations.AcceptedPassedEveryGate | chat/validations.go:83-204 | An accepted message passed every gate in order and is the masked copy; an accepted scream stamps the last-scream time. |
| Validations.CooldownNoticeOnce | chat/validations.go:121-140 | The cooldown notice is sent once, privately to the sender; a later attempt in the same cooldown gets no reply. |
| Validations.ScreamOncePerTimeout | chat/validations.go:160-178 | After an accepted scream, no second scream is accepted within the two-minute timeout. |
| Profanity.CensorWord | profanity-filter.go:55-64 | A censored word keeps its length and its first and last characters, and every interior character becomes `*`. |
| Profanity.ShortWordsUncensored | profanity-filter.go:55-64 | Words of at most two characters are unchanged by censoring. |
| Profanity.MaskWord | profanity-filter.go:46-64 | A word whose lowercase form is censored is masked; any other word is unchanged. |
| Profanity.ReplaceSensoredProfanity | profanity-filter.go:44-68 | The output has the input's length, and its words split on single spaces are the input's words each masked. |
| Profanity.CleanTextUnchanged | profanity-filter.go:44-68 | Text without a censored word is returned unchanged. |
| Profanity.HasBlockedWords | profanity-filter.go:70-83 | True iff some space-separated word, lowercased, is in the blocked list. |
| Profanity.BlockedIgnoresCase | profanity-filter.go:70-83 | Lowercasing the input does not change the blocked check. |
| Profanity.IsProfaneNickname | profanity-filter.go:85-104 | A nickname is profane iff some space-separated word of the lowered nickname is blocked, or some non-empty word of the nickname, lowered, is censored. |
| Profanity.BlockedNicknameIsProfane | profanity-filter.go:70-104 | A nickname with a blocked word is profane. |
| UserState.GetCoolDownMessageSent | sockets/socket-user-state.go:19-27 | The flag reads true exactly when the stored value is the boolean true; a missing flag reads false. |
| UserState.GetLastScream | sockets/socket-user-state.go:33-47 | A stored int64 reads as that Unix second; a missing or mistyped value reads as the epoch. |
| UserState.CoolDownRoundTrip | sockets/socket-user-state.go:19-31 | Setting the cooldown flag and reading it back returns the value set. |
| UserState.LastScreamRoundTrip | sockets/socket-user-state.go:33-52 | Setting the last scream and reading it back returns the instant truncated to its second. |
| UserState.StateKeysIndependent | sockets/socket-user-state.go:19-52 | Setting one of the two values does not change the other. |
| ClientInfoText.ExtractClientInfo | chat/utils.go:9-35 | The empty string gives the all-empty description. |
| ClientInfoText.Assign | chat/utils.go:17-32 | Only the labels os, plat, env and v are assigned; any other label leaves the description unchanged. |
| ClientInfoText.LaterLabelWins | chat/utils.go:17-32 | A later occurrence of a label overwrites an earlier one. |
| ClientInfoText.FormatIsRender | chat/utils.go:37-58 | The formatted text is plat, os, env and v in that order, empty fields omitted, with no surrounding space. |
| ClientInfoText.ExtractFormat | chat/utils.go:9-58 | Extracting a formatted description whose values contain no closing parenthesis gives back the description. |
| ClientInfoText.ClientInfoToMsgSource | chat/utils.go:60-74 | Desktop with "16-bit" maps to the Windows-16 source and other desktop to "". Web maps to web and Discord to Discord. Anything else maps to "". |
| Flood.IsIPBanned | floodcontrol/flood-control.go:28-40 | False for an unregistered IP; otherwise true iff at most 30 minutes have passed since the last maximum flood. |
| Flood.IsCooldownPeriod | floodcontrol/flood-control.go:42-54 | False for an unregistered IP; otherwise true iff at most 2 minutes have passed since the last flood. |
| Flood.Flooded | floodcontrol/flood-control.go:67-75 | The flood is stamped now. A count at the maximum restarts at one with the ban stamped now; otherwise the count grows by one. |
| Flood.SetFlooded | floodcontrol/flood-control.go:56-76 | A no-op for an unregistered IP; otherwise only that IP's record changes, as one flood. |
| Flood.RegisterIp | floodcontrol/flood-control.go:78-86 | Adds a fresh record only when the IP has none and never overwrites one. |
| Flood.RegisterIpIdempotent | floodcontrol/flood-control.go:78-86 | Registering twice is registering once. |
| Flood.FreshIpIsFree | floodcontrol/flood-control.go:28-86 | A freshly registered IP is neither banned nor cooling down. |
| Flood.FloodStartsCooldown | floodcontrol/flood-control.go:67-75 | Right after a flood the IP is cooling down. |
| Flood.FloodAtMaximumBans | floodcontrol/flood-control.go:69-75 | A flood with the count at the maximum bans the IP. |
| Flood.FloodCountBounded | floodcontrol/flood-control.go:69-75 | The count stays between 1 and the maximum of 5. |
| Flood.FirstFloodsDoNotBan | floodcontrol/flood-control.go:69-75 | The first five floods only count and do not stamp a ban. |
| Flood.SixthFloodBans | floodcontrol/flood-control.go:69-75 | The sixth flood from a fresh record stamps the ban and restarts the count at one. |
| SessionFlood.SessionIp | session/flood-control.go:9-13 | The session's IP is its "ip" value when it has one. |
| SessionFlood.IsIPBanned | session/flood-control.go:9-23 | A session without an IP is never banned; otherwise the ban of its IP. |
| SessionFlood.IsCooldownPeriod | session/flood-control.go:25-39 | A session without an IP never cools down; otherwise the cooldown of its IP. |
| SessionFlood.SetFlooded | session/flood-control.go:41-63 | A no-op for a session without an IP; otherwise the flood of its IP. |
| SessionFlood.SessionFloodStartsCooldown | session/flood-control.go:41-63 | Right after a flood the session is cooling down. |
| SessionFlood.SharedIpSharesBan | session/flood-control.go:9-23 | Two sessions with the same IP share its ban. |
| Session.FirstHeader | session/session.go:14-27 | The result is the first non-empty header in the given order, and empty iff all are empty. |
| Session.GetIP | session/session.go:14-27 | The IP is the first non-empty of the Cloudflare, real-IP, forwarded-for and remote-address headers, and empty iff all four are empty. |
| Session.GetIPPrecedence | session/session.go:14-27 | The Cloudflare header wins when present, and the remote address is used only when the other three are empty. |
| Session.GetSessionValue | session/session.go:35-46 | Found exactly when the session and key exist and the value is not nil, and then it is the stored value. |
| Session.SetSessionValue | session/session.go:48-57 | Creates the session lazily, stores the value at the key, and leaves other keys and sessions unchanged. |
| Session.GetAfterSet | session/session.go:35-57 | Reading a key just set returns the value, or nothing when the value is nil. |
| Session.SetLeavesOtherReads | session/session.go:35-57 | Setting one key does not change reading any other key or session. |
| Session.DeregisterSession | session/session.go:59-63 | Exactly that session is removed. |
| Session.GetSessionIds | session/session.go:65-69 | Exactly the current session ids, each once. |
| PubSub.NewPubsub | pubsub/pubsub.go:26-31 | A new registry has no subscribers. |
| PubSub.Subscribe | pubsub/pubsub.go:34-42 | Installs an empty inbox for the id, replacing any existing one; other ids are untouched. |
| PubSub.Unsubscribe | pubsub/pubsub.go:45-57 | An unknown id fails with "id not found"; a known id is removed alone. |
| PubSub.Publish | pubsub/pubsub.go:60-69 | The subscriber set is unchanged; exactly the ready subscribers receive the message. |
| PubSub.ResubscribeDropsInbox | pubsub/pubsub.go:34-42 | Subscribing again discards undelivered messages, so subscribing is not idempotent. |
| PubSub.UnsubscribeAfterSubscribe | pubsub/pubsub.go:34-57 | Unsubscribing right after subscribing removes the id. |
| PubSub.PublishToNoneIsIdentity | pubsub/pubsub.go:60-69 | Publishing when no subscriber is ready changes nothing. |
| Messages.UnescapeEscape | sockets/messages.go:45-53 | Undoing the escaping of a sub-object recovers its text. |
| Messages.SerializeSubObject | sockets/messages.go:45-53 | Nil gives ""; otherwise the escaped serialized object, from which the object's text is recovered. |
| Messages.PushMessage | sockets/messages.go:55-118 | A frame is written exactly when the connection's IP is not banned and its user should see the message; it carries the message-sent fields. |
| Messages.SentCarriesMessage | sockets/messages.go:67-118 | The message-sent fields carry the room, mode and text, booleans as "true"/"false", and escaped sender, addressee and subject. |
| Messages.PushMatchesStoreDelivery | sockets/messages.go:64-66 | For a member of an unbanned connection, the socket push and the store's outbox agree on whether the user gets the message. |
| Messages.Pushes | sockets/messages.go:185-193 | A banned connection gets no history. Otherwise the frames are the history frames of exactly the messages delivered to the user, one per message, in outbox order; so nothing is dropped exactly when every message is visible. |
| Messages.PushUserJoined | sockets/messages.go:16-24 | The user-list-add frame is 4 bytes longer than its payload. A payload that fits in 16 bits decodes as a frame of the user-list-add code carrying exactly that payload. |
| Messages.PushUserLeft | sockets/messages.go:26-32 | The user-list-remove frame is 4 bytes longer than its payload. A payload that fits in 16 bits decodes as a frame of the user-list-remove code carrying exactly that payload. |
| Messages.UserJoinedPayloadRoundTrip | sockets/messages.go:16-24 | A client decoding the user-list-add payload gets back the user's id, nickname, colour and room, each without outer spaces, when they are safe on the wire. |
| Messages.UserLeftPayloadRoundTrip | sockets/messages.go:26-32 | A client decoding the user-list-remove payload gets back the user's id and room, each without outer spaces. |
| Messages.PushUserKickedMessage | sockets/messages.go:34-43 | A kick for another user changes nothing; a kick for this connection's user writes exactly the kicked frame. |
| Messages.KickedUserIsDeregistered | sockets/messages.go:34-43 | A kicked user is removed from the store unless it is an admin Discord user. |
| Messages.UserListFrames | sockets/messages.go:158-169 | One user-list-add frame per room user, in order. |
| Messages.StoreErrors | sockets/messages.go:143-150 | No error iff the store accepts; "user exists" maps to the nickname-in-use text, and any other failure to the try-again text. |
| Messages.RegisterOutcome | sockets/messages.go:143-194 | Only the first error is written, as the single server-error frame. More than one frame means the store accepted the user. The store changes only when no error was found. |
| Messages.RefusedRegistrationWritesOneError | sockets/messages.go:143-156 | A refused registration writes exactly one frame and changes nothing else. |
| Messages.AcceptedRegistration | sockets/messages.go:158-193 | An accepted registration stores the user, binds it to the connection and publishes the internal event. Its whole output is one user-list frame per user of the room, then the success frame with the stored nickname, colour and room, then the history pushes of the user's outbox. |
| Messages.RegisterUserHandler | sockets/messages.go:120-194 | A payload that does not deserialize fails (the decoder panics). A decoded request describes a new user with the next fresh id; the outcome is that of registering this user with the errors `ValidateUser` reports, so the store and the frames follow `RegisterOutcome`. |
| Messages.Commit | sockets/messages.go:236-247 | Nothing is written. A rejected message changes only flood state. An accepted message is sent to the store, preceded by the flood kick when the IP is banned. |
| Messages.RequestedMessage | sockets/messages.go:205-234 | The validated message carries the request's sender, addressee, privacy, mode, text and room, and lists the sender first. |
| Messages.SendMessageHandler | sockets/messages.go:196-248 | A payload that does not deserialize fails; otherwise nothing is written to the connection. A request from a known sender with a boolean privacy flag becomes the chat message it describes, which goes through the message gate and is committed as `Commit` states. |
| Messages.DroppedRequestsChangeNothing | sockets/messages.go:199-218 | An unknown sender or an unparsable privacy flag drops the request silently. |
| Messages.ColorListMessage | sockets/messages.go:255-268 | The colour list carries every nickname colour and its name, in order. |
| Messages.RoomListMessage | sockets/messages.go:270-284 | The room list carries every room's id and name, in order. |
| Messages.ProcessMessage | sockets/messages.go:250-303 | A frame that fails header decoding, or has an unknown code, is dropped with no output. Each client code goes to its own handler. A ping changes nothing, and fails iff its payload does not decode, as the decoder panics on a ping without a token. |
| Messages.EncodedRequestIsDispatched | sockets/messages.go:250-303 | An encoded request reaches the handler for its code with its content intact; an encoded ping fails iff its content does not decode, and otherwise changes nothing. |
| Rooms.FindFirst | chatroom/chat-room.go:184-248 | None exactly when nothing matches; otherwise the first match. |
| Rooms.Keep | chatroom/chat-room.go:136-138 | Every kept entry satisfies the predicate and comes from the list, every entry that satisfies it is kept, and the list is unchanged when all entries do. |
| Rooms.KeepAppend | chatroom/chat-room.go:136-138 | Filtering a concatenation filters each part and keeps them in order, so the kept entries keep their relative order. |
| Rooms.KeepSingle | chatroom/chat-room.go:136-138 | A single entry is kept exactly when it satisfies the predicate. |
| Rooms.KeepKeepsAll | chatroom/chat-room.go:136-138 | The filter drops nothing exactly when every entry satisfies the predicate. |
| Rooms.KeepCount | chatroom/chat-room.go:136-138 | An entry that satisfies the predicate occurs as often in the result as in the list; any other entry does not occur. |
| Rooms.AllWithinRange | chatroom/chat-room.go:287-302 | True iff every listed message is within the flood range of the reference message. |
| Rooms.CheckForMessageAbuse | chatroom/chat-room.go:276-302 | Discord and owner users are never flagged; otherwise flagged iff the user's newest messages form a burst within the range. |
| Rooms.FewMessagesNeverFlagged | chatroom/chat-room.go:283-285 | A user with fewer than the threshold of messages is never flagged. |
| Rooms.Prepend | chatroom/chat-room.go:165-182 | The new message goes first and the history is cut to 200. |
| Rooms.SendMessage | chatroom/chat-room.go:165-182 | Fails exactly when abuse is flagged and the session's IP value is not text (the type assertion panics). Otherwise the message is prepended, posted once, and the sender's IP is flooded only when abuse was flagged. |
| Rooms.RegisterUser | chatroom/chat-room.go:53-95 | Fails with "user exists" iff the id derived from the lowered, trimmed nickname is listed. Otherwise it succeeds unless the joined message reveals a flood and the session's "ip" value is not text. On success the list grows by exactly that user, the joined message is prepended and posted, and the list stamp is now. |
| Rooms.SameNicknameFormCollides | chatroom/chat-room.go:53-65 | Nicknames that differ only in case or outer spaces collide. |
| Rooms.RegisterDiscordUser | chatroom/chat-room.go:97-127 | A known Discord id returns the existing entry unchanged; a new one is appended once. |
| Rooms.RegisterDiscordUserKeepsIdsDistinct | chatroom/chat-room.go:97-127 | Discord registration never duplicates an id. |
| Rooms.DeregisterUser | chatroom/chat-room.go:129-153 | Without an owner it fails. For the owner it only logs the owner out. Any other user is deregistered unless the left message reveals a flood and the session's "ip" value is not text. Then every entry with the id goes, the left message is prepended and posted on the bus, and the list stamp is now. |
| Rooms.DeregisteredUserIsGone | chatroom/chat-room.go:129-153 | After deregistration no web entry has the id. |
| Rooms.DeregisterDiscordUserAsWritten | chatroom/chat-room.go:155-163 | As written: the web list is replaced by the filtered Discord list, and the Discord list keeps the user. |
| Rooms.DeregisterDiscordUserAsWrittenLosesWebUsers | chatroom/chat-room.go:155-163 | A room with one web user and one Discord user loses the web user and keeps the Discord user. |
| Rooms.DeregisterDiscordUser | chatroom/chat-room.go:155-163 | As intended: the web list is unchanged and exactly the entries with the id leave the Discord list. |
| Rooms.GetUser | chatroom/chat-room.go:184-203 | Owner (by id or Discord id) first, then Discord users, then web users; none iff nobody matches. |
| Rooms.GetUserByNickname | chatroom/chat-room.go:205-226 | Fails iff there is no owner, whose nickname is read without a nil check. Otherwise owner, then Discord users, then web users, with a lowered, trimmed comparison; none iff nobody matches. |
| Rooms.GetUserBySessionIdent | chatroom/chat-room.go:228-248 | Fails iff there is no owner. Otherwise the same priority on the session ident; none iff nobody matches. |
| Rooms.FindRoomById | chatroom/query.go:5-11 | None iff no room has the id; otherwise the earliest room with it. |
| Rooms.FindRoomByDiscordChannel | chatroom/query.go:13-19 | None iff no room has the channel; otherwise the earliest room with it. |
| Rooms.InitializeOwner | chatroom/owner.go:10-22 | Id, nickname and colour come from the configuration. The owner has an empty session ident and is a Discord user iff a Discord id is configured. |
| Rooms.LoginOwner | chatroom/owner.go:24-26 | Fails without an owner; otherwise binds the owner to the session. |
| Rooms.LoginOwnerBindsSession | chatroom/owner.go:24-26 | Login changes only the session ident, after which the owner is found by it. |
| LegacyRoom.GetMessageRate | chat-room.go:52-73 | Always within [2, 60]. 60 with no messages or once 120 s have passed. 2 within 6 s. Otherwise the age of the newest message halved, in whole seconds. |
| LegacyRoom.MessageRateSlowsWithAge | chat-room.go:52-73 | The rate never speeds up as time passes. |
| LegacyRoom.UpdateMessageRate | chat-room.go:75-77 | Only the user's rate changes, to the room's current message rate, which lies within [2, 60]. |
| LegacyRoom.SendMessage | chat-room.go:131-136 | Prepends, caps at 200 and leaves the users untouched. |
| LegacyRoom.SendMessageKeepsBound | chat-room.go:131-136 | The history never exceeds 200 and keeps the older messages in order. |
| LegacyRoom.RegisterUserAsWritten | chat-room.go:79-112 | As written: fails iff a stored nickname equals the lowered, trimmed input; on success the list grows by one with the joined message in front. |
| LegacyRoom.RegisterUserAsWrittenAdmitsTwins | chat-room.go:79-112 | Registering "Bob" twice succeeds both times and lists two users with the same id. |
| LegacyRoom.RegisterUser | chat-room.go:79-112 | As intended: fails iff the derived id is listed. |
| LegacyRoom.RegisterUserKeepsIdsDistinct | chat-room.go:79-112 | The intended registration keeps ids distinct. |
| LegacyRoom.DeregisterUser | chat-room.go:114-129 | Every entry with the id leaves; every other entry stays as often as it was listed. The left message is in front and the list stamp is now. |
| LegacyRoom.Others | chat-room.go:115-117 | The filter keeps exactly the entries with another id. |
| LegacyRoom.OthersCount | chat-room.go:115-117 | An entry with another id is kept as often as it occurs; entries with the id are gone. |
| LegacyRoom.DeregisterUserKeepsOrder | chat-room.go:114-129 | Deregistration keeps the remaining users in their order: for any split of the list, what remains of the front stays ahead of what remains of the back. |
| Templates.IsMessageVisible | templates/template-functions.go:34-40 | A user sees a room message exactly when the chat store's delivery rule would deliver it, as long as an addressee has an id. |
| Templates.IsMessageToSelf | templates/template-functions.go:42-48 | True exactly for a message addressed to the user, which the user then also sees. |
| Templates.VisibilityAudience | templates/template-functions.go:34-40 | Public or unaddressed messages are visible to everyone; a private addressed one exactly to its addressee and sender. |
| Templates.ToSelfIsVisible | templates/template-functions.go:34-48 | A message to the user is visible to the user. |
| Templates.VisibleIffDelivered | templates/template-functions.go:34-40 | The template filter is the chat store's delivery rule. |
| Join.SameNickIsVariation | routes/join.go:68-74 | Names equal after normalisation are also variations in the validator's sense. |
| Join.SameNickIgnoresCase | routes/join.go:68-74 | Case does not matter to the comparison. |
| Join.MajorVersion | routes/join.go:27-43 | A parsable major version is used as is; an unparsable one counts as 99. |
| Join.SupportsChatEventAwaiter | routes/join.go:21-44 | Unsupported exactly for Opera up to 4 and IE up to 3. |
| Join.SupportsByVersion | routes/join.go:21-44 | The decision in terms of the version number; an unparsable version is supported. |
| Join.Credentials | routes/join.go:94-96 | The nickname is the text before the first "###", and the pieces rejoin to the input. |
| Join.PreCheckErrors | routes/join.go:107-123 | Each of the ban, empty, profane and captcha errors is present exactly when its check fails; a stored captcha that is not text fails (the type assertion panics). |
| Join.Decide | routes/join.go:125-152 | Any pre-check error refuses. Owner login requires a password whose digest is the lowered configured one and an owner-variation nickname. Registration requires no password and a nickname that is not the owner's. |
| Join.OwnerNicknameWithoutPasswordIsTaken | routes/join.go:129-143 | The owner's nickname without a password is refused as taken. |
| Join.LoweredOwnerNicknameIsTaken | routes/join.go:125-143 | The owner's nickname typed in any case, without a password, is refused as taken. |
| Join.Apply | routes/join.go:125-160 | Login binds the owner to the session and fails without an owner. Registration goes through the room: it fails iff the room registration fails with anything but "user exists", which is refused as a taken nickname, and a successful one yields the room's new state. Sessions are not touched. |
| Join.PreCheckErrorsSkipEverything | routes/join.go:107-128 | A pre-check error skips registration and login entirely. |
| Join.PostJoin | routes/join.go:86-163 | Fails when the session's IP or the stored captcha is not text. Otherwise the room, the errors, the owner and the posts are those of carrying out `Decide` on the pre-check errors. An error leaves the owner alone; success stores the awaiter decision in the session. |
| Tasks.SessionCleanup | tasks/session-cleanup.go:11-33 | A session survives exactly when some room user is bound to it, and survivors are unchanged. |
| Tasks.StatusSweep | tasks/check-user-status.go:8-19 | A sweep only removes users; every user it keeps is unchanged. |
| Tasks.StatusSweepRemoves | tasks/check-user-status.go:8-19 | A sweep removes exactly the removable users it lists. |
| Tasks.StatusSweepOutcome | tasks/check-user-status.go:10-15 | A user leaves iff it is a stale web user that deregistration removes. Other platforms and users pinged within 120 s stay. |
| Tasks.StatusSweepPosts | tasks/check-user-status.go:10-15 | A sweep posts, for each listed user in order, the left message and the user-left event exactly when that user is a removable web user with an id and no Discord id; it posts nothing else. |

## Left out

- Network and transport: the socket read loops, goroutines, WebSocket and native-socket plumbing. Writing to a connection is appending to an output sequence.
- Concurrency: mutexes, channels, the chat event awaiter and the readiness test behind `Publish`. Delivery is a set of ready subscribers given as a parameter.
- HTTP handlers other than the decision logic of the join form. That includes the session-bound variants of the message gate, which repeat the gate modelled from `chat/validations.go`.
- HTML rendering, URL helpers and captcha generation.
- The Discord bridge, which formats for and calls an external service.
- The HSLuv text-colour computation, which is floating-point colour math.
- Configuration and file loading. Word lists and configuration values are parameters.
- Hashing, UUIDs, clocks and timestamp formatting are parameters (`nameId`, `digest`, `now`, `formatTime`). So are `floodcontrol.RecordMessage` (`record`), the owner logout, the user-agent parser's output and the platform constants.
- Join.PostJoin: the branch that reports "Couldn't register user" is not reachable, because the room registration fails only with "user exists". The sessions after `RegisterUserIP` are a parameter.
- LegacyRoom.Announcement: the root package's speech-mode list is not part of this model; its first entry is taken to be "says-to", as in the later packages.
- Tasks.StatusSweepRemoves: the order in which the sweep visits the users (Go map order) is the parameter `users`, a list of the store's users.
- Flood.IsIPBanned: the record fields are those of `session/schema.go`, because `floodcontrol/schema.go` declares different names from the ones `floodcontrol/flood-control.go` reads.
- SessionFlood.SessionIp: sessions are keyed by the session ident, because the code calls `GetSessionValue` with an ident while it takes a request context.
- Rooms.SendMessage: when the abuse check flags a session whose "ip" value is not text, the Go type assertion in `SetFlooded` panics after the message was already prepended and published (chatroom/chat-room.go:168-176). gin's recovery handler, which `gin.Default` installs (main.go:42), keeps those effects and only answers with an error; the model returns a `Failure` and drops them. The same holds for every other call the model turns into a `Failure` on an HTTP route.
- Panics in socket goroutines: the Go process ends, because nothing recovers there. The model returns a `Failure` for those calls too, including a ping whose payload has no token.
- SessionFlood.IsIPBanned: `session/flood-control.go` reads `MESSAGE_FLOOD_IP_BAN_MIN`, `MESSAGE_FLOOD_COOLDOWN_MIN` and `MESSAGE_FLOOD_MAXIMUM_FLOODS` unqualified, but none of the session package's files declares them. The model takes the values of `floodcontrol/constants.go` (30, 2 and 5) for both packages.
- Rooms.CheckForMessageAbuse: `chatroom/chat-room.go` reads `session.MESSAGE_FLOOD_MESSAGES_COUNT` and `session.MESSAGE_FLOOD_RANGE_SEC`, which the session package does not declare either. The model uses the values of `floodcontrol/constants.go` (6 and 4).
- Validations.ValidateMessage: the cooldown notice reads `floodcontrol.MESSAGE_FLOOD_COOLDOWN_SEC`, which `floodcontrol/constants.go` does not declare; it declares only `MESSAGE_FLOOD_COOLDOWN_MIN = 2`. The cooldown length the notice quotes is therefore the parameter `cooldownSec`.
- Rooms.LoginOwner: `routes/join.go` calls it with two arguments while `chatroom/owner.go` declares one; the model binds the session ident passed in.
- PubSub.Subscribe follows the code, which replaces an existing inbox; it is not idempotent.
- Validations.Quotient: float64 division is modelled with exact real numbers, which agrees with the comparisons made at 70% and 25% for the lengths a nickname can have.
- ChatStore.RegisterUser: the store's intro message for web users is modelled; the id generator `GetCombinedId` is the caller's concern.
- Strings are byte strings: lowercasing and white space follow ASCII, and multi-byte UTF-8 is not modelled.
- The copies of `session.go` and `template-functions.go` at the repository root are the same as the modelled packages.

## Findings

| source | as written | input that shows it | evidently intended | confidence | as-written member | corrected member |
|---|---|---|---|---|---|---|
| chatroom/chat-room.go:155-163 | `DeregisterDiscordUser` assigns the Discord list, filtered, to the web user list | a room with web user "w" and Discord user "d"; deregister "d" | the Discord list loses "d" and the web list is unchanged | high, not executed | Rooms.DeregisterDiscordUserAsWritten, Rooms.DeregisterDiscordUserAsWrittenLosesWebUsers | Rooms.DeregisterDiscordUser |
| chat-room.go:79-112 | `RegisterUser` compares stored nicknames, kept as typed, with the lowered and trimmed input | register "Bob" twice in an empty room | the second registration fails with "user exists", since both derive the same id | high, not executed | LegacyRoom.RegisterUserAsWritten, LegacyRoom.RegisterUserAsWrittenAdmitsTwins | LegacyRoom.RegisterUser, LegacyRoom.RegisterUserKeepsIdsDistinct |

=== FILE: chatschema.dfy ===
/** The records of the chat package (chat/schema.go, chat/constants.go):
    rooms, users and messages. Pointers to users inside a message become
    optional copies, as the code only ever reads them. */
module ChatSchema {
  import opened Wrappers
  import opened Clock
  import opened ClientInfoText

  const MaxMessages: nat := 200
  const UserStaleTimeout: nat := 120
  const UserMaxMessageRateSec: nat := 60
  const UserMinMessageRateSec: nat := 2
  const UserScreamTimeoutMin: nat := 2
  const MaxRoomMessageHistory: nat := 10

  const ModeSayTo: string := "says-to"
  const ModeScreamAt: string := "screams-at"
  const ModeWhisperTo: string := "whispers-to"

  /** The speech modes in menu order; the first is the default. */
  const SpeechModes: seq<string> := [ModeSayTo, ModeScreamAt, ModeWhisperTo]

  /** A colour a user may pick, with its menu name. */
  datatype NicknameColor = NicknameColor(color: string, name: string)

  const NicknameColors: seq<NicknameColor> := [
    NicknameColor("#000000", "Black"), NicknameColor("#878700", "Beige"),
    NicknameColor("#875f00", "Brown"), NicknameColor("#FF00AF", "Pink"),
    NicknameColor("#800080", "Purple"), NicknameColor("#004080", "Navy"),
    NicknameColor("#008080", "Teal"), NicknameColor("#FFAF00", "Orange"),
    NicknameColor("#FF0000", "Red"), NicknameColor("#0000FF", "Blue")]

  datatype ChatRoom = ChatRoom(
    id: string,
    name: string,
    description: string,
    color: string,
    discordChannel: string,
    introMessage: string,
    lastUserListUpdate: Time,
    textColor: string)

  /** A chat user. The `client` field is the parsed client description that
      the user-status sweep reads; `chat/schema.go` does not declare it. */
  datatype ChatUser = ChatUser(
    id: string,
    nickname: string,
    color: string,
    discordId: string,
    isAdmin: bool,
    roomId: string,
    isWebUser: bool,
    client: ClientInfo)

  /** The zero `ChatUser{}`. */
  const NoUser: ChatUser := ChatUser("", "", "", "", false, "", false, EmptyInfo)

  datatype ChatMessage = ChatMessage(
    roomId: string,
    time: Time,
    message: string,
    from: string,
    to: string,
    privately: bool,
    speechMode: string,
    isSystemMessage: bool,
    systemMessageSubject: Option<ChatUser>,
    fromDiscord: bool,
    involvedUsers: seq<ChatUser>)

  /** `IsDiscordUser`. */
  predicate IsDiscordUser(u: ChatUser) {
    u.discordId != ""
  }

  /** `lo.Find` on user ids: the first user with the id. */
  function FindUser(users: seq<ChatUser>, id: string): (r: Option<ChatUser>)
    ensures r.None? <==> forall k :: 0 <= k < |users| ==> users[k].id != id
    ensures r.Some? ==> r.value.id == id
    ensures r.Some? ==>
      exists k :: (0 <= k < |users| && users[k] == r.value && forall j :: 0 <= j < k ==> users[j].id != id)
    decreases |users|
  {
    if |users| == 0 then None
    else if users[0].id == id then Some(users[0])
    else
      var r := FindUser(users[1..], id);
      assert forall k :: 1 <= k < |users| ==> users[k] == users[1..][k - 1];
      if r.Some? then
        var k :| 0 <= k < |users[1..]| && users[1..][k] == r.value &&
          forall j :: 0 <= j < k ==> users[1..][j].id != id;
        assert users[k + 1] == r.value;
        r
      else r
  }

  /** `GetFrom`: none for an empty sender, otherwise the first involved user
      with the sender's id. */
  function GetFrom(m: ChatMessage): (r: Option<ChatUser>)
    ensures m.from == "" ==> r.None?
    ensures m.from != "" ==> r == FindUser(m.involvedUsers, m.from)
    ensures r.Some? ==> r.value.id == m.from
  {
    if m.from == "" then None else FindUser(m.involvedUsers, m.from)
  }

  /** `GetTo`: the same lookup for the addressee. */
  function GetTo(m: ChatMessage): (r: Option<ChatUser>)
    ensures m.to == "" ==> r.None?
    ensures m.to != "" ==> r == FindUser(m.involvedUsers, m.to)
    ensures r.Some? ==> r.value.id == m.to
  {
    if m.to == "" then None else FindUser(m.involvedUsers, m.to)
  }

  /** Who receives a message: a private message with an addressee reaches
      only its sender and its addressee; every other message reaches all. */
  predicate DeliveredTo(m: ChatMessage, userId: string) {
    !(m.privately && m.to != "" && m.to != userId && m.from != userId)
  }

  /** A message whose sender is listed among its involved users resolves to
      that user, and one whose sender is not listed resolves to none. */
  lemma GetFromFindsListedSender(m: ChatMessage, k: nat)
    requires m.from != "" && k < |m.involvedUsers| && m.involvedUsers[k].id == m.from
    ensures GetFrom(m).Some? && GetFrom(m).value.id == m.from
  {
  }

  /** Only the sender and the addressee see a private addressed message;
      everybody sees the rest. */
  lemma DeliveryAudience(m: ChatMessage, userId: string)
    ensures m.privately && m.to != "" ==> (DeliveredTo(m, userId) <==> userId in {m.to, m.from})
    ensures !m.privately || m.to == "" ==> DeliveredTo(m, userId)
  {
  }
}

=== FILE: chatstore.dfy ===
/** The in-memory chat store of chat/chat.go: rooms, users, per-user
    outboxes, room member lists, a short public history per room, and the
    ping and user-list stamps. The package-level maps become one immutable
    record; every `Publish` on a room's event bus is appended to an event log.
    A room's event bus exists only for configured rooms, and publishing on a
    missing one is a nil dereference: such a call yields a failure. */
module ChatStore {
  import opened Wrappers
  import opened Text
  import opened Clock
  import opened ChatSchema

  datatype Event =
    | MessagePosted(message: ChatMessage)
    | UserJoined(user: ChatUser)
    | UserLeft(user: ChatUser)
    | UserKicked(userId: string, reason: string)

  datatype Posted = Posted(roomId: string, event: Event)

  datatype Store = Store(
    rooms: map<string, ChatRoom>,
    roomKeys: seq<string>,
    users: map<string, ChatUser>,
    userMessages: map<string, seq<ChatMessage>>,
    roomMessageHistory: map<string, seq<ChatMessage>>,
    roomUsers: map<string, seq<string>>,
    userLastUserListChange: map<string, Time>,
    roomLastUserListChange: map<string, Time>,
    userPings: map<string, Time>,
    events: seq<Posted>)

  /** Reading a missing key of a map of slices gives the nil slice. */
  function Messages(m: map<string, seq<ChatMessage>>, key: string): seq<ChatMessage> {
    if key in m then m[key] else []
  }

  function Members(m: map<string, seq<string>>, key: string): seq<string> {
    if key in m then m[key] else []
  }

  // ---------------------------------------------------------------------
  // HTML escaping of nicknames
  // ---------------------------------------------------------------------

  /** The escape of one byte by `template.HTMLEscapeString`; a NUL becomes
      the three UTF-8 bytes of U+FFFD. */
  function EscapeHtmlChar(c: char): string {
    if c == '"' then "&#34;"
    else if c == '\'' then "&#39;"
    else if c == '&' then "&amp;"
    else if c == '<' then "&lt;"
    else if c == '>' then "&gt;"
    else if c == '\0' then "ï¿½"
    else [c]
  }

  predicate IsHtmlSpecial(c: char) {
    c in "\"'&<>\0"
  }

  function HtmlEscape(s: string): (r: string) {
    FlatMap(s, EscapeHtmlChar)
  }

  /** Escaped text holds no markup character, and text without a special
      character passes unchanged. */
  lemma {:induction false} HtmlEscapeSafe(s: string)
    ensures forall i :: 0 <= i < |HtmlEscape(s)| ==> HtmlEscape(s)[i] !in "\"'<>\0"
    ensures (forall i :: 0 <= i < |s| ==> !IsHtmlSpecial(s[i])) ==> HtmlEscape(s) == s
    decreases |s|
  {
    if |s| > 0 {
      HtmlEscapeSafe(s[1..]);
      var head := EscapeHtmlChar(s[0]);
      var tail := HtmlEscape(s[1..]);
      assert HtmlEscape(s) == head + tail;
      assert forall i :: 0 <= i < |head| ==> head[i] !in "\"'<>\0";
      forall i | 0 <= i < |head + tail| ensures (head + tail)[i] !in "\"'<>\0" {
        if i >= |head| { assert (head + tail)[i] == tail[i - |head|]; }
      }
      if forall i :: 0 <= i < |s| ==> !IsHtmlSpecial(s[i]) {
        assert forall i :: 0 <= i < |s[1..]| ==> s[1..][i] == s[i + 1];
        assert head == [s[0]];
        assert s == [s[0]] + s[1..];
      }
    }
  }

  // ---------------------------------------------------------------------
  // Users
  // ---------------------------------------------------------------------

  /** The nickname comparison of `instantiateUser`: lower case, spaces
      trimmed. */
  function ComparisonNickname(nickname: string): string {
    TrimSpaces(ToLower(nickname))
  }

  predicate NicknameSelected(s: Store, nickname: string) {
    exists id {:trigger ComparisonNickname(s.users[id].nickname)} ::
      id in s.users && ComparisonNickname(s.users[id].nickname) == ComparisonNickname(nickname)
  }

  /** `instantiateUser`: the nickname is HTML-escaped; a known id fails with
      "user exists", a nickname some user already has fails with "nickname
      selected"; otherwise the user is stored with an empty outbox, joins its
      room's member list, and both of its stamps are `now`. */
  function InstantiateUser(s: Store, user: ChatUser, now: Time): (r: Result<Store, string>)
    ensures user.id in s.users <==> r == Failure("user exists")
    ensures r == Failure("nickname selected") <==>
      user.id !in s.users && NicknameSelected(s, HtmlEscape(user.nickname))
    ensures r.Success? ==>
      && r.value.users == s.users[user.id := user.(nickname := HtmlEscape(user.nickname))]
      && r.value.userMessages == s.userMessages[user.id := []]
      && r.value.roomUsers == s.roomUsers[user.roomId := Members(s.roomUsers, user.roomId) + [user.id]]
      && r.value.userPings == s.userPings[user.id := now]
      && r.value.userLastUserListChange == s.userLastUserListChange[user.id := now]
      && r.value.roomMessageHistory == s.roomMessageHistory
      && r.value.events == s.events
  {
    var u := user.(nickname := HtmlEscape(user.nickname));
    if u.id in s.users then Failure("user exists")
    else if NicknameSelected(s, u.nickname) then Failure("nickname selected")
    else
      Success(s.(
        users := s.users[u.id := u],
        userMessages := s.userMessages[u.id := []],
        roomUsers := s.roomUsers[u.roomId := Members(s.roomUsers, u.roomId) + [u.id]],
        userLastUserListChange := s.userLastUserListChange[u.id := now],
        userPings := s.userPings[u.id := now]))
  }

  function Without(ids: seq<string>, id: string): (r: seq<string>)
    ensures forall x :: x in r <==> x in ids && x != id
    ensures |r| <= |ids|
    decreases |ids|
  {
    if |ids| == 0 then []
    else (if ids[0] == id then [] else [ids[0]]) + Without(ids[1..], id)
  }

  /** `removeUser`: unknown users and Discord-linked admins are kept, and the
      zero user is returned; otherwise the user leaves every per-user map and
      its room's member list, and is returned. */
  function RemoveUser(s: Store, id: string): (r: (Store, ChatUser))
    ensures id !in s.users || (s.users[id].isAdmin && IsDiscordUser(s.users[id])) ==> r == (s, NoUser)
    ensures id in s.users && !(s.users[id].isAdmin && IsDiscordUser(s.users[id])) ==>
      var u := s.users[id];
      && r.1 == u
      && r.0.users == s.users - {id}
      && r.0.userMessages == s.userMessages - {id}
      && r.0.userPings == s.userPings - {id}
      && r.0.userLastUserListChange == s.userLastUserListChange - {id}
      && r.0.roomUsers == s.roomUsers[u.roomId := Without(Members(s.roomUsers, u.roomId), id)]
      && r.0.roomMessageHistory == s.roomMessageHistory
      && r.0.events == s.events
  {
    if id !in s.users || (s.users[id].isAdmin && IsDiscordUser(s.users[id])) then (s, NoUser)
    else
      var u := s.users[id];
      (s.(
        roomUsers := s.roomUsers[u.roomId := Without(Members(s.roomUsers, u.roomId), id)],
        userMessages := s.userMessages - {id},
        users := s.users - {id},
        userLastUserListChange := s.userLastUserListChange - {id},
        userPings := s.userPings - {id}), u)
  }

  // ---------------------------------------------------------------------
  // Messages
  // ---------------------------------------------------------------------

  /** The outbox loop of `SendMessage` over the room's member ids. */
  function Deliver(outboxes: map<string, seq<ChatMessage>>, members: seq<string>, m: ChatMessage):
    map<string, seq<ChatMessage>>
    decreases |members|
  {
    if |members| == 0 then outboxes
    else
      var id := members[0];
      var next := if DeliveredTo(m, id) then outboxes[id := Messages(outboxes, id) + [m]] else outboxes;
      Deliver(next, members[1..], m)
  }

  predicate DistinctIds(ids: seq<string>) {
    forall i, j :: 0 <= i < j < |ids| ==> ids[i] != ids[j]
  }

  /** With distinct member ids, each member the message is delivered to
      gets it appended to its outbox once; every other outbox is unchanged. */
  lemma {:induction false} DeliverContents(outboxes: map<string, seq<ChatMessage>>, members: seq<string>,
                                           m: ChatMessage, id: string)
    requires DistinctIds(members)
    ensures id in members && DeliveredTo(m, id) ==>
      id in Deliver(outboxes, members, m) && Deliver(outboxes, members, m)[id] == Messages(outboxes, id) + [m]
    ensures !(id in members && DeliveredTo(m, id)) ==>
      (id in Deliver(outboxes, members, m) <==> id in outboxes) &&
      (id in outboxes ==> Deliver(outboxes, members, m)[id] == outboxes[id])
    decreases |members|
  {
    if |members| > 0 {
      var x := members[0];
      var next := if DeliveredTo(m, x) then outboxes[x := Messages(outboxes, x) + [m]] else outboxes;
      var rest := members[1..];
      assert DistinctIds(rest) by {
        forall i, j | 0 <= i < j < |rest| ensures rest[i] != rest[j] {
          assert rest[i] == members[i + 1] && rest[j] == members[j + 1];
        }
      }
      assert x !in rest by {
        forall k | 0 <= k < |rest| ensures rest[k] != x { assert rest[k] == members[k + 1]; }
      }
      assert id in members <==> id == x || id in rest;
      DeliverContents(next, rest, m, id);
    }
  }

  /** Keeping the public history short: at the limit the oldest messages go
      first, so that the new message fits. */
  function AppendHistory(h: seq<ChatMessage>, m: ChatMessage): (r: seq<ChatMessage>)
    ensures |h| < MaxRoomMessageHistory ==> r == h + [m]
    ensures |h| >= MaxRoomMessageHistory ==> r == h[|h| - MaxRoomMessageHistory + 1..] + [m]
  {
    var kept := if |h| >= MaxRoomMessageHistory then h[|h| - MaxRoomMessageHistory + 1..] else h;
    kept + [m]
  }

  /** Publishing on a room's event bus. */
  function Publish(s: Store, roomId: string, e: Event): (r: Result<Store, string>)
    ensures roomId !in s.rooms <==> r.Failure?
    ensures r.Success? ==> r.value == s.(events := s.events + [Posted(roomId, e)])
  {
    if roomId !in s.rooms then Failure("room has no event bus")
    else Success(s.(events := s.events + [Posted(roomId, e)]))
  }

  /** `SendMessage`: into the outbox of every room member the message is
      delivered to, into the room's history when it is public or has no
      addressee, and onto the room's event bus. */
  function SendMessage(s: Store, m: ChatMessage): (r: Result<Store, string>)
    ensures m.roomId !in s.rooms <==> r.Failure?
    ensures r.Success? ==>
      && r.value.userMessages == Deliver(s.userMessages, Members(s.roomUsers, m.roomId), m)
      && (m.privately && m.to != "" ==> r.value.roomMessageHistory == s.roomMessageHistory)
      && (!m.privately || m.to == "" ==>
            r.value.roomMessageHistory ==
              s.roomMessageHistory[m.roomId := AppendHistory(Messages(s.roomMessageHistory, m.roomId), m)])
      && r.value.events == s.events + [Posted(m.roomId, MessagePosted(m))]
      && r.value.users == s.users && r.value.roomUsers == s.roomUsers && r.value.userPings == s.userPings
  {
    var outboxes := Deliver(s.userMessages, Members(s.roomUsers, m.roomId), m);
    var history := if !m.privately || m.to == "" then
      s.roomMessageHistory[m.roomId := AppendHistory(Messages(s.roomMessageHistory, m.roomId), m)]
    else s.roomMessageHistory;
    Publish(s.(userMessages := outboxes, roomMessageHistory := history), m.roomId, MessagePosted(m))
  }

  /** `userListUpdated`: the room's change stamp moves to `now` and the
      event goes onto the room's bus. */
  function UserListUpdated(s: Store, roomId: string, e: Event, now: Time): (r: Result<Store, string>)
    ensures roomId !in s.rooms <==> r.Failure?
    ensures r.Success? ==>
      r.value == s.(roomLastUserListChange := s.roomLastUserListChange[roomId := now],
                    events := s.events + [Posted(roomId, e)])
  {
    Publish(s.(roomLastUserListChange := s.roomLastUserListChange[roomId := now]), roomId, e)
  }

  function GetSingleRoom(s: Store, id: string): (r: Option<ChatRoom>)
    ensures r.Some? <==> id in s.rooms
    ensures r.Some? ==> r.value == s.rooms[id]
  {
    if id in s.rooms then Some(s.rooms[id]) else None
  }

  /** The system message announcing that a user joined or left. */
  function Announcement(user: ChatUser, text: string, now: Time): ChatMessage {
    ChatMessage(user.roomId, now, text, user.id, "", false, SpeechModes[0], true, Some(user), false, [user])
  }

  /** The room's introduction, sent privately to a new web user. */
  function Introduction(room: ChatRoom, user: ChatUser, now: Time): ChatMessage {
    ChatMessage(room.id, now, room.introMessage, user.id, user.id, true, SpeechModes[0], true, Some(user), false, [user])
  }

  const JoinedText: string := "{nickname} has joined the room!"
  const LeftText: string := "{nickname} has left the room!"

  /** A joining web user is sent the introduction of a room that has one. */
  predicate Introduces(s: Store, user: ChatUser) {
    user.roomId in s.rooms && s.rooms[user.roomId].introMessage != "" && user.isWebUser
  }

  /** What a join posts on the event buses, in order: the public joined
      message, the introduction when the room has one for the user, and the
      user-joined event. */
  function JoinEvents(s: Store, user: ChatUser, now: Time): seq<Posted>
    requires user.roomId in s.rooms
  {
    var room := s.rooms[user.roomId];
    [Posted(user.roomId, MessagePosted(Announcement(user, JoinedText, now)))]
    + (if Introduces(s, user) then [Posted(room.id, MessagePosted(Introduction(room, user, now)))] else [])
    + [Posted(user.roomId, UserJoined(user))]
  }

  /** The steps of `RegisterUser` after the user is stored: the public
      announcement, the introduction for web users of a room that has one,
      and the user-list update. Only the event log, the outboxes, the
      history and the room's change stamp move. */
  function AnnounceJoin(s: Store, user: ChatUser, now: Time): (r: Result<Store, string>)
    ensures r.Success? <==>
      user.roomId in s.rooms && (Introduces(s, user) ==> s.rooms[user.roomId].id in s.rooms)
    ensures r.Success? ==> r.value.events == s.events + JoinEvents(s, user, now)
    ensures r.Success? ==>
      && r.value.users == s.users && r.value.roomUsers == s.roomUsers && r.value.userPings == s.userPings
      && r.value.rooms == s.rooms
      && r.value.roomLastUserListChange == s.roomLastUserListChange[user.roomId := now]
  {
    var s1 :- SendMessage(s, Announcement(user, JoinedText, now));
    var s2 :- match GetSingleRoom(s1, user.roomId)
      case Some(room) =>
        if room.introMessage != "" && user.isWebUser then SendMessage(s1, Introduction(room, user, now))
        else Success(s1)
      case None => Success(s1);
    UserListUpdated(s2, user.roomId, UserJoined(user), now)
  }

  /** `RegisterUser`: instantiates the user, seeds the outbox with the room's
      public history, and announces users that are not Discord users. On
      success the user is stored with its nickname escaped, and the event log
      grows by the join events exactly when it is not a Discord user. */
  function RegisterUser(s: Store, user: ChatUser, now: Time): (r: Result<Store, string>)
    ensures user.id in s.users ==> r == Failure("user exists")
    ensures user.id !in s.users && NicknameSelected(s, HtmlEscape(user.nickname)) ==>
      r == Failure("nickname selected")
    ensures user.discordId != "" ==>
      (r.Success? <==> user.id !in s.users && !NicknameSelected(s, HtmlEscape(user.nickname)))
    ensures user.discordId == "" ==>
      (r.Success? <==>
        && user.id !in s.users && !NicknameSelected(s, HtmlEscape(user.nickname)) && user.roomId in s.rooms
        && (Introduces(s, user) ==> s.rooms[user.roomId].id in s.rooms))
    ensures r.Success? ==> r.value.users == s.users[user.id := user.(nickname := HtmlEscape(user.nickname))]
    ensures r.Success? && user.discordId != "" ==> r.value.events == s.events
    ensures r.Success? && user.discordId == "" ==>
      user.roomId in s.rooms && r.value.events == s.events + JoinEvents(s, user, now)
  {
    var s1 :- InstantiateUser(s, user, now);
    var s2 := s1.(userMessages := s1.userMessages[user.id := s1.userMessages[user.id] +
      Messages(s1.roomMessageHistory, user.roomId)]);
    if user.discordId == "" then AnnounceJoin(s2, user, now) else Success(s2)
  }

  /** The user deregistration announces: a known user, not an admin
      Discord user (those are kept), with an id and without a Discord id. */
  predicate AnnouncesLeave(s: Store, id: string) {
    id in s.users && !(s.users[id].isAdmin && IsDiscordUser(s.users[id]))
    && s.users[id].id != "" && s.users[id].discordId == ""
  }

  /** What a leave posts on the room's bus, in order: the public left
      message and the user-left event. */
  function LeaveEvents(u: ChatUser, now: Time): seq<Posted> {
    [Posted(u.roomId, MessagePosted(Announcement(u, LeftText, now))), Posted(u.roomId, UserLeft(u))]
  }

  /** `DeregisterUser`: removes the user; a removed user that is not a
      Discord user is announced as having left. Nothing is posted for an
      unknown user or a Discord user; the announcement fails only when the
      room has no event bus. */
  function DeregisterUser(s: Store, id: string, now: Time): (r: Result<Store, string>)
    ensures id !in s.users ==> r == Success(s)
    ensures !AnnouncesLeave(s, id) ==> r.Success? && r.value.events == s.events
    ensures AnnouncesLeave(s, id) ==> (r.Success? <==> s.users[id].roomId in s.rooms)
    ensures AnnouncesLeave(s, id) && r.Success? ==> r.value.events == s.events + LeaveEvents(s.users[id], now)
  {
    var (s1, user) := RemoveUser(s, id);
    if user.id != "" && user.discordId == "" then
      var s2 :- SendMessage(s1, Announcement(user, LeftText, now));
      UserListUpdated(s2, user.roomId, UserLeft(user), now)
    else Success(s1)
  }

  // ---------------------------------------------------------------------
  // Pings and polling
  // ---------------------------------------------------------------------

  /** `Ping`: only a user with a ping stamp gets a new one. */
  function Ping(s: Store, id: string, now: Time): (r: Store)
    ensures id !in s.userPings ==> r == s
    ensures id in s.userPings ==> r == s.(userPings := s.userPings[id := now])
  {
    if id !in s.userPings then s else s.(userPings := s.userPings[id := now])
  }

  /** `IsUserStale`: more than two minutes since the last ping. */
  function IsUserStale(s: Store, id: string, now: Time): (r: bool)
    ensures id !in s.userPings ==> !r
    ensures id in s.userPings ==> (r <==> Sub(now, s.userPings[id]) > UserStaleTimeout * Second)
  {
    id in s.userPings && LongerThanSeconds(now, s.userPings[id], UserStaleTimeout)
  }

  /** `HasUserListChanged`: whether the room's list changed at least a
      millisecond after the user last looked; the user's stamp moves to
      `now` either way. Missing entries read as the zero user and the zero
      time. */
  function HasUserListChanged(s: Store, id: string, now: Time): (r: (Store, bool))
    ensures r.0 == s.(userLastUserListChange := s.userLastUserListChange[id := now])
    ensures var roomId := if id in s.users then s.users[id].roomId else "";
      var lastRoom := if roomId in s.roomLastUserListChange then s.roomLastUserListChange[roomId] else ZeroTime;
      var lastUser := if id in s.userLastUserListChange then s.userLastUserListChange[id] else ZeroTime;
      r.1 <==> Sub(lastRoom, lastUser) >= Millisecond
  {
    var user := if id in s.users then s.users[id] else NoUser;
    var lastUserChange := if id in s.userLastUserListChange then s.userLastUserListChange[id] else ZeroTime;
    var lastRoomChange :=
      if user.roomId in s.roomLastUserListChange then s.roomLastUserListChange[user.roomId] else ZeroTime;
    (s.(userLastUserListChange := s.userLastUserListChange[id := now]),
     Sub(lastRoomChange, lastUserChange) / Millisecond > 0)
  }

  /** `UserHasMessages`: the user has pinged, has an outbox, and the newest
      message in it is later than the last ping. */
  function UserHasMessages(s: Store, id: string): (r: bool)
    ensures r <==> (id in s.userPings && id in s.userMessages && |s.userMessages[id]| > 0 &&
                    Sub(s.userMessages[id][|s.userMessages[id]| - 1].time, s.userPings[id]) > 0)
  {
    if id !in s.userPings then false
    else if id !in s.userMessages || |s.userMessages[id]| == 0 then false
    else
      var last := s.userMessages[id][|s.userMessages[id]| - 1];
      Sub(last.time, s.userPings[id]) > 0
  }

  // ---------------------------------------------------------------------
  // Queries
  // ---------------------------------------------------------------------

  function GetUser(s: Store, id: string): (r: Option<ChatUser>)
    ensures r.Some? <==> id in s.users
    ensures r.Some? ==> r.value == s.users[id]
  {
    if id in s.users then Some(s.users[id]) else None
  }

  /** `GetRoomUsers`: the room's members in joining order. */
  function GetRoomUsers(s: Store, roomId: string): (r: seq<ChatUser>)
    ensures |r| == |Members(s.roomUsers, roomId)|
    ensures forall k :: 0 <= k < |r| ==>
      var id := Members(s.roomUsers, roomId)[k];
      r[k] == if id in s.users then s.users[id] else NoUser
  {
    var ids := Members(s.roomUsers, roomId);
    seq(|ids|, k requires 0 <= k < |ids| => if ids[k] in s.users then s.users[ids[k]] else NoUser)
  }

  /** Whether `GetUserByNickname` finds a user: some stored nickname equals
      the given one after lower-casing and trimming white space. Which user
      it returns depends on map iteration order, which the callers here
      never use. */
  predicate HasUserNickname(s: Store, nickname: string) {
    exists id {:trigger TrimSpace(ToLower(s.users[id].nickname))} ::
      id in s.users && TrimSpace(ToLower(s.users[id].nickname)) == TrimSpace(ToLower(nickname))
  }

  function GetUserMessageList(s: Store, id: string): (r: Option<seq<ChatMessage>>)
    ensures r.Some? <==> id in s.userMessages
    ensures r.Some? ==> r.value == s.userMessages[id]
  {
    if id in s.userMessages then Some(s.userMessages[id]) else None
  }

  // ---------------------------------------------------------------------
  // The store invariant
  // ---------------------------------------------------------------------

  /** The per-user maps share their keys. */
  predicate KeysAgree(s: Store) {
    s.users.Keys == s.userMessages.Keys && s.users.Keys == s.userPings.Keys
  }

  /** No room lists a member twice. */
  predicate MembersDistinct(s: Store) {
    forall r :: r in s.roomUsers ==> DistinctIds(s.roomUsers[r])
  }

  /** Every listed member is a user of that room. */
  predicate MembersBelong(s: Store) {
    forall r, id :: r in s.roomUsers && id in s.roomUsers[r] ==> id in s.users && s.users[id].roomId == r
  }

  /** Every user is listed in its room. */
  predicate UsersListed(s: Store) {
    forall id :: id in s.users ==> id in Members(s.roomUsers, s.users[id].roomId)
  }

  /** No history exceeds its capacity. */
  predicate HistoryBounded(s: Store) {
    forall r :: r in s.roomMessageHistory ==> |s.roomMessageHistory[r]| <= MaxRoomMessageHistory
  }

  /** The invariant the operations keep. */
  predicate Valid(s: Store) {
    KeysAgree(s) && MembersDistinct(s) && MembersBelong(s) && UsersListed(s) && HistoryBounded(s)
  }

  lemma {:induction false} WithoutDistinct(ids: seq<string>, id: string)
    requires DistinctIds(ids)
    ensures DistinctIds(Without(ids, id))
    decreases |ids|
  {
    if |ids| > 0 {
      var rest := ids[1..];
      assert DistinctIds(rest) by {
        forall i, j | 0 <= i < j < |rest| ensures rest[i] != rest[j] {
          assert rest[i] == ids[i + 1] && rest[j] == ids[j + 1];
        }
      }
      WithoutDistinct(rest, id);
      assert ids[0] !in rest by {
        forall k | 0 <= k < |rest| ensures rest[k] != ids[0] { assert rest[k] == ids[k + 1]; }
      }
      var w := Without(rest, id);
      var h := if ids[0] == id then [] else [ids[0]];
      assert Without(ids, id) == h + w;
      forall i, j | 0 <= i < j < |h + w| ensures (h + w)[i] != (h + w)[j] {
        if i < |h| {
          assert (h + w)[j] == w[j - 1] && w[j - 1] in w;
        } else {
          assert (h + w)[i] == w[i - |h|] && (h + w)[j] == w[j - |h|];
        }
      }
    }
  }

  lemma AppendDistinct(ids: seq<string>, id: string)
    requires DistinctIds(ids) && id !in ids
    ensures DistinctIds(ids + [id])
  {
    var l := ids + [id];
    forall i, j | 0 <= i < j < |l| ensures l[i] != l[j] {
      if j == |ids| { assert l[i] == ids[i] && ids[i] in ids; }
    }
  }

  /** Delivery adds no outbox when every member already has one. */
  lemma DeliverKeys(outboxes: map<string, seq<ChatMessage>>, members: seq<string>, m: ChatMessage)
    requires DistinctIds(members)
    requires forall k :: 0 <= k < |members| ==> members[k] in outboxes
    ensures Deliver(outboxes, members, m).Keys == outboxes.Keys
  {
    forall id ensures id in Deliver(outboxes, members, m) <==> id in outboxes {
      DeliverContents(outboxes, members, m, id);
    }
  }

  /** The history keeps at most its capacity, keeps its order, and ends with
      the newest message: it is a suffix of the old history plus the
      message. */
  lemma AppendHistoryBounded(h: seq<ChatMessage>, m: ChatMessage)
    requires |h| <= MaxRoomMessageHistory
    ensures |AppendHistory(h, m)| == if |h| < MaxRoomMessageHistory then |h| + 1 else MaxRoomMessageHistory
    ensures AppendHistory(h, m) == (h + [m])[|h| + 1 - |AppendHistory(h, m)|..]
  {
    if |h| == MaxRoomMessageHistory {
      assert (h + [m])[1..] == h[1..] + [m];
    }
  }

  /** The room lists after adding user `u` to its room. */
  predicate Joined(s: Store, u: ChatUser, t: Store) {
    && t.users == s.users[u.id := u]
    && t.roomUsers == s.roomUsers[u.roomId := Members(s.roomUsers, u.roomId) + [u.id]]
  }

  lemma JoinedBelong(s: Store, u: ChatUser, t: Store)
    requires MembersBelong(s) && Joined(s, u, t)
    requires u.id !in s.users
    ensures MembersBelong(t)
  {
    forall rm, id | rm in t.roomUsers && id in t.roomUsers[rm]
      ensures id in t.users && t.users[id].roomId == rm
    {
      if rm == u.roomId && id != u.id {
        assert id in Members(s.roomUsers, u.roomId);
      } else if rm != u.roomId {
        assert id in s.roomUsers[rm];
      }
    }
  }

  lemma JoinedListed(s: Store, u: ChatUser, t: Store)
    requires UsersListed(s) && Joined(s, u, t)
    ensures UsersListed(t)
  {
    forall id | id in t.users ensures id in Members(t.roomUsers, t.users[id].roomId) {
      if id != u.id {
        var r := s.users[id].roomId;
        assert id in Members(s.roomUsers, r);
        if r == u.roomId {
          assert Members(t.roomUsers, r) == Members(s.roomUsers, r) + [u.id];
        }
      } else {
        assert Members(t.roomUsers, u.roomId) == Members(s.roomUsers, u.roomId) + [u.id];
      }
    }
  }

  lemma JoinedDistinct(s: Store, u: ChatUser, t: Store)
    requires MembersDistinct(s) && MembersBelong(s) && Joined(s, u, t)
    requires u.id !in s.users
    ensures MembersDistinct(t)
  {
    var before := Members(s.roomUsers, u.roomId);
    assert u.id !in before;
    AppendDistinct(before, u.id);
  }

  /** Adding a user who is not yet in the store to its room keeps the
      invariant. */
  lemma AddUserValid(s: Store, u: ChatUser, t: Store)
    requires Valid(s) && u.id !in s.users && Joined(s, u, t)
    requires t.userMessages.Keys == s.userMessages.Keys + {u.id}
    requires t.userPings.Keys == s.userPings.Keys + {u.id}
    requires t.roomMessageHistory == s.roomMessageHistory
    ensures Valid(t)
  {
    JoinedBelong(s, u, t);
    JoinedListed(s, u, t);
    JoinedDistinct(s, u, t);
  }

  /** A successful instantiation joins the escaped user to its room. */
  lemma InstantiateUserJoins(s: Store, user: ChatUser, now: Time)
    requires InstantiateUser(s, user, now).Success?
    ensures var t := InstantiateUser(s, user, now).value;
      && user.id !in s.users
      && Joined(s, user.(nickname := HtmlEscape(user.nickname)), t)
      && t.userMessages.Keys == s.userMessages.Keys + {user.id}
      && t.userPings.Keys == s.userPings.Keys + {user.id}
      && t.roomMessageHistory == s.roomMessageHistory
  {
  }

  lemma InstantiateUserValid(s: Store, user: ChatUser, now: Time)
    requires Valid(s) && InstantiateUser(s, user, now).Success?
    ensures Valid(InstantiateUser(s, user, now).value)
  {
    InstantiateUserJoins(s, user, now);
    AddUserValid(s, user.(nickname := HtmlEscape(user.nickname)), InstantiateUser(s, user, now).value);
  }

  /** The room lists after dropping listed user `id` from its room. */
  predicate Dropped(s: Store, id: string, t: Store)
    requires id in s.users
  {
    && t.users == s.users - {id}
    && t.roomUsers == s.roomUsers[s.users[id].roomId := Without(Members(s.roomUsers, s.users[id].roomId), id)]
  }

  lemma DroppedBelong(s: Store, id: string, t: Store)
    requires MembersBelong(s) && id in s.users && Dropped(s, id, t)
    ensures MembersBelong(t)
  {
    var room := s.users[id].roomId;
    forall rm, x | rm in t.roomUsers && x in t.roomUsers[rm]
      ensures x in t.users && t.users[x].roomId == rm
    {
      if rm == room {
        assert x in Members(s.roomUsers, room) && x != id;
      } else {
        assert x in s.roomUsers[rm];
      }
    }
  }

  lemma DroppedListed(s: Store, id: string, t: Store)
    requires UsersListed(s) && id in s.users && Dropped(s, id, t)
    ensures UsersListed(t)
  {
    var room := s.users[id].roomId;
    forall other | other in t.users ensures other in Members(t.roomUsers, t.users[other].roomId) {
      var r := s.users[other].roomId;
      assert other in Members(s.roomUsers, r);
      if r == room {
        assert Members(t.roomUsers, r) == Without(Members(s.roomUsers, r), id);
      }
    }
  }

  /** Dropping a listed user from the store and from its room keeps the
      invariant. */
  lemma DropUserValid(s: Store, id: string, t: Store)
    requires Valid(s) && id in s.users && Dropped(s, id, t)
    requires t.userMessages == s.userMessages - {id}
    requires t.userPings == s.userPings - {id}
    requires t.roomMessageHistory == s.roomMessageHistory
    ensures Valid(t)
  {
    WithoutDistinct(Members(s.roomUsers, s.users[id].roomId), id);
    DroppedBelong(s, id, t);
    DroppedListed(s, id, t);
  }

  lemma RemoveUserValid(s: Store, id: string)
    requires Valid(s)
    ensures Valid(RemoveUser(s, id).0)
  {
    if id in s.users && !(s.users[id].isAdmin && IsDiscordUser(s.users[id])) {
      DropUserValid(s, id, RemoveUser(s, id).0);
    }
  }

  lemma SendMessageValid(s: Store, m: ChatMessage)
    requires Valid(s)
    ensures SendMessage(s, m).Success? ==> Valid(SendMessage(s, m).value)
  {
    if SendMessage(s, m).Success? {
      var t := SendMessage(s, m).value;
      var members := Members(s.roomUsers, m.roomId);
      MembersHaveOutboxes(s, m.roomId);
      DeliverKeys(s.userMessages, members, m);
      HistoryStaysBounded(s, t, m);
      OutboxesAndHistoryValid(s, t);
    }
  }

  /** The members of a room are distinct and each has an outbox. */
  lemma MembersHaveOutboxes(s: Store, roomId: string)
    requires Valid(s)
    ensures DistinctIds(Members(s.roomUsers, roomId))
    ensures forall k :: 0 <= k < |Members(s.roomUsers, roomId)| ==> Members(s.roomUsers, roomId)[k] in s.userMessages
  {
    var members := Members(s.roomUsers, roomId);
    forall k | 0 <= k < |members| ensures members[k] in s.userMessages {
      assert members[k] in members;
    }
  }

  /** A history that is unchanged or has one message appended stays bounded. */
  lemma HistoryStaysBounded(s: Store, t: Store, m: ChatMessage)
    requires HistoryBounded(s)
    requires t.roomMessageHistory == s.roomMessageHistory ||
      t.roomMessageHistory == s.roomMessageHistory[m.roomId := AppendHistory(Messages(s.roomMessageHistory, m.roomId), m)]
    ensures HistoryBounded(t)
  {
    AppendHistoryBounded(Messages(s.roomMessageHistory, m.roomId), m);
  }

  /** Changing only outboxes (not their keys), history (kept bounded) and
      events keeps the store invariant. */
  lemma OutboxesAndHistoryValid(s: Store, t: Store)
    requires Valid(s) && HistoryBounded(t)
    requires t.users == s.users && t.roomUsers == s.roomUsers && t.userPings == s.userPings
    requires t.userMessages.Keys == s.userMessages.Keys
    ensures Valid(t)
  {
  }

  lemma UserListUpdatedValid(s: Store, roomId: string, e: Event, now: Time)
    requires Valid(s)
    ensures UserListUpdated(s, roomId, e, now).Success? ==> Valid(UserListUpdated(s, roomId, e, now).value)
  {
  }

  lemma AnnounceJoinValid(s: Store, user: ChatUser, now: Time)
    requires Valid(s)
    ensures AnnounceJoin(s, user, now).Success? ==> Valid(AnnounceJoin(s, user, now).value)
  {
    var joined := Announcement(user, JoinedText, now);
    SendMessageValid(s, joined);
    if SendMessage(s, joined).Success? {
      var s1 := SendMessage(s, joined).value;
      if user.roomId in s1.rooms {
        SendMessageValid(s1, Introduction(s1.rooms[user.roomId], user, now));
        var s2 := if s1.rooms[user.roomId].introMessage != "" && user.isWebUser
          then SendMessage(s1, Introduction(s1.rooms[user.roomId], user, now)) else Success(s1);
        if s2.Success? {
          UserListUpdatedValid(s2.value, user.roomId, UserJoined(user), now);
        }
      }
    }
  }

  /** Registration keeps the store invariant. */
  lemma RegisterUserValid(s: Store, user: ChatUser, now: Time)
    requires Valid(s)
    ensures RegisterUser(s, user, now).Success? ==> Valid(RegisterUser(s, user, now).value)
  {
    var r := InstantiateUser(s, user, now);
    if r.Success? {
      InstantiateUserValid(s, user, now);
      var s1 := r.value;
      var s2 := s1.(userMessages := s1.userMessages[user.id := s1.userMessages[user.id] +
        Messages(s1.roomMessageHistory, user.roomId)]);
      SeedOutboxValid(s1, user.id, Messages(s1.roomMessageHistory, user.roomId));
      AnnounceJoinValid(s2, user, now);
    }
  }

  /** Replacing the outbox of a known user keeps the store invariant. */
  lemma SeedOutboxValid(s: Store, id: string, history: seq<ChatMessage>)
    requires Valid(s) && id in s.userMessages
    ensures Valid(s.(userMessages := s.userMessages[id := s.userMessages[id] + history]))
  {
    var t := s.(userMessages := s.userMessages[id := s.userMessages[id] + history]);
    assert t.userMessages.Keys == s.userMessages.Keys;
  }

  /** Deregistration keeps the store invariant. */
  lemma DeregisterUserValid(s: Store, id: string, now: Time)
    requires Valid(s)
    ensures DeregisterUser(s, id, now).Success? ==> Valid(DeregisterUser(s, id, now).value)
  {
    RemoveUserValid(s, id);
    var (s1, user) := RemoveUser(s, id);
    if user.id != "" && user.discordId == "" {
      var left := Announcement(user, LeftText, now);
      SendMessageValid(s1, left);
      if SendMessage(s1, left).Success? {
        UserListUpdatedValid(SendMessage(s1, left).value, user.roomId, UserLeft(user), now);
      }
    }
  }

  /** Deregistration removes a user, and the user's ping stamp, unless it
      is an admin Discord user, and touches no other user. */
  lemma DeregisterUserRemoves(s: Store, id: string, now: Time)
    requires DeregisterUser(s, id, now).Success?
    ensures id in s.users && !(s.users[id].isAdmin && IsDiscordUser(s.users[id])) ==>
      DeregisterUser(s, id, now).value.users == s.users - {id}
    ensures !(id in s.users && !(s.users[id].isAdmin && IsDiscordUser(s.users[id]))) ==>
      DeregisterUser(s, id, now).value.users == s.users
    ensures id in s.users && !(s.users[id].isAdmin && IsDiscordUser(s.users[id])) ==>
      DeregisterUser(s, id, now).value.userPings == s.userPings - {id}
    ensures !(id in s.users && !(s.users[id].isAdmin && IsDiscordUser(s.users[id]))) ==>
      DeregisterUser(s, id, now).value.userPings == s.userPings
  {
    var (s1, user) := RemoveUser(s, id);
    if user.id != "" && user.discordId == "" {
      var left := Announcement(user, LeftText, now);
      var s2 := SendMessage(s1, left).value;
      assert s2.users == s1.users && s2.userPings == s1.userPings;
      assert UserListUpdated(s2, user.roomId, UserLeft(user), now).value.users == s2.users;
      assert UserListUpdated(s2, user.roomId, UserLeft(user), now).value.userPings == s2.userPings;
    }
  }

  // ---------------------------------------------------------------------
  // Behaviour
  // ---------------------------------------------------------------------

  /** In a valid store a sent message reaches exactly the room members it
      is delivered to, once each; no other outbox changes. */
  lemma SendMessageReaches(s: Store, m: ChatMessage, id: string)
    requires Valid(s) && m.roomId in s.rooms && id in s.users
    ensures var t := SendMessage(s, m).value;
      && id in t.userMessages
      && (id in Members(s.roomUsers, m.roomId) && DeliveredTo(m, id) ==> t.userMessages[id] == s.userMessages[id] + [m])
      && (!(id in Members(s.roomUsers, m.roomId) && DeliveredTo(m, id)) ==> t.userMessages[id] == s.userMessages[id])
  {
    SendMessageValid(s, m);
    DeliverContents(s.userMessages, Members(s.roomUsers, m.roomId), m, id);
  }

  /** Registering a Discord user announces nothing: its outbox is exactly the
      room's public history and the event log is unchanged. */
  lemma RegisterDiscordUserSeedsHistory(s: Store, user: ChatUser, now: Time)
    requires user.discordId != ""
    requires RegisterUser(s, user, now).Success?
    ensures RegisterUser(s, user, now).value.userMessages[user.id] == Messages(s.roomMessageHistory, user.roomId)
    ensures RegisterUser(s, user, now).value.events == s.events
  {
  }

  /** Registering any other user ends with the user-joined event on the
      room's bus, after the joined message. */
  lemma RegisterUserAnnounces(s: Store, user: ChatUser, now: Time)
    requires user.discordId == ""
    requires RegisterUser(s, user, now).Success?
    ensures var ev := RegisterUser(s, user, now).value.events;
      && |ev| >= |s.events| + 2
      && ev[|s.events|] == Posted(user.roomId, MessagePosted(Announcement(user, JoinedText, now)))
      && ev[|ev| - 1] == Posted(user.roomId, UserJoined(user))
      && RegisterUser(s, user, now).value.roomLastUserListChange[user.roomId] == now
  {
  }

  /** Delivery only appends: every outbox keeps what it held. */
  lemma {:induction false} DeliverExtends(outboxes: map<string, seq<ChatMessage>>, members: seq<string>,
                                          m: ChatMessage, id: string)
    requires id in outboxes
    ensures id in Deliver(outboxes, members, m) && outboxes[id] <= Deliver(outboxes, members, m)[id]
    decreases |members|
  {
    if |members| > 0 {
      var x := members[0];
      var next := if DeliveredTo(m, x) then outboxes[x := Messages(outboxes, x) + [m]] else outboxes;
      assert outboxes[id] <= next[id];
      DeliverExtends(next, members[1..], m, id);
    }
  }

  /** Sending a message keeps every outbox's earlier contents. */
  lemma SendMessageExtends(s: Store, m: ChatMessage, id: string)
    requires SendMessage(s, m).Success? && id in s.userMessages
    ensures id in SendMessage(s, m).value.userMessages
    ensures s.userMessages[id] <= SendMessage(s, m).value.userMessages[id]
  {
    DeliverExtends(s.userMessages, Members(s.roomUsers, m.roomId), m, id);
  }

  /** Every newly registered user's outbox begins with the room's public
      history as it was before the registration. */
  lemma RegisterUserSeedsOutbox(s: Store, user: ChatUser, now: Time)
    requires RegisterUser(s, user, now).Success?
    ensures user.id in RegisterUser(s, user, now).value.userMessages
    ensures Messages(s.roomMessageHistory, user.roomId) <= RegisterUser(s, user, now).value.userMessages[user.id]
  {
    var s1 := InstantiateUser(s, user, now).value;
    var history := Messages(s.roomMessageHistory, user.roomId);
    var s2 := s1.(userMessages := s1.userMessages[user.id := s1.userMessages[user.id] + history]);
    assert s2.userMessages[user.id] == history;
    if user.discordId == "" {
      var joined := Announcement(user, JoinedText, now);
      SendMessageExtends(s2, joined, user.id);
      var s3 := SendMessage(s2, joined).value;
      var room := s3.rooms[user.roomId];
      var s4 := if room.introMessage != "" && user.isWebUser then SendMessage(s3, Introduction(room, user, now)).value
        else s3;
      if room.introMessage != "" && user.isWebUser {
        SendMessageExtends(s3, Introduction(room, user, now), user.id);
      }
      assert history <= s4.userMessages[user.id];
      assert AnnounceJoin(s2, user, now).value.userMessages == s4.userMessages;
    }
  }

  /** The introduction a join sends reaches the joining member last. */
  lemma AnnounceJoinIntroduces(s: Store, user: ChatUser, now: Time)
    requires Valid(s) && user.id in s.users && user.id in Members(s.roomUsers, user.roomId)
    requires Introduces(s, user) && s.rooms[user.roomId].id == user.roomId
    requires AnnounceJoin(s, user, now).Success?
    ensures var t := AnnounceJoin(s, user, now).value;
      && user.id in t.userMessages && |t.userMessages[user.id]| > 0
      && t.userMessages[user.id][|t.userMessages[user.id]| - 1] == Introduction(s.rooms[user.roomId], user, now)
  {
    var joined := Announcement(user, JoinedText, now);
    SendMessageValid(s, joined);
    var s1 := SendMessage(s, joined).value;
    var intro := Introduction(s.rooms[user.roomId], user, now);
    SendMessageReaches(s1, intro, user.id);
    var s2 := SendMessage(s1, intro).value;
    assert AnnounceJoin(s, user, now).value.userMessages == s2.userMessages;
  }

  /** A web user registered without a Discord id in a room with an
      introduction is sent that introduction privately: it is posted on the
      room's bus and is the last message of the user's outbox. */
  lemma RegisterUserIntroduces(s: Store, user: ChatUser, now: Time)
    requires Valid(s)
    requires user.discordId == "" && Introduces(s, user) && s.rooms[user.roomId].id == user.roomId
    requires RegisterUser(s, user, now).Success?
    ensures var t := RegisterUser(s, user, now).value;
      var intro := Introduction(s.rooms[user.roomId], user, now);
      && Posted(user.roomId, MessagePosted(intro)) in t.events[|s.events|..]
      && user.id in t.userMessages && |t.userMessages[user.id]| > 0
      && t.userMessages[user.id][|t.userMessages[user.id]| - 1] == intro
  {
    InstantiateUserValid(s, user, now);
    InstantiateUserJoins(s, user, now);
    var s1 := InstantiateUser(s, user, now).value;
    var history := Messages(s1.roomMessageHistory, user.roomId);
    SeedOutboxValid(s1, user.id, history);
    var s2 := s1.(userMessages := s1.userMessages[user.id := s1.userMessages[user.id] + history]);
    assert user.id in Members(s2.roomUsers, user.roomId);
    AnnounceJoinIntroduces(s2, user, now);
    var t := RegisterUser(s, user, now).value;
    assert t.events[|s.events|..] == JoinEvents(s, user, now);
  }

  /** No other registration posts a private message: the new events hold
      no introduction. */
  lemma RegisterUserWithoutIntroduction(s: Store, user: ChatUser, now: Time)
    requires RegisterUser(s, user, now).Success?
    requires user.discordId != "" || !Introduces(s, user)
    ensures var t := RegisterUser(s, user, now).value;
      forall k :: |s.events| <= k < |t.events| ==> !(t.events[k].event.MessagePosted? && t.events[k].event.message.privately)
  {
  }

  /** A user pinged at `now` is not stale for the next two minutes. */
  lemma PingKeepsUserFresh(s: Store, id: string, now: Time, later: Time)
    requires id in s.userPings
    requires now <= later <= now + UserStaleTimeout * Second
    ensures !IsUserStale(Ping(s, id, now), id, later)
  {
  }

  /** Asking twice at the same instant, with no later room change, the
      second answer is no. */
  lemma UserListChangeIsReported(s: Store, id: string, now: Time)
    requires ZeroTime <= now
    requires var roomId := if id in s.users then s.users[id].roomId else "";
      roomId in s.roomLastUserListChange ==> s.roomLastUserListChange[roomId] <= now
    ensures !HasUserListChanged(HasUserListChanged(s, id, now).0, id, now).1
  {
  }
}

=== FILE: clientinfo.dfy ===
/** The client description that accompanies a registration (chat/utils.go):
    a string of `name:(value)` pairs, for example
    `plat:(desktop) os:(Windows 3.11) env:(16-bit) v:(1.0)`. */
module ClientInfoText {
  import opened Wrappers
  import opened Text

  datatype ClientInfo = ClientInfo(os: string, plat: string, env: string, version: string)

  const EmptyInfo: ClientInfo := ClientInfo("", "", "", "")

  // ---------------------------------------------------------------------
  // Formatting
  // ---------------------------------------------------------------------

  /** One `name:(value)` item. */
  function ItemText(it: (string, string)): string {
    it.0 + ":(" + it.1 + ")"
  }

  /** The optional item for one field: none when the field is empty. */
  function Opt(name: string, value: string): seq<(string, string)> {
    if value == "" then [] else [(name, value)]
  }

  /** The items a record is formatted as, in output order. */
  function Items(info: ClientInfo): seq<(string, string)> {
    Opt("plat", info.plat) + Opt("os", info.os) + Opt("env", info.env) + Opt("v", info.version)
  }

  /** Items each followed by a space, as the builder writes the first three. */
  function Spaced(items: seq<(string, string)>): string
    decreases |items|
  {
    if |items| == 0 then "" else ItemText(items[0]) + " " + Spaced(items[1..])
  }

  /** Items separated by single spaces. */
  function Render(items: seq<(string, string)>): string
    decreases |items|
  {
    if |items| == 0 then ""
    else if |items| == 1 then ItemText(items[0])
    else ItemText(items[0]) + " " + Render(items[1..])
  }

  /** `FormatClientInfo`: plat, os, env and v in that order, empty fields
      left out; the trailing space is trimmed. */
  function FormatClientInfo(info: ClientInfo): string {
    var raw := Spaced(Opt("plat", info.plat)) + Spaced(Opt("os", info.os)) + Spaced(Opt("env", info.env)) +
      (if info.version == "" then "" else ItemText(("v", info.version)));
    TrimSpace(raw)
  }

  // ---------------------------------------------------------------------
  // Extraction
  // ---------------------------------------------------------------------

  // The extractor scans the text with the regular expression
  //   (?mi)(?<name>[^\s:]{1,5}):\((?<value>[^\)]+)\)
  // for successive non-overlapping leftmost matches: a name of one to five
  // characters that are neither white space nor a colon, a colon, an opening
  // parenthesis, a non-empty value up to the first closing parenthesis, and
  // that parenthesis.

  datatype Pair = Pair(name: string, value: string, end: nat)

  predicate IsLabelChar(c: char) { !IsRegexSpace(c) && c != ':' }

  function LabelRunEnd(s: string, k: nat): (r: nat)
    requires k <= |s|
    ensures k <= r <= |s|
    ensures r < |s| ==> !IsLabelChar(s[r])
    ensures forall x :: k <= x < r ==> IsLabelChar(s[x])
    decreases |s| - k
  {
    if k == |s| || !IsLabelChar(s[k]) then k else LabelRunEnd(s, k + 1)
  }

  /** The first `)` at or after `k`, or the length. */
  function CloseParen(s: string, k: nat): (r: nat)
    requires k <= |s|
    ensures k <= r <= |s|
    ensures r < |s| ==> s[r] == ')'
    ensures forall x :: k <= x < r ==> s[x] != ')'
    decreases |s| - k
  {
    if k == |s| || s[k] == ')' then k else CloseParen(s, k + 1)
  }

  /** The match starting at `i`, if any. Since a name character is never a
      colon, the name must be the whole run of name characters. */
  function PairAt(s: string, i: nat): (r: Option<Pair>)
    requires i <= |s|
    ensures r.Some? ==> i < r.value.end <= |s|
  {
    var l := LabelRunEnd(s, i);
    if l == i || l - i > 5 || l + 1 >= |s| || s[l] != ':' || s[l + 1] != '(' then None
    else
      var c := CloseParen(s, l + 2);
      if c == l + 2 || c == |s| then None
      else Some(Pair(s[i..l], s[l + 2..c], c + 1))
  }

  function Pairs(s: string, p: nat): seq<Pair>
    requires p <= |s|
    decreases |s| - p
  {
    if p == |s| then []
    else match PairAt(s, p)
      case Some(m) => [m] + Pairs(s, m.end)
      case None => Pairs(s, p + 1)
  }

  /** One `switch name` step: known labels overwrite their field, any other
      name is ignored. */
  function Assign(info: ClientInfo, name: string, value: string): (r: ClientInfo)
    ensures name !in {"os", "plat", "env", "v"} ==> r == info
  {
    match name
    case "os" => info.(os := value)
    case "plat" => info.(plat := value)
    case "env" => info.(env := value)
    case "v" => info.(version := value)
    case _ => info
  }

  function AssignAll(info: ClientInfo, ps: seq<Pair>): ClientInfo
    decreases |ps|
  {
    if |ps| == 0 then info else AssignAll(Assign(info, ps[0].name, ps[0].value), ps[1..])
  }

  /** `ExtractClientInfo`. */
  function ExtractClientInfo(client: string): (r: ClientInfo)
    ensures client == "" ==> r == EmptyInfo
  {
    AssignAll(EmptyInfo, Pairs(client, 0))
  }

  /** A later occurrence of a name overwrites an earlier one. */
  lemma LaterLabelWins(info: ClientInfo, a: string, b: string)
    ensures Assign(Assign(info, "os", a), "os", b) == Assign(info, "os", b)
    ensures Assign(Assign(info, "plat", a), "plat", b) == Assign(info, "plat", b)
    ensures Assign(Assign(info, "env", a), "env", b) == Assign(info, "env", b)
    ensures Assign(Assign(info, "v", a), "v", b) == Assign(info, "v", b)
  {
  }

  // ---------------------------------------------------------------------
  // Round trip
  // ---------------------------------------------------------------------

  /** A field value the format can carry: no closing parenthesis. */
  predicate Carriable(v: string) {
    forall i :: 0 <= i < |v| ==> v[i] != ')'
  }

  /** An item `name:(value)` at position `i` is matched exactly. */
  lemma PairOnItem(s: string, i: nat, name: string, value: string)
    requires 1 <= |name| <= 5 && forall x :: 0 <= x < |name| ==> IsLabelChar(name[x])
    requires value != "" && Carriable(value)
    requires i + |name| + |value| + 3 <= |s|
    requires s[i..i + |name|] == name
    requires s[i + |name|] == ':' && s[i + |name| + 1] == '('
    requires s[i + |name| + 2..i + |name| + 2 + |value|] == value
    requires s[i + |name| + 2 + |value|] == ')'
    ensures PairAt(s, i) == Some(Pair(name, value, i + |name| + |value| + 3))
  {
    var l := i + |name|;
    forall x | i <= x < l ensures IsLabelChar(s[x]) {
      assert s[x] == s[i..l][x - i];
    }
    assert LabelRunEnd(s, i) == l;
    var c := CloseParen(s, l + 2);
    forall x | l + 2 <= x < l + 2 + |value| ensures s[x] != ')' {
      assert s[x] == s[l + 2..l + 2 + |value|][x - l - 2];
    }
    assert c == l + 2 + |value|;
  }

  /** The pieces of an item written at position `p`. */
  lemma ItemAt(s: string, p: nat, it: (string, string), rest: string)
    requires p <= |s| && s[p..] == ItemText(it) + rest
    ensures p + |it.0| + |it.1| + 3 + |rest| == |s|
    ensures s[p..p + |it.0|] == it.0
    ensures s[p + |it.0|] == ':' && s[p + |it.0| + 1] == '('
    ensures s[p + |it.0| + 2..p + |it.0| + 2 + |it.1|] == it.1
    ensures s[p + |it.0| + 2 + |it.1|] == ')'
    ensures s[p + |it.0| + |it.1| + 3..] == rest
  {
    var t := s[p..];
    var n := |it.0|;
    var v := |it.1|;
    assert t == it.0 + ":(" + it.1 + ")" + rest;
    assert s[p..p + n] == t[..n];
    assert s[p + n] == t[n];
    assert s[p + n + 1] == t[n + 1];
    assert s[p + n + 2..p + n + 2 + v] == t[n + 2..n + 2 + v];
    assert s[p + n + 2 + v] == t[n + 2 + v];
    assert s[p + n + v + 3..] == t[n + v + 3..];
  }

  /** The unmatched space between two items is skipped. */
  lemma SkipSpace(s: string, p: nat)
    requires p < |s| && s[p] == ' '
    ensures PairAt(s, p) == None
  {
  }

  predicate WellFormedItem(it: (string, string)) {
    && 1 <= |it.0| <= 5 && (forall x :: 0 <= x < |it.0| ==> IsLabelChar(it.0[x]))
    && it.1 != "" && Carriable(it.1)
  }

  lemma PairsOnMatch(s: string, p: nat, m: Pair)
    requires p < |s| && PairAt(s, p) == Some(m)
    ensures Pairs(s, p) == [m] + Pairs(s, m.end)
  {
  }

  lemma PairsOnSpace(s: string, p: nat)
    requires p < |s| && s[p] == ' '
    ensures Pairs(s, p) == Pairs(s, p + 1)
  {
    SkipSpace(s, p);
  }

  /** The scan of a rendered single item finds it and ends the text. */
  lemma PairsOfRenderLast(s: string, p: nat, items: seq<(string, string)>)
    requires |items| == 1 && WellFormedItem(items[0])
    requires p <= |s| && s[p..] == Render(items)
    ensures Pairs(s, p) == [Pair(items[0].0, items[0].1, |s|)]
  {
    var it := items[0];
    ItemAt(s, p, it, "");
    PairOnItem(s, p, it.0, it.1);
    PairsOnMatch(s, p, Pair(it.0, it.1, |s|));
  }

  /** The scan of a rendered list matches its first item and resumes at `q`,
      after the separating space, where the rest of the list is rendered. */
  lemma PairsOfRenderNext(s: string, p: nat, items: seq<(string, string)>) returns (q: nat)
    requires |items| > 1 && WellFormedItem(items[0])
    requires p <= |s| && s[p..] == Render(items)
    ensures 0 < q <= |s| && s[q..] == Render(items[1..])
    ensures Pairs(s, p) == [Pair(items[0].0, items[0].1, q - 1)] + Pairs(s, q)
  {
    var it := items[0];
    var n := p + |it.0| + |it.1| + 3;
    var rest := " " + Render(items[1..]);
    ItemAt(s, p, it, rest);
    PairOnItem(s, p, it.0, it.1);
    PairsOnMatch(s, p, Pair(it.0, it.1, n));
    assert s[n] == s[n..][0] == ' ';
    assert s[n + 1..] == s[n..][1..];
    PairsOnSpace(s, n);
    q := n + 1;
  }

  /** The pairs found carry the names and values of the items, one for one. */
  predicate Found(ps: seq<Pair>, items: seq<(string, string)>) {
    && |ps| == |items|
    && forall k :: 0 <= k < |items| ==> ps[k].name == items[k].0 && ps[k].value == items[k].1
  }

  lemma FoundCons(all: seq<Pair>, m: Pair, ps: seq<Pair>, items: seq<(string, string)>)
    requires |items| > 0 && m.name == items[0].0 && m.value == items[0].1
    requires Found(ps, items[1..]) && all == [m] + ps
    ensures Found(all, items)
  {
    forall k | 1 <= k < |items|
      ensures all[k].name == items[k].0 && all[k].value == items[k].1
    {
      assert all[k] == ps[k - 1];
      assert items[1..][k - 1] == items[k];
    }
  }

  predicate WellFormedItems(items: seq<(string, string)>) {
    forall k :: 0 <= k < |items| ==> WellFormedItem(items[k])
  }

  /** Scanning a rendered list of items finds exactly those items. */
  lemma {:induction false} PairsOfRender(s: string, p: nat, items: seq<(string, string)>)
    requires WellFormedItems(items)
    requires p <= |s| && s[p..] == Render(items)
    ensures Found(Pairs(s, p), items)
    decreases |items|
  {
    if |items| == 0 {
      assert p == |s|;
    } else if |items| == 1 {
      PairsOfRenderLast(s, p, items);
      FoundCons(Pairs(s, p), Pair(items[0].0, items[0].1, |s|), [], items);
    } else {
      var q := PairsOfRenderNext(s, p, items);
      var tail := items[1..];
      assert WellFormedItems(tail) by {
        forall k | 0 <= k < |tail| ensures WellFormedItem(tail[k]) {
          assert tail[k] == items[k + 1];
        }
      }
      PairsOfRender(s, q, tail);
      FoundCons(Pairs(s, p), Pair(items[0].0, items[0].1, q - 1), Pairs(s, q), items);
    }
  }

  lemma {:induction false} SpacedAppend(a: seq<(string, string)>, b: seq<(string, string)>)
    ensures Spaced(a + b) == Spaced(a) + Spaced(b)
    decreases |a|
  {
    if |a| > 0 {
      assert (a + b)[1..] == a[1..] + b;
      SpacedAppend(a[1..], b);
    } else {
      assert a + b == b;
    }
  }

  /** A spaced list is the rendered list plus one trailing space. */
  lemma {:induction false} SpacedIsRenderSpace(items: seq<(string, string)>)
    requires |items| > 0
    ensures Spaced(items) == Render(items) + " "
    decreases |items|
  {
    if |items| > 1 {
      SpacedIsRenderSpace(items[1..]);
    }
  }

  /** Rendering a list with one more item at the end. */
  lemma {:induction false} RenderSnoc(items: seq<(string, string)>, it: (string, string))
    ensures Render(items + [it]) == Spaced(items) + ItemText(it)
    decreases |items|
  {
    if |items| > 0 {
      assert (items + [it])[1..] == items[1..] + [it];
      RenderSnoc(items[1..], it);
    } else {
      assert items + [it] == [it];
    }
  }

  /** A non-empty rendering starts with the first name and ends with `)`. */
  lemma {:induction false} RenderEnds(items: seq<(string, string)>)
    requires |items| > 0 && forall k :: 0 <= k < |items| ==> |items[k].0| > 0
    ensures |Render(items)| > 0
    ensures Render(items)[0] == items[0].0[0]
    ensures Render(items)[|Render(items)| - 1] == ')'
    decreases |items|
  {
    if |items| > 1 {
      assert forall k :: 0 <= k < |items[1..]| ==> items[1..][k] == items[k + 1];
      RenderEnds(items[1..]);
    }
  }

  predicate KnownNames(items: seq<(string, string)>) {
    forall k :: 0 <= k < |items| ==> items[k].0 in {"plat", "os", "env", "v"}
  }

  /** Every item of a record has one of the four names. */
  lemma ItemNames(info: ClientInfo)
    ensures KnownNames(Items(info))
  {
  }

  /** White-space trimming leaves a rendering of known items alone, with or
      without one trailing space. */
  lemma TrimRender(items: seq<(string, string)>, pad: string)
    requires |items| > 0 && KnownNames(items)
    requires pad == "" || pad == " "
    ensures TrimSpace(Render(items) + pad) == Render(items)
  {
    RenderEnds(items);
    var r := Render(items);
    assert items[0].0 in {"plat", "os", "env", "v"};
    assert r[0] in "poev";
    TrimSpaceOfPadded(r, pad);
  }

  /** The formatter's text before trimming: the first three items spaced,
      then the version item. */
  lemma FormatRaw(info: ClientInfo)
    ensures var first := Opt("plat", info.plat) + Opt("os", info.os) + Opt("env", info.env);
      FormatClientInfo(info) ==
        TrimSpace(Spaced(first) + (if info.version == "" then "" else ItemText(("v", info.version))))
  {
    SpacedAppend(Opt("plat", info.plat), Opt("os", info.os));
    SpacedAppend(Opt("plat", info.plat) + Opt("os", info.os), Opt("env", info.env));
  }

  /** Trimming a spaced list of known items gives its rendering. */
  lemma TrimSpaced(items: seq<(string, string)>)
    requires KnownNames(items)
    ensures TrimSpace(Spaced(items)) == Render(items)
  {
    if |items| > 0 {
      SpacedIsRenderSpace(items);
      TrimRender(items, " ");
    } else {
      assert TrimSpace("") == "";
    }
  }

  /** Trimming a spaced list of known items followed by one more item gives
      the rendering of the longer list. */
  lemma TrimSpacedSnoc(items: seq<(string, string)>, it: (string, string))
    requires KnownNames(items + [it])
    ensures TrimSpace(Spaced(items) + ItemText(it)) == Render(items + [it])
  {
    RenderSnoc(items, it);
    TrimRender(items + [it], "");
    assert Render(items + [it]) + "" == Render(items + [it]);
  }

  /** The formatted text is the rendering of the non-empty items. */
  lemma FormatIsRender(info: ClientInfo)
    ensures FormatClientInfo(info) == Render(Items(info))
  {
    var first := Opt("plat", info.plat) + Opt("os", info.os) + Opt("env", info.env);
    var items := Items(info);
    FormatRaw(info);
    ItemNames(info);
    if info.version == "" {
      assert items == first;
      assert Spaced(first) + "" == Spaced(first);
      TrimSpaced(first);
    } else {
      assert items == first + [("v", info.version)];
      TrimSpacedSnoc(first, ("v", info.version));
    }
  }

  /** The record-level view of the assignment loop. */
  function AssignList(info: ClientInfo, items: seq<(string, string)>): ClientInfo
    decreases |items|
  {
    if |items| == 0 then info else AssignList(Assign(info, items[0].0, items[0].1), items[1..])
  }

  lemma {:induction false} AssignAllIsList(info: ClientInfo, ps: seq<Pair>, items: seq<(string, string)>)
    requires |ps| == |items|
    requires forall k :: 0 <= k < |ps| ==> ps[k].name == items[k].0 && ps[k].value == items[k].1
    ensures AssignAll(info, ps) == AssignList(info, items)
    decreases |ps|
  {
    if |ps| > 0 {
      AssignAllIsList(Assign(info, ps[0].name, ps[0].value), ps[1..], items[1..]);
    }
  }

  lemma {:induction false} AssignListAppend(info: ClientInfo, a: seq<(string, string)>, b: seq<(string, string)>)
    ensures AssignList(info, a + b) == AssignList(AssignList(info, a), b)
    decreases |a|
  {
    if |a| > 0 {
      assert (a + b)[1..] == a[1..] + b;
      AssignListAppend(Assign(info, a[0].0, a[0].1), a[1..], b);
    } else {
      assert a + b == b;
    }
  }

  /** Assigning the items of a record, in order, to the empty record
      rebuilds the record. */
  lemma AssignItems(info: ClientInfo)
    ensures AssignList(EmptyInfo, Items(info)) == info
  {
    var a := Opt("plat", info.plat);
    var b := Opt("os", info.os);
    var c := Opt("env", info.env);
    var d := Opt("v", info.version);
    AssignListAppend(EmptyInfo, a + b + c, d);
    AssignListAppend(EmptyInfo, a + b, c);
    AssignListAppend(EmptyInfo, a, b);
  }

  /** The items of a record whose fields the format can carry are well
      formed: short names of name characters and non-empty values. */
  lemma ItemsWellFormed(info: ClientInfo)
    requires Carriable(info.plat) && Carriable(info.os) && Carriable(info.env) && Carriable(info.version)
    ensures WellFormedItems(Items(info))
  {
    var items := Items(info);
    forall k | 0 <= k < |items| ensures WellFormedItem(items[k]) {
      var name := items[k].0;
      assert name in {"plat", "os", "env", "v"} by { ItemNames(info); }
      assert forall x :: 0 <= x < |name| ==> name[x] in "plantosevi";
    }
  }

  /** Round trip: extracting the formatted description gives the record
      back, provided no field holds a closing parenthesis. */
  lemma ExtractFormat(info: ClientInfo)
    requires Carriable(info.plat) && Carriable(info.os) && Carriable(info.env) && Carriable(info.version)
    ensures ExtractClientInfo(FormatClientInfo(info)) == info
  {
    var s := FormatClientInfo(info);
    var items := Items(info);
    FormatIsRender(info);
    ItemsWellFormed(info);
    assert s[0..] == s;
    PairsOfRender(s, 0, items);
    AssignAllIsList(EmptyInfo, Pairs(s, 0), items);
    AssignItems(info);
  }

  // ---------------------------------------------------------------------
  // Message source
  // ---------------------------------------------------------------------

  /** The platform names and message-source names of the chat package; their
      values are not part of this model. */
  datatype PlatformNames = PlatformNames(desktop: string, web: string, discord: string)
  datatype SourceNames = SourceNames(windows16: string, web: string, discord: string)

  /** `ClientInfoToMsgSource`: the cases are tried in order, so a platform
      name shared by two cases takes the first. */
  function ClientInfoToMsgSource(p: PlatformNames, src: SourceNames, info: ClientInfo): (r: string)
    ensures info.plat == p.desktop ==> r == (if info.env == "16-bit" then src.windows16 else "")
    ensures info.plat != p.desktop && info.plat == p.web ==> r == src.web
    ensures info.plat != p.desktop && info.plat != p.web && info.plat == p.discord ==> r == src.discord
    ensures info.plat !in {p.desktop, p.web, p.discord} ==> r == ""
  {
    if info.plat == p.desktop then (if info.env == "16-bit" then src.windows16 else "")
    else if info.plat == p.web then src.web
    else if info.plat == p.discord then src.discord
    else ""
  }
}

=== FILE: clock.dfy ===
/** Go's `time` package as the server uses it. A time is an integer number of
    nanoseconds since the Unix epoch; the clock itself is never read by the
    model, every operation that calls `time.Now()` takes `now` as a parameter. */
module Clock {

  type Time = int

  const Millisecond: int := 1_000_000
  const Second: int := 1_000_000_000
  const Minute: int := 60 * Second

  /** The zero `time.Time` (January 1, year 1, UTC): what a freshly allocated
      record holds in every time field. */
  const ZeroTime: Time := -62_135_596_800 * Second

  const MaxDuration: int := 0x7FFF_FFFF_FFFF_FFFF
  const MinDuration: int := -0x8000_0000_0000_0000

  /** `t.Sub(u)`: the duration from `u` to `t`, saturated to the range of a
      64-bit nanosecond `time.Duration`. */
  function Sub(t: Time, u: Time): (d: int)
    ensures MinDuration <= d <= MaxDuration
    ensures MinDuration <= t - u <= MaxDuration ==> d == t - u
    ensures t - u > MaxDuration ==> d == MaxDuration
    ensures t - u < MinDuration ==> d == MinDuration
  {
    if t - u > MaxDuration then MaxDuration
    else if t - u < MinDuration then MinDuration
    else t - u
  }

  /** `t.Sub(u).Minutes() <= m` for a whole number of minutes `m`. The float
      division `d / 6e10` is exact enough at these magnitudes that the test is
      the integer comparison `d <= m * Minute`. */
  predicate WithinMinutes(t: Time, u: Time, m: nat) {
    Sub(t, u) <= m * Minute
  }

  /** `t.Sub(u).Seconds() > s`. */
  predicate LongerThanSeconds(t: Time, u: Time, s: nat) {
    Sub(t, u) > s * Second
  }

  /** `t.Unix()`: whole seconds since the epoch, rounded towards the past. */
  function UnixSeconds(t: Time): (s: int)
    ensures s * Second <= t < (s + 1) * Second
  {
    t / Second
  }

  /** `time.Unix(s, 0)`. */
  function FromUnixSeconds(s: int): Time {
    s * Second
  }

  /** Any time after the first thirty years of the zero time is more than
      any window the server uses away from the zero time: the saturated
      difference is the maximal duration. */
  lemma ZeroTimeIsLongAgo(now: Time, m: nat)
    requires now >= 0
    requires m <= 1_000_000
    ensures !WithinMinutes(now, ZeroTime, m)
  {
  }
}

=== FILE: codes.dfy ===
/** The message type codes of the raw-socket protocol (sockets/constants.go):
    server-to-client codes 0 to 9 and client-to-server codes from 100. */
module Codes {

  const ServerError: nat := 0
  const ServerColorList: nat := 1
  const ServerRoomList: nat := 2
  const ServerUserRegistrationSuccess: nat := 3
  const ServerUserListAdd: nat := 4
  const ServerUserListRemove: nat := 5
  const ServerUserListUpdate: nat := 6
  const ServerMessageSent: nat := 7
  const ServerUserKicked: nat := 8
  const ServerTime: nat := 9

  const ClientRegisterUser: nat := 100
  const ClientSendMessage: nat := 101
  const ClientColorListRequest: nat := 105
  const ClientRoomListRequest: nat := 106
  const ClientPing: nat := 110

  const ServerTimeMin: nat := 5

  const ServerCodes: seq<nat> := [ServerError, ServerColorList, ServerRoomList,
    ServerUserRegistrationSuccess, ServerUserListAdd, ServerUserListRemove,
    ServerUserListUpdate, ServerMessageSent, ServerUserKicked, ServerTime]

  const ClientCodes: seq<nat> := [ClientRegisterUser, ClientSendMessage,
    ClientColorListRequest, ClientRoomListRequest, ClientPing]

  predicate Distinct(codes: seq<nat>) {
    forall i, j :: 0 <= i < j < |codes| ==> codes[i] != codes[j]
  }

  /** Every code fits the 16-bit type field of the header, the codes of each
      direction are pairwise distinct, and the two directions never share a
      code: every server code is below 100 and every client code is not. */
  lemma CodesAreWellSeparated()
    ensures forall i :: 0 <= i < |ServerCodes| ==> ServerCodes[i] < 65536
    ensures forall i :: 0 <= i < |ClientCodes| ==> ClientCodes[i] < 65536
    ensures Distinct(ServerCodes) && Distinct(ClientCodes)
    ensures forall i :: 0 <= i < |ServerCodes| ==> ServerCodes[i] < 100
    ensures forall i :: 0 <= i < |ClientCodes| ==> ClientCodes[i] >= 100
  {
  }
}

=== FILE: dynamic.dfy ===
/** The dynamically typed values (`interface{}`) that the server keeps in
    per-connection and per-session key/value bags. */
module Dynamic {

  /** `Nil` is the nil interface; `Other` stands for a value of any type the
      model does not name. */
  datatype Dyn = Nil | Bool(b: bool) | Int64(i: int) | Str(s: string) | Other

  type Bag = map<string, Dyn>

  /** Reading a missing key of a Go map yields the zero value, here `Nil`. */
  function Lookup(bag: Bag, key: string): (v: Dyn)
    ensures key !in bag ==> v == Nil
    ensures key in bag ==> v == bag[key]
  {
    if key in bag then bag[key] else Nil
  }
}

=== FILE: flood.dfy ===
/** Per-IP flood control (floodcontrol/flood-control.go). Each registered IP
    has a record of its last flood, its flood count and its last "maximum"
    flood; a flood counted while the count is at the maximum starts a ban.
    The record type is the one of session/schema.go, whose fields the code
    reads. The package-level map becomes a value passed in and returned. */
module Flood {
  import opened Clock

  /** The message-flood tuning constants (floodcontrol/constants.go). */
  const MessageFloodCooldownMin: nat := 2
  const MessageFloodRangeSec: nat := 4
  const MessageFloodMessagesCount: nat := 6
  const MessageFloodMaximumFloods: nat := 5
  const MessageFloodIpBanMin: nat := 30

  datatype FloodControl = FloodControl(
    lastMessageFlood: Time,
    messageFloodCount: int,
    lastMaximumFlood: Time)

  /** `&FloodControl{}`: both times are the zero time. */
  const FreshControl: FloodControl := FloodControl(ZeroTime, 0, ZeroTime)

  type Registry = map<string, FloodControl>

  /** Within the ban period of the record's last maximum flood. */
  predicate Banned(c: FloodControl, now: Time) {
    WithinMinutes(now, c.lastMaximumFlood, MessageFloodIpBanMin)
  }

  /** Within the cooldown of the record's last flood. */
  predicate CoolingDown(c: FloodControl, now: Time) {
    WithinMinutes(now, c.lastMessageFlood, MessageFloodCooldownMin)
  }

  /** `IsIPBanned`: an unknown IP is never banned. */
  function IsIPBanned(ips: Registry, ip: string, now: Time): (r: bool)
    ensures ip !in ips ==> !r
    ensures ip in ips ==> (r <==> Sub(now, ips[ip].lastMaximumFlood) <= 30 * Minute)
  {
    ip in ips && Banned(ips[ip], now)
  }

  /** `IsCooldownPeriod`: an unknown IP never cools down. */
  function IsCooldownPeriod(ips: Registry, ip: string, now: Time): (r: bool)
    ensures ip !in ips ==> !r
    ensures ip in ips ==> (r <==> Sub(now, ips[ip].lastMessageFlood) <= 2 * Minute)
  {
    ip in ips && CoolingDown(ips[ip], now)
  }

  /** One counted flood of a record: at the maximum the count restarts and
      the ban stamp moves to `now`; the flood stamp always does. */
  function Flooded(c: FloodControl, now: Time): (r: FloodControl)
    ensures r.lastMessageFlood == now
    ensures c.messageFloodCount >= MessageFloodMaximumFloods ==>
      r.messageFloodCount == 1 && r.lastMaximumFlood == now
    ensures c.messageFloodCount < MessageFloodMaximumFloods ==>
      r.messageFloodCount == c.messageFloodCount + 1 && r.lastMaximumFlood == c.lastMaximumFlood
  {
    var c' := if c.messageFloodCount >= MessageFloodMaximumFloods
      then c.(messageFloodCount := 0, lastMaximumFlood := now)
      else c;
    c'.(lastMessageFlood := now, messageFloodCount := c'.messageFloodCount + 1)
  }

  /** `SetFlooded`: counts a flood for a registered IP; unknown IPs are left
      alone, and no other record changes. */
  function SetFlooded(ips: Registry, ip: string, now: Time): (r: Registry)
    ensures r.Keys == ips.Keys
    ensures forall other :: other in ips && other != ip ==> r[other] == ips[other]
    ensures ip !in ips ==> r == ips
    ensures ip in ips ==> r[ip] == Flooded(ips[ip], now)
  {
    if ip !in ips then ips else ips[ip := Flooded(ips[ip], now)]
  }

  /** `registerIp`: adds a fresh record for an unknown IP and never replaces
      an existing one. */
  function RegisterIp(ips: Registry, ip: string): (r: Registry)
    ensures r.Keys == ips.Keys + {ip}
    ensures ip in ips ==> r == ips
    ensures ip !in ips ==> r[ip] == FreshControl
    ensures forall other :: other in ips ==> r[other] == ips[other]
  {
    if ip in ips then ips else ips[ip := FreshControl]
  }

  // ---------------------------------------------------------------------
  // Properties of the state machine
  // ---------------------------------------------------------------------

  /** Registering twice is registering once. */
  lemma RegisterIpIdempotent(ips: Registry, ip: string)
    ensures RegisterIp(RegisterIp(ips, ip), ip) == RegisterIp(ips, ip)
  {
  }

  /** A freshly registered IP, at any time after the epoch, is neither banned
      nor cooling down. */
  lemma FreshIpIsFree(ips: Registry, ip: string, now: Time)
    requires ip !in ips
    requires now >= 0
    ensures !IsIPBanned(RegisterIp(ips, ip), ip, now)
    ensures !IsCooldownPeriod(RegisterIp(ips, ip), ip, now)
  {
    ZeroTimeIsLongAgo(now, MessageFloodIpBanMin);
    ZeroTimeIsLongAgo(now, MessageFloodCooldownMin);
  }

  /** Right after a counted flood the IP cools down. */
  lemma FloodStartsCooldown(ips: Registry, ip: string, now: Time)
    requires ip in ips
    ensures IsCooldownPeriod(SetFlooded(ips, ip, now), ip, now)
  {
  }

  /** A flood counted at the maximum bans the IP at once. */
  lemma FloodAtMaximumBans(ips: Registry, ip: string, now: Time)
    requires ip in ips && ips[ip].messageFloodCount >= MessageFloodMaximumFloods
    ensures IsIPBanned(SetFlooded(ips, ip, now), ip, now)
  {
  }

  /** Once counted, the flood count stays between 1 and the maximum. */
  lemma FloodCountBounded(c: FloodControl, now: Time)
    requires 0 <= c.messageFloodCount <= MessageFloodMaximumFloods
    ensures 1 <= Flooded(c, now).messageFloodCount <= MessageFloodMaximumFloods
  {
  }

  /** `n` successive floods of one record, at the given times. */
  function FloodTimes(c: FloodControl, times: seq<Time>): FloodControl
    decreases |times|
  {
    if |times| == 0 then c else FloodTimes(Flooded(c, times[0]), times[1..])
  }

  /** From a fresh record, the first five floods never touch the ban stamp
      and the count equals the number of floods. */
  lemma {:induction false} FirstFloodsDoNotBan(c: FloodControl, times: seq<Time>)
    requires 0 <= c.messageFloodCount
    requires c.messageFloodCount + |times| <= MessageFloodMaximumFloods
    ensures FloodTimes(c, times).messageFloodCount == c.messageFloodCount + |times|
    ensures FloodTimes(c, times).lastMaximumFlood == c.lastMaximumFlood
    decreases |times|
  {
    if |times| > 0 {
      FirstFloodsDoNotBan(Flooded(c, times[0]), times[1..]);
    }
  }

  /** The sixth flood of a fresh record is the one that bans: after five
      floods the count is at the maximum, and the next flood stamps the ban
      and restarts the count at one. */
  lemma SixthFloodBans(times: seq<Time>, now: Time)
    requires |times| == MessageFloodMaximumFloods
    ensures FloodTimes(FreshControl, times).lastMaximumFlood == ZeroTime
    ensures Flooded(FloodTimes(FreshControl, times), now).lastMaximumFlood == now
    ensures Flooded(FloodTimes(FreshControl, times), now).messageFloodCount == 1
  {
    FirstFloodsDoNotBan(FreshControl, times);
  }
}

=== FILE: join.dfy ===
/** The decisions of the join form (routes/join.go): nickname comparison
    with the owner's name, whether the browser can wait for chat events, and
    what a submitted form leads to: a list of errors, the owner's log-in, or
    a new user in the room.

    The user-agent parser, the SHA-1 digest, the configuration, the
    registration of the client's IP in the session and the page rendering
    are not part of this model: the parsed browser family and major version,
    the digest function, the owner's configured nickname and password, and
    the session store as it stands after the IP registration are
    parameters. */
module Join {
  import opened Wrappers
  import opened Text
  import opened Clock
  import opened Dynamic
  import Session
  import SessionFlood
  import Profanity
  import Validations
  import Rooms

  // ---------------------------------------------------------------------
  // Nicknames
  // ---------------------------------------------------------------------

  /** `isNickVariation` of the join form: the two names are equal once
      trimmed, lowered and stripped of white space, `_` and `-`. Unlike the
      similarity test of the socket server, it asks for equality. */
  predicate SameNick(input: string, against: string) {
    Validations.Normalize(input) == Validations.Normalize(against)
  }

  /** A non-empty variation in the join form's sense is also one in the
      socket server's sense. */
  lemma SameNickIsVariation(a: string, b: string)
    requires SameNick(a, b) && Validations.Normalize(a) != ""
    ensures Validations.IsNickVariation(a, b)
  {
    Validations.SameNormalFormIsVariation(a, b);
  }

  lemma LowerKeepsSpace(c: char)
    ensures IsSpace(LowerChar(c)) <==> IsSpace(c)
  {
  }

  lemma {:induction false} TrimStartLower(s: string)
    ensures TrimStart(ToLower(s), IsSpace) == ToLower(TrimStart(s, IsSpace))
    decreases |s|
  {
    var t := ToLower(s);
    if |s| > 0 {
      assert t[0] == LowerChar(s[0]);
      LowerKeepsSpace(s[0]);
      if IsSpace(s[0]) {
        assert t[1..] == ToLower(s[1..]);
        TrimStartLower(s[1..]);
        assert TrimStart(t, IsSpace) == TrimStart(t[1..], IsSpace);
        assert TrimStart(s, IsSpace) == TrimStart(s[1..], IsSpace);
      } else {
        assert TrimStart(t, IsSpace) == t;
        assert TrimStart(s, IsSpace) == s;
      }
    }
  }

  lemma {:induction false} TrimEndLower(s: string)
    ensures TrimEnd(ToLower(s), IsSpace) == ToLower(TrimEnd(s, IsSpace))
    decreases |s|
  {
    var t := ToLower(s);
    if |s| > 0 {
      assert t[|s| - 1] == LowerChar(s[|s| - 1]);
      LowerKeepsSpace(s[|s| - 1]);
      if IsSpace(s[|s| - 1]) {
        assert t[..|s| - 1] == ToLower(s[..|s| - 1]);
        TrimEndLower(s[..|s| - 1]);
        assert TrimEnd(t, IsSpace) == TrimEnd(t[..|s| - 1], IsSpace);
        assert TrimEnd(s, IsSpace) == TrimEnd(s[..|s| - 1], IsSpace);
      } else {
        assert TrimEnd(t, IsSpace) == t;
        assert TrimEnd(s, IsSpace) == s;
      }
    }
  }

  /** Lowering and trimming commute. */
  lemma TrimSpaceLower(s: string)
    ensures TrimSpace(ToLower(s)) == ToLower(TrimSpace(s))
  {
    TrimStartLower(s);
    TrimEndLower(TrimStart(s, IsSpace));
  }

  /** Letter case never tells two nicknames apart. */
  lemma SameNickIgnoresCase(a: string)
    ensures SameNick(a, ToLower(a))
  {
    TrimSpaceLower(a);
    ToLowerIdempotent(TrimSpace(a));
  }

  // ---------------------------------------------------------------------
  // Browser support
  // ---------------------------------------------------------------------

  /** The browser's major version; one that does not parse counts as 99. */
  function MajorVersion(major: string): (r: int)
    ensures ParseInt64(major).Some? ==> r == ParseInt64(major).value
    ensures ParseInt64(major).None? ==> r == 99
  {
    match ParseInt64(major)
    case Some(v) => v
    case None => 99
  }

  /** `supportsChatEventAwaiter` after parsing the user agent: Opera up to
      version 4 and Internet Explorer up to version 3 cannot wait for chat
      events; every other browser can. */
  function SupportsChatEventAwaiter(family: string, major: string): (r: bool)
    ensures !r <==>
      || (ToLower(family) == "opera" && MajorVersion(major) <= 4)
      || (ToLower(family) == "ie" && MajorVersion(major) <= 3)
  {
    var f := ToLower(family);
    var m := MajorVersion(major);
    if f == "opera" && m <= 4 then false
    else if f == "ie" && m <= 3 then false
    else true
  }

  /** A browser reporting a version `v` is judged on `v` itself, and one whose
      version does not parse is always supported. */
  lemma SupportsByVersion(family: string, v: int, major: string)
    requires Int64Min <= v <= Int64Max
    requires ParseInt64(major).None?
    ensures SupportsChatEventAwaiter(family, IntToString(v)) <==>
      !((ToLower(family) == "opera" && v <= 4) || (ToLower(family) == "ie" && v <= 3))
    ensures SupportsChatEventAwaiter(family, major)
  {
    ParseFormatInt(v);
  }

  // ---------------------------------------------------------------------
  // The submitted form
  // ---------------------------------------------------------------------

  const Separator: string := "###"
  const BannedText: string := "You have been temporarily kicked out for flooding, try again later."
  const NoNicknameText: string := "No nickname was entered in the form."
  const NotAllowedText: string := "This nickname is not allowed."
  const BadCaptchaText: string := "The entered captcha is invalid."
  const BadCredentialsText: string := "Entered credentials are invalid!"
  const NicknameTakenText: string := "Someone is already using this Nickname, try a different one."
  const AwaiterKey: string := "supportsChatEventAwaiter"

  /** The nickname field holds the nickname, optionally followed by `###`
      and the owner's password. */
  function Credentials(ni: string): (r: seq<string>)
    ensures |r| >= 1
    ensures Index(r[0], Separator) == -1
    ensures Join(r, Separator) == ni
  {
    SplitPiecesFree(ni, Separator);
    JoinSplit(ni, Separator);
    Split(ni, Separator)
  }

  /** The checks made before anything else, each adding its error: a banned
      IP, an empty nickname, a profane nickname, and a captcha that is
      missing or differs. The captcha stored in the session must be text;
      any other value makes the type assertion panic. */
  function PreCheckErrors(banned: bool, nickname: string, profane: bool, stored: Option<Dyn>, captcha: string):
    (r: Result<seq<string>, string>)
    ensures r.Failure? <==> stored.Some? && !stored.value.Str?
    ensures r.Success? ==>
      && (BannedText in r.value <==> banned)
      && (NoNicknameText in r.value <==> nickname == "")
      && (NotAllowedText in r.value <==> profane)
      && (BadCaptchaText in r.value <==> stored.None? || stored.value.s != captcha)
      && (r.value == [] <==> !banned && nickname != "" && !profane && stored == Some(Str(captcha)))
  {
    if stored.Some? && !stored.value.Str? then Failure("captcha is not a string")
    else
      Success(
        (if banned then [BannedText] else []) +
        (if nickname == "" then [NoNicknameText] else []) +
        (if profane then [NotAllowedText] else []) +
        (if stored.None? || stored.value.s != captcha then [BadCaptchaText] else []))
  }

  /** What a form leads to once the pre-checks are done. */
  datatype Decision = Refuse(errors: seq<string>) | LoginAsOwner | RegisterAs(nickname: string)

  /** The decision of `PostJoin`: pre-check errors refuse the form. A
      password logs the owner in when its digest is the configured one and
      the nickname is the owner's; anything else with a password is refused.
      Without a password the owner's nickname is taken and any other is
      registered. */
  function Decide(preErrors: seq<string>, ni: string, ownerNickname: string, ownerPassword: string,
                  digest: string -> string): (r: Decision)
    ensures preErrors != [] ==> r == Refuse(preErrors)
    ensures r.LoginAsOwner? <==>
      && preErrors == []
      && |Credentials(ni)| > 1
      && digest(Credentials(ni)[1]) == ToLower(ownerPassword)
      && SameNick(ownerNickname, Credentials(ni)[0])
    ensures r.RegisterAs? <==>
      preErrors == [] && |Credentials(ni)| == 1 && !SameNick(ownerNickname, ni)
    ensures r.RegisterAs? ==> r.nickname == ni
    ensures r.Refuse? ==> r.errors != []
  {
    var credentials := Credentials(ni);
    var nickname := credentials[0];
    if preErrors != [] then Refuse(preErrors)
    else if |credentials| > 1 then
      if digest(credentials[1]) == ToLower(ownerPassword) && SameNick(ownerNickname, nickname) then LoginAsOwner
      else Refuse([BadCredentialsText])
    else if SameNick(ownerNickname, nickname) then Refuse([NicknameTakenText])
    else RegisterAs(nickname)
  }

  /** A form without a password whose nickname is the owner's is refused as
      taken; it never logs the owner in. */
  lemma OwnerNicknameWithoutPasswordIsTaken(ni: string, ownerNickname: string, ownerPassword: string,
                                            digest: string -> string)
    requires Index(ni, Separator) == -1
    requires SameNick(ownerNickname, ni)
    ensures Decide([], ni, ownerNickname, ownerPassword, digest) == Refuse([NicknameTakenText])
  {
    assert Credentials(ni) == [ni];
  }

  /** Writing the owner's nickname in lower case does not get round the
      check: a form with it and without a password is refused as taken. */
  lemma LoweredOwnerNicknameIsTaken(ownerNickname: string, ownerPassword: string, digest: string -> string)
    requires Index(ToLower(ownerNickname), Separator) == -1
    ensures Decide([], ToLower(ownerNickname), ownerNickname, ownerPassword, digest) == Refuse([NicknameTakenText])
  {
    SameNickIgnoresCase(ownerNickname);
    OwnerNicknameWithoutPasswordIsTaken(ToLower(ownerNickname), ownerNickname, ownerPassword, digest);
  }

  /** The client side of a submitted form. */
  datatype Form = Form(ni: string, color: string, captcha: string)

  /** The owner's configured nickname and password (a hex SHA-1 digest). */
  datatype OwnerLogin = OwnerLogin(nickname: string, password: string)

  /** What the handler leaves behind: the world, the room, and the errors
      the join page shows again (none means the browser goes to the room). */
  datatype Joined = Joined(world: Rooms.World, room: Rooms.Room, errors: seq<string>)

  /** `PostJoin` for a known room: the pre-checks, the decision, then the
      log-in or the registration. A registration refused with "user exists"
      is reported as a taken nickname. When no error remains, the session
      records whether the browser can wait for chat events. Panics (a
      session IP that is not text, a captcha that is not text, no owner to
      log in, a flood mark on a session IP that is not text) are failures. */
  function PostJoin(w: Rooms.World, room: Rooms.Room, form: Form, ident: string, owner: OwnerLogin,
                    blocked: seq<string>, censored: seq<string>, digest: string -> string,
                    nameId: string -> string, family: string, major: string, now: Time):
    (r: Result<Joined, string>)
    ensures !SessionFlood.IpIsText(w.sessions, ident) ==> r.Failure?
    ensures SessionFlood.IpIsText(w.sessions, ident) ==>
      var pre := FormPreChecks(w, form, ident, blocked, censored, now);
      && (pre.Failure? ==> r.Failure?)
      && (pre.Success? ==>
            var a := Apply(w, room, Decide(pre.value, form.ni, owner.nickname, owner.password, digest),
                           form, ident, nameId, now);
            && (r.Failure? <==> a.Failure?)
            && (r.Success? ==>
                  && r.value.room == a.value.room && r.value.errors == a.value.errors
                  && r.value.world.owner == a.value.world.owner && r.value.world.ips == a.value.world.ips
                  && r.value.world.posted == a.value.world.posted))
    ensures r.Success? && r.value.errors != [] ==> r.value.world.owner == w.owner
    ensures r.Success? && r.value.errors == [] ==>
      r.value.world.sessions == Session.SetSessionValue(w.sessions, ident, AwaiterKey,
                                                        Bool(SupportsChatEventAwaiter(family, major)))
  {
    if !SessionFlood.IpIsText(w.sessions, ident) then Failure("ip is not a string")
    else
      match FormPreChecks(w, form, ident, blocked, censored, now)
      case Failure(e) => Failure(e)
      case Success(pre) =>
        var decision := Decide(pre, form.ni, owner.nickname, owner.password, digest);
        match Apply(w, room, decision, form, ident, nameId, now)
        case Failure(e) => Failure(e)
        case Success(j) =>
          if j.errors == [] then
            var sessions := Session.SetSessionValue(j.world.sessions, ident, AwaiterKey,
                                                    Bool(SupportsChatEventAwaiter(family, major)));
            Success(j.(world := j.world.(sessions := sessions)))
          else Success(j)
  }

  /** The pre-checks of a submitted form: the ban of the session's IP, the
      nickname before any "###", its profanity, and the captcha. */
  function FormPreChecks(w: Rooms.World, form: Form, ident: string, blocked: seq<string>, censored: seq<string>,
                         now: Time): Result<seq<string>, string>
    requires SessionFlood.IpIsText(w.sessions, ident)
  {
    var nickname := Credentials(form.ni)[0];
    PreCheckErrors(SessionFlood.IsIPBanned(w.sessions, w.ips, ident, now), nickname,
                   Profanity.IsProfaneNickname(blocked, censored, nickname),
                   Session.GetSessionValue(w.sessions, ident, "captcha"), form.captcha)
  }

  /** Carries out a decision. */
  function Apply(w: Rooms.World, room: Rooms.Room, decision: Decision, form: Form, ident: string,
                 nameId: string -> string, now: Time): (r: Result<Joined, string>)
    ensures decision.Refuse? ==> r == Success(Joined(w, room, decision.errors))
    ensures decision.LoginAsOwner? ==>
      && (w.owner.None? <==> r.Failure?)
      && (r.Success? ==> r.value == Joined(w.(owner := Some(w.owner.value.(sessionIdent := ident))), room, []))
    ensures decision.RegisterAs? && r.Success? && r.value.errors == [] ==>
      var reg := Rooms.RegisterUser(w, room, decision.nickname, form.color, ident, now, nameId);
      reg.Success? && r.value.room == reg.value.0 && r.value.world == reg.value.2
    ensures decision.RegisterAs? && r.Success? && r.value.errors != [] ==>
      r.value == Joined(w, room, [NicknameTakenText])
    ensures decision.RegisterAs? ==>
      var reg := Rooms.RegisterUser(w, room, decision.nickname, form.color, ident, now, nameId);
      && (r.Failure? <==> reg.Failure? && reg.error != "user exists")
      && (reg.Success? ==> r == Success(Joined(reg.value.2, reg.value.0, [])))
    ensures r.Success? ==> r.value.world.sessions == w.sessions
  {
    match decision
    case Refuse(errors) => Success(Joined(w, room, errors))
    case LoginAsOwner =>
      (match Rooms.LoginOwner(w.owner, ident)
       case Failure(e) => Failure(e)
       case Success(o) => Success(Joined(w.(owner := Some(o)), room, [])))
    case RegisterAs(nickname) =>
      match Rooms.RegisterUser(w, room, nickname, form.color, ident, now, nameId)
      case Failure(e) =>
        if e == "user exists" then Success(Joined(w, room, [NicknameTakenText])) else Failure(e)
      case Success((room2, user, w2)) => Success(Joined(w2, room2, []))
  }

  /** A form that fails a pre-check changes nothing but what the page shows:
      nobody is registered and the owner is not logged in. */
  lemma PreCheckErrorsSkipEverything(w: Rooms.World, room: Rooms.Room, form: Form, ident: string,
                                     pre: seq<string>, owner: OwnerLogin, digest: string -> string,
                                     nameId: string -> string, now: Time)
    requires pre != []
    ensures Apply(w, room, Decide(pre, form.ni, owner.nickname, owner.password, digest),
                  form, ident, nameId, now) == Success(Joined(w, room, pre))
  {
  }
}

=== FILE: legacyroom.dfy ===
/** The first room model of the server (chat-room.go at the repository
    root): rooms keep their messages newest first and their users in joining
    order, and each user's poll rate follows the age of the newest message.
    The clock is `now` and the name-based UUID of a nickname is the parameter
    `nameId`. */
module LegacyRoom {
  import opened Wrappers
  import opened Text
  import opened Clock
  import Rooms

  const MaxMessages: nat := 200
  const UserLogoutTimeout: nat := 120
  const UserMaxMessageRateSec: nat := 60
  const UserMinMessageRateSec: nat := 2

  /** The first speech mode of the package's list, which is not part of this
      model; the later packages start their lists with "says-to". */
  const FirstSpeechMode: string := "says-to"
  const JoinedText: string := "{nickname} has joined the room!"
  const LeftText: string := "{nickname} has left the room!"

  datatype RoomUser = RoomUser(
    id: string,
    lastActivity: Time,
    nickname: string,
    color: string,
    lastPing: Time,
    lastUserListUpdate: Time,
    updateMessageRate: int)

  datatype RoomMessage = RoomMessage(
    time: Time,
    message: string,
    from: RoomUser,
    to: Option<RoomUser>,
    privately: bool,
    speechMode: string,
    isSystemMessage: bool)

  datatype Room = Room(
    id: string,
    name: string,
    color: string,
    messages: seq<RoomMessage>,
    users: seq<RoomUser>,
    lastUserListUpdate: Time)

  // ---------------------------------------------------------------------
  // Poll rate
  // ---------------------------------------------------------------------

  /** `getMessageRate`: with no messages, the slowest rate; otherwise half
      the whole seconds since the newest message, rounded down and clamped
      to the slowest and fastest rates. Dividing the nanoseconds by two
      seconds rounds down as `math.Floor` does. */
  function GetMessageRate(room: Room, now: Time): (r: int)
    ensures UserMinMessageRateSec <= r <= UserMaxMessageRateSec
    ensures |room.messages| == 0 ==> r == UserMaxMessageRateSec
    ensures |room.messages| > 0 ==>
      var age := Sub(now, room.messages[0].time);
      && (age >= 2 * UserMaxMessageRateSec * Second ==> r == UserMaxMessageRateSec)
      && (age < 2 * (UserMinMessageRateSec + 1) * Second ==> r == UserMinMessageRateSec)
      && (UserMinMessageRateSec < r < UserMaxMessageRateSec ==> r * 2 * Second <= age < (r + 1) * 2 * Second)
  {
    if |room.messages| == 0 then UserMaxMessageRateSec
    else
      var diff := Sub(now, room.messages[0].time) / (2 * Second);
      if diff > UserMaxMessageRateSec then UserMaxMessageRateSec
      else if diff < UserMinMessageRateSec then UserMinMessageRateSec
      else diff
  }

  /** The rate only slows down as time passes since the newest message. */
  lemma MessageRateSlowsWithAge(room: Room, now1: Time, now2: Time)
    requires now1 <= now2
    ensures GetMessageRate(room, now1) <= GetMessageRate(room, now2)
  {
    if |room.messages| > 0 {
      var t := room.messages[0].time;
      assert Sub(now1, t) <= Sub(now2, t);
    }
  }

  /** `UpdateMessageRate`: stores the room's current rate in the user. */
  function UpdateMessageRate(room: Room, user: RoomUser, now: Time): (r: RoomUser)
    ensures r == user.(updateMessageRate := GetMessageRate(room, now))
    ensures UserMinMessageRateSec <= r.updateMessageRate <= UserMaxMessageRateSec
    ensures |room.messages| == 0 ==> r.updateMessageRate == UserMaxMessageRateSec
  {
    user.(updateMessageRate := GetMessageRate(room, now))
  }

  // ---------------------------------------------------------------------
  // Messages and users
  // ---------------------------------------------------------------------

  /** `Room.SendMessage`: the message goes in front and the list is cut to
      `MaxMessages`; the users are untouched. */
  function SendMessage(room: Room, msg: RoomMessage): (r: Room)
    ensures |r.messages| == if |room.messages| + 1 > MaxMessages then MaxMessages else |room.messages| + 1
    ensures r.messages[0] == msg
    ensures r.messages[1..] == room.messages[..|r.messages| - 1]
    ensures r == room.(messages := r.messages)
  {
    var all := [msg] + room.messages;
    assert all[1..] == room.messages;
    room.(messages := if |all| > MaxMessages then all[..MaxMessages] else all)
  }

  /** The history never exceeds `MaxMessages`, and older messages keep
      their order behind the new one. */
  lemma SendMessageKeepsBound(room: Room, msg: RoomMessage)
    requires |room.messages| <= MaxMessages
    ensures |SendMessage(room, msg).messages| <= MaxMessages
    ensures |room.messages| < MaxMessages ==> SendMessage(room, msg).messages == [msg] + room.messages
  {
    var r := SendMessage(room, msg).messages;
    if |room.messages| < MaxMessages {
      assert r == [r[0]] + r[1..];
    }
  }

  function InputNickname(nickname: string): string {
    ToLower(TrimSpace(nickname))
  }

  function Announcement(user: RoomUser, text: string, now: Time): RoomMessage {
    RoomMessage(now, text, user, None, false, FirstSpeechMode, true)
  }

  function NewUser(nickname: string, color: string, now: Time, nameId: string -> string): RoomUser {
    RoomUser(nameId(InputNickname(nickname)), now, nickname, color, now, now, 0)
  }

  /** A user was added: the list grows by exactly the new user, the joined
      message is sent and the list stamp is `now`. */
  predicate Joined(room: Room, user: RoomUser, now: Time, after: Room) {
    && after.users == room.users + [user]
    && after.messages == SendMessage(room, Announcement(user, JoinedText, now)).messages
    && after.lastUserListUpdate == now
  }

  /** `Room.RegisterUser` as written: it looks for a stored nickname equal to
      the lowered, trimmed input, but stores the nickname as typed, so a
      nickname with capitals or outer spaces is never found again. */
  function RegisterUserAsWritten(room: Room, nickname: string, color: string, now: Time,
                                 nameId: string -> string): (r: Result<(Room, RoomUser), string>)
    ensures r.Failure? <==> exists k :: 0 <= k < |room.users| && room.users[k].nickname == InputNickname(nickname)
    ensures r.Failure? ==> r.error == "user exists"
    ensures r.Success? ==>
      r.value.1 == NewUser(nickname, color, now, nameId) && Joined(room, r.value.1, now, r.value.0)
  {
    if exists k :: 0 <= k < |room.users| && room.users[k].nickname == InputNickname(nickname) then
      Failure("user exists")
    else
      var user := NewUser(nickname, color, now, nameId);
      var joined := room.(users := room.users + [user]);
      Success((SendMessage(joined, Announcement(user, JoinedText, now)).(lastUserListUpdate := now), user))
  }

  /** The discrepancy: registering "Bob" twice in an empty room succeeds both
      times, and the room then lists two users with the same id. */
  lemma RegisterUserAsWrittenAdmitsTwins(room: Room, color: string, now: Time, nameId: string -> string)
    requires room.users == []
    ensures RegisterUserAsWritten(room, "Bob", color, now, nameId).Success?
    ensures var room1 := RegisterUserAsWritten(room, "Bob", color, now, nameId).value.0;
      && RegisterUserAsWritten(room1, "Bob", color, now, nameId).Success?
      && var users := RegisterUserAsWritten(room1, "Bob", color, now, nameId).value.0.users;
         |users| == 2 && users[0].id == users[1].id
  {
    TrimSpaceOfPadded("Bob", "");
    assert "Bob" + "" == "Bob";
    assert InputNickname("Bob")[0] == 'b';
    var room1 := RegisterUserAsWritten(room, "Bob", color, now, nameId).value.0;
    assert room1.users == [NewUser("Bob", color, now, nameId)];
  }

  /** `Room.RegisterUser` as intended: a nickname is taken when its id, the
      name-based UUID of the lowered, trimmed nickname, is already listed, as
      the later room model checks it. */
  function RegisterUser(room: Room, nickname: string, color: string, now: Time,
                        nameId: string -> string): (r: Result<(Room, RoomUser), string>)
    ensures r.Failure? <==> exists k :: 0 <= k < |room.users| && room.users[k].id == nameId(InputNickname(nickname))
    ensures r.Failure? ==> r.error == "user exists"
    ensures r.Success? ==>
      r.value.1 == NewUser(nickname, color, now, nameId) && Joined(room, r.value.1, now, r.value.0)
  {
    var userId := nameId(InputNickname(nickname));
    if exists k :: 0 <= k < |room.users| && room.users[k].id == userId then Failure("user exists")
    else
      var user := NewUser(nickname, color, now, nameId);
      var joined := room.(users := room.users + [user]);
      Success((SendMessage(joined, Announcement(user, JoinedText, now)).(lastUserListUpdate := now), user))
  }

  predicate DistinctIds(users: seq<RoomUser>) {
    forall i, j :: 0 <= i < j < |users| ==> users[i].id != users[j].id
  }

  /** Registration keeps the listed ids distinct. */
  lemma RegisterUserKeepsIdsDistinct(room: Room, nickname: string, color: string, now: Time,
                                     nameId: string -> string)
    requires DistinctIds(room.users)
    requires RegisterUser(room, nickname, color, now, nameId).Success?
    ensures DistinctIds(RegisterUser(room, nickname, color, now, nameId).value.0.users)
  {
  }

  /** `Room.DeregisterUser`: every entry with the user's id leaves, the left
      message goes in front and the list stamp moves to `now`. Every other
      entry stays as often as it was listed, and in its order
      (`DeregisterUserKeepsOrder`). */
  function DeregisterUser(room: Room, user: RoomUser, now: Time): (r: Room)
    ensures forall k :: 0 <= k < |r.users| ==> r.users[k].id != user.id && r.users[k] in room.users
    ensures forall k :: 0 <= k < |room.users| && room.users[k].id != user.id ==> room.users[k] in r.users
    ensures forall x :: multiset(r.users)[x] == if x.id != user.id then multiset(room.users)[x] else 0
    ensures r.messages == SendMessage(room, Announcement(user, LeftText, now)).messages
    ensures r.messages[0] == Announcement(user, LeftText, now)
    ensures r.lastUserListUpdate == now
  {
    var kept := Others(room.users, user.id);
    OthersCount(room.users, user.id);
    SendMessage(room.(users := kept), Announcement(user, LeftText, now)).(lastUserListUpdate := now)
  }

  /** The filter's predicate: a different id. */
  function NotId(id: string): RoomUser -> bool {
    (u: RoomUser) => u.id != id
  }

  /** `lo.Filter` on a different id. */
  function Others(users: seq<RoomUser>, id: string): (r: seq<RoomUser>)
    ensures |r| <= |users|
    ensures forall k :: 0 <= k < |r| ==> r[k].id != id && r[k] in users
    ensures forall k :: 0 <= k < |users| && users[k].id != id ==> users[k] in r
  {
    Rooms.Keep(users, NotId(id))
  }

  /** Each entry with another id is kept as often as it occurs; entries with
      the id are gone. */
  lemma OthersCount(users: seq<RoomUser>, id: string)
    ensures forall x :: multiset(Others(users, id))[x] == if x.id != id then multiset(users)[x] else 0
  {
    forall x ensures multiset(Others(users, id))[x] == if x.id != id then multiset(users)[x] else 0 {
      Rooms.KeepCount(users, NotId(id), x);
    }
  }

  /** Deregistration keeps the other users in their order: splitting the list
      anywhere, what remains of the front stays in front of what remains of
      the back. */
  lemma DeregisterUserKeepsOrder(room: Room, user: RoomUser, now: Time, front: seq<RoomUser>, back: seq<RoomUser>)
    requires room.users == front + back
    ensures DeregisterUser(room, user, now).users == Others(front, user.id) + Others(back, user.id)
  {
    Rooms.KeepAppend(front, back, NotId(user.id));
  }
}

=== FILE: levenshtein.dfy ===
/** The edit distance of chat/validations.go: a recursive reference
    definition over prefixes, the table-filling algorithm the server runs,
    and the facts about the distance that the nickname check relies on. */
module Levenshtein {

  function Min3(x: int, y: int, z: int): (r: int)
    ensures r <= x && r <= y && r <= z
    ensures r == x || r == y || r == z
  {
    if x <= y && x <= z then x else if y <= z then y else z
  }

  lemma Min3Swap(x: int, y: int, z: int)
    ensures Min3(x, y, z) == Min3(y, x, z)
  {
  }

  /** The cost of turning the last character of `a[..i]` into the last of
      `b[..j]`. */
  function SubstitutionCost(a: string, b: string, i: nat, j: nat): nat
    requires 0 < i <= |a| && 0 < j <= |b|
  {
    if a[i - 1] == b[j - 1] then 0 else 1
  }

  /** The fewest single-character insertions, deletions and substitutions
      that turn `a[..i]` into `b[..j]`. */
  function Dist(a: string, b: string, i: nat, j: nat): nat
    requires i <= |a| && j <= |b|
    decreases i + j
  {
    if i == 0 then j
    else if j == 0 then i
    else Min3(Dist(a, b, i - 1, j) + 1, Dist(a, b, i, j - 1) + 1,
              Dist(a, b, i - 1, j - 1) + SubstitutionCost(a, b, i, j))
  }

  function EditDistance(a: string, b: string): nat {
    Dist(a, b, |a|, |b|)
  }

  /** The table holds the distances of every prefix pair in rows `0..rows`. */
  ghost predicate RowsFilled(m: array2<int>, a: string, b: string, rows: nat)
    requires m.Length0 == |a| + 1 && m.Length1 == |b| + 1 && rows <= |a| + 1
    reads m
  {
    forall r, c {:trigger m[r, c]} :: 0 <= r < rows && 0 <= c <= |b| ==> m[r, c] == Dist(a, b, r, c)
  }

  /** Fills row `i` from row `i - 1` and the row's first cell. */
  method FillRow(m: array2<int>, a: string, b: string, i: nat)
    requires m.Length0 == |a| + 1 && m.Length1 == |b| + 1 && 1 <= i <= |a|
    requires RowsFilled(m, a, b, i) && m[i, 0] == i
    modifies m
    ensures RowsFilled(m, a, b, i + 1)
    ensures forall k :: i < k <= |a| ==> m[k, 0] == old(m[k, 0])
  {
    var j := 1;
    while j <= |b|
      invariant 1 <= j <= |b| + 1
      invariant RowsFilled(m, a, b, i)
      invariant forall c {:trigger m[i, c]} :: 0 <= c < j ==> m[i, c] == Dist(a, b, i, c)
      invariant forall k :: i < k <= |a| ==> m[k, 0] == old(m[k, 0])
    {
      var cost := if a[i - 1] == b[j - 1] then 0 else 1;
      var v := Min3(m[i - 1, j] + 1, m[i, j - 1] + 1, m[i - 1, j - 1] + cost);
      DistStep(a, b, i, j, m[i - 1, j], m[i, j - 1], m[i - 1, j - 1]);
      m[i, j] := v;
      j := j + 1;
    }
  }

  /** One cell of the table from its three neighbours. */
  lemma DistStep(a: string, b: string, i: nat, j: nat, up: int, left: int, diag: int)
    requires 0 < i <= |a| && 0 < j <= |b|
    requires up == Dist(a, b, i - 1, j) && left == Dist(a, b, i, j - 1) && diag == Dist(a, b, i - 1, j - 1)
    ensures Dist(a, b, i, j) == Min3(up + 1, left + 1, diag + if a[i - 1] == b[j - 1] then 0 else 1)
  {
  }

  /** `LevenshteinDistance`: fills the `(|a|+1) x (|b|+1)` table row by row.
      The float `math.Min` of the source is exact on these small integers. */
  method LevenshteinDistance(a: string, b: string) returns (d: int)
    ensures d == EditDistance(a, b)
  {
    var la, lb := |a|, |b|;
    var m := new int[la + 1, lb + 1];
    var i := 0;
    while i <= la
      invariant 0 <= i <= la + 1
      invariant forall k :: 0 <= k < i ==> m[k, 0] == k
    {
      m[i, 0] := i;
      i := i + 1;
    }
    var j := 0;
    while j <= lb
      invariant 0 <= j <= lb + 1
      invariant forall k :: 0 <= k <= la ==> m[k, 0] == k
      invariant forall k :: 0 <= k < j ==> m[0, k] == k
    {
      m[0, j] := j;
      j := j + 1;
    }
    i := 1;
    while i <= la
      invariant 1 <= i <= la + 1
      invariant RowsFilled(m, a, b, i)
      invariant forall k :: i <= k <= la ==> m[k, 0] == k
    {
      FillRow(m, a, b, i);
      i := i + 1;
    }
    d := m[la, lb];
  }

  // ---------------------------------------------------------------------
  // Properties of the distance
  // ---------------------------------------------------------------------

  /** The distance is at least the difference of the lengths and at most
      the longer length. */
  lemma DistBounds(a: string, b: string, i: nat, j: nat)
    requires i <= |a| && j <= |b|
    ensures Dist(a, b, i, j) >= i - j && Dist(a, b, i, j) >= j - i
    ensures Dist(a, b, i, j) <= if i <= j then j else i
  {
    DistLower(a, b, i, j);
    DistUpper(a, b, i, j);
  }

  lemma {:induction false} DistLower(a: string, b: string, i: nat, j: nat)
    requires i <= |a| && j <= |b|
    ensures Dist(a, b, i, j) >= i - j && Dist(a, b, i, j) >= j - i
    decreases i + j
  {
    if i > 0 && j > 0 {
      DistLower(a, b, i - 1, j);
      DistLower(a, b, i, j - 1);
      DistLower(a, b, i - 1, j - 1);
      DistStep(a, b, i, j, Dist(a, b, i - 1, j), Dist(a, b, i, j - 1), Dist(a, b, i - 1, j - 1));
    }
  }

  lemma {:induction false} DistUpper(a: string, b: string, i: nat, j: nat)
    requires i <= |a| && j <= |b|
    ensures Dist(a, b, i, j) <= if i <= j then j else i
    decreases i + j
  {
    if i > 0 && j > 0 {
      DistUpper(a, b, i - 1, j - 1);
      DistStep(a, b, i, j, Dist(a, b, i - 1, j), Dist(a, b, i, j - 1), Dist(a, b, i - 1, j - 1));
    }
  }

  /** Equal prefixes are at distance zero. */
  lemma {:induction false} DistOfEqual(a: string, b: string, i: nat)
    requires i <= |a| && i <= |b| && a[..i] == b[..i]
    ensures Dist(a, b, i, i) == 0
    decreases i
  {
    if i > 0 {
      assert a[..i - 1] == a[..i][..i - 1] && b[..i - 1] == b[..i][..i - 1];
      assert a[i - 1] == a[..i][i - 1] && b[i - 1] == b[..i][i - 1];
      DistOfEqual(a, b, i - 1);
    }
  }

  /** Prefixes at distance zero are equal. */
  lemma {:induction false} EqualOfDistZero(a: string, b: string, i: nat, j: nat)
    requires i <= |a| && j <= |b| && Dist(a, b, i, j) == 0
    ensures i == j && a[..i] == b[..j]
    decreases i + j
  {
    if i > 0 && j > 0 {
      assert Dist(a, b, i - 1, j - 1) + SubstitutionCost(a, b, i, j) == 0;
      EqualOfDistZero(a, b, i - 1, j - 1);
      assert a[..i] == a[..i - 1] + [a[i - 1]];
      assert b[..j] == b[..j - 1] + [b[j - 1]];
    }
  }

  /** The distance is zero exactly between equal prefixes. */
  lemma DistZeroIffEqual(a: string, b: string, i: nat, j: nat)
    requires i <= |a| && j <= |b|
    ensures Dist(a, b, i, j) == 0 <==> i == j && a[..i] == b[..j]
  {
    if Dist(a, b, i, j) == 0 { EqualOfDistZero(a, b, i, j); }
    if i == j && a[..i] == b[..j] { DistOfEqual(a, b, i); }
  }

  /** Turning `a` into `b` costs what turning `b` into `a` costs. */
  lemma {:induction false} DistSymmetric(a: string, b: string, i: nat, j: nat)
    requires i <= |a| && j <= |b|
    ensures Dist(a, b, i, j) == Dist(b, a, j, i)
    decreases i + j
  {
    if i > 0 && j > 0 {
      DistSymmetric(a, b, i - 1, j);
      DistSymmetric(a, b, i, j - 1);
      DistSymmetric(a, b, i - 1, j - 1);
      SymmetricStep(a, b, i, j, Dist(a, b, i - 1, j), Dist(a, b, i, j - 1), Dist(a, b, i - 1, j - 1));
    }
  }

  /** Symmetry of one cell follows from symmetry of its three neighbours. */
  lemma SymmetricStep(a: string, b: string, i: nat, j: nat, up: nat, left: nat, diag: nat)
    requires 0 < i <= |a| && 0 < j <= |b|
    requires up == Dist(a, b, i - 1, j) == Dist(b, a, j, i - 1)
    requires left == Dist(a, b, i, j - 1) == Dist(b, a, j - 1, i)
    requires diag == Dist(a, b, i - 1, j - 1) == Dist(b, a, j - 1, i - 1)
    ensures Dist(a, b, i, j) == Dist(b, a, j, i)
  {
    var cost := SubstitutionCost(a, b, i, j);
    assert SubstitutionCost(b, a, j, i) == cost;
    DistStep(a, b, i, j, up, left, diag);
    DistStep(b, a, j, i, left, up, diag);
    Min3Swap(up + 1, left + 1, diag + cost);
  }

  /** The whole-string consequences: the distance is zero exactly between
      equal strings, it is symmetric, and it lies between the difference of
      the lengths and the longer length. */
  lemma EditDistanceFacts(a: string, b: string)
    ensures EditDistance(a, b) == 0 <==> a == b
    ensures EditDistance(a, b) == EditDistance(b, a)
    ensures |a| - |b| <= EditDistance(a, b) && |b| - |a| <= EditDistance(a, b)
    ensures EditDistance(a, b) <= if |a| <= |b| then |b| else |a|
  {
    DistZeroIffEqual(a, b, |a|, |b|);
    assert a[..|a|] == a && b[..|b|] == b;
    DistSymmetric(a, b, |a|, |b|);
    DistBounds(a, b, |a|, |b|);
  }
}

=== FILE: messages.dfy ===
/** The raw-socket message handlers of sockets/messages.go: what a
    connection is sent for a chat message, for a registration and for the
    list requests, and how a received frame is dispatched.

    A connection is its id, its user and its socket state; what the handlers
    write to it is the sequence of frames in the outcome. The server side is
    the chat store, the flood registry and the log of internal events. The
    clock, the fresh user id, the formatting of timestamps, the profanity
    lists, the owner's nickname and the flood recorder are parameters. A
    Go panic (a payload with too few fields, a missing room event bus) is a
    failure. */
module Messages {
  import opened Wrappers
  import opened Text
  import opened Clock
  import opened Schema
  import opened Wire
  import Codes
  import opened ChatSchema
  import opened UserState
  import ClientInfoText
  import ChatStore
  import Flood
  import Validations
  import Rooms

  // ---------------------------------------------------------------------
  // Sub-objects
  // ---------------------------------------------------------------------

  /** `strings.ReplaceAll` with a one-character pattern. */
  function ReplaceChar(s: string, c: char, rep: string): string {
    FlatMap(s, x => if x == c then rep else [x])
  }

  /** The escape of one character: a backslash or a quote gets a backslash
      in front. */
  function EscapeChar(c: char): string {
    if c == '\\' then "\\\\" else if c == '"' then "\\\"" else [c]
  }

  /** The reading of an escaped text: a backslash takes the next character
      literally. */
  function Unescape(s: string): string
    decreases |s|
  {
    if |s| == 0 then ""
    else if s[0] == '\\' && |s| >= 2 then [s[1]] + Unescape(s[2..])
    else [s[0]] + Unescape(s[1..])
  }

  /** Doubling the backslashes and then escaping the quotes is the one-pass
      escape: the second pass never sees a quote the first one made. */
  lemma {:induction false} ReplaceTwice(s: string)
    ensures ReplaceChar(ReplaceChar(s, '\\', "\\\\"), '"', "\\\"") == FlatMap(s, EscapeChar)
    decreases |s|
  {
    if |s| > 0 {
      var f := (x: char) => if x == '\\' then "\\\\" else [x];
      var g := (x: char) => if x == '"' then "\\\"" else [x];
      ReplaceTwice(s[1..]);
      assert FlatMap(s, f) == f(s[0]) + FlatMap(s[1..], f);
      FlatMapAppend(f(s[0]), FlatMap(s[1..], f), g);
      if s[0] == '\\' {
        assert FlatMap(f(s[0]), g) == "\\\\";
      } else {
        assert FlatMap(f(s[0]), g) == g(s[0]);
      }
    }
  }

  /** Reading an escaped text gives back the text. */
  lemma {:induction false} UnescapeEscape(s: string)
    ensures Unescape(FlatMap(s, EscapeChar)) == s
    decreases |s|
  {
    if |s| > 0 {
      var e := EscapeChar(s[0]);
      var t := FlatMap(s[1..], EscapeChar);
      UnescapeEscape(s[1..]);
      assert FlatMap(s, EscapeChar) == e + t;
      if s[0] == '\\' || s[0] == '"' {
        assert (e + t)[2..] == t;
      } else {
        assert (e + t)[1..] == t;
      }
      assert s == [s[0]] + s[1..];
    }
  }

  /** `SerializeSubObject`: a nested structure travels as its serialized
      text with backslashes and quotes escaped; an absent one as "". */
  function SerializeSubObject(val: Option<WireMessage>): (r: string)
    ensures val.None? ==> r == ""
    ensures val.Some? ==> Unescape(r) == SerializeObject(val.value)
  {
    match val
    case None => ""
    case Some(v) =>
      var serialized := SerializeObject(v);
      ReplaceTwice(serialized);
      UnescapeEscape(serialized);
      ReplaceChar(ReplaceChar(serialized, '\\', "\\\\"), '"', "\\\"")
  }

  /** The user-list entry of a user. */
  function UserListAdd(u: ChatUser): WireMessage {
    ServerUserListAdd(u.id, u.nickname, u.color, u.roomId)
  }

  function UserEntry(u: Option<ChatUser>): Option<WireMessage> {
    match u
    case None => None
    case Some(v) => Some(UserListAdd(v))
  }

  // ---------------------------------------------------------------------
  // Connections and outcomes
  // ---------------------------------------------------------------------

  datatype Conn = Conn(id: string, user: ChatUser, socket: SocketState)

  /** The internal event that binds a connection to the user it registered. */
  datatype InternalEvent = UserRegistered(connectionId: string, user: ChatUser)

  datatype Server = Server(store: ChatStore.Store, ips: Flood.Registry, internal: seq<InternalEvent>)

  /** What handling a frame leaves: the server, the connection, and the
      frames written to the connection in order. */
  datatype Outcome = Outcome(server: Server, conn: Conn, written: seq<seq<byte>>)

  /** What a handler needs from outside: the clock, the flood recorder, the
      profanity lists, the cooldown length, the owner's nickname, the
      timestamp formatter and the id a new registration gets (the combined
      id of its room and a fresh UUID). */
  datatype Env = Env(
    now: Time,
    record: (Flood.Registry, string, Time) -> Flood.Registry,
    blocked: seq<string>,
    censored: seq<string>,
    cooldownSec: nat,
    ownerNickname: string,
    formatTime: Time -> string,
    freshId: string)

  /** Handling that leaves everything as it was and writes nothing. */
  function Unchanged(srv: Server, conn: Conn): Outcome {
    Outcome(srv, conn, [])
  }

  // ---------------------------------------------------------------------
  // Pushes
  // ---------------------------------------------------------------------

  /** The wire form of a chat message. */
  function Sent(msg: ChatMessage, isHistory: bool, formatTime: Time -> string): WireMessage {
    ServerMessageSent(
      msg.roomId,
      SerializeSubObject(UserEntry(GetFrom(msg))),
      SerializeSubObject(UserEntry(GetTo(msg))),
      FormatBool(msg.privately),
      msg.speechMode,
      formatTime(msg.time),
      FormatBool(msg.isSystemMessage),
      SerializeSubObject(UserEntry(msg.systemMessageSubject)),
      FormatBool(isHistory),
      msg.message)
  }

  /** `PushMessage`: nothing for a connection whose IP is banned, nothing
      for a private addressed message the connection's user neither sent nor
      receives, and otherwise the message frame. */
  function PushMessage(conn: Conn, ips: Flood.Registry, now: Time, formatTime: Time -> string,
                       msg: ChatMessage, isHistory: bool): (r: Option<seq<byte>>)
    ensures r.Some? <==> !Flood.IsIPBanned(ips, conn.socket.ip, now) && DeliveredTo(msg, conn.user.id)
    ensures r.Some? ==> r.value == SerializeMessage(Codes.ServerMessageSent, Sent(msg, isHistory, formatTime))
  {
    if Flood.IsIPBanned(ips, conn.socket.ip, now) then None
    else if msg.privately && msg.to != "" && msg.to != conn.user.id && msg.from != conn.user.id then None
    else Some(SerializeMessage(Codes.ServerMessageSent, Sent(msg, isHistory, formatTime)))
  }

  /** The message frame carries the message: its room, speech mode and text
      as they are, its flags as text that parses back to them, and its
      sender, addressee and subject as escaped entries that read back as
      their serialized user-list entries. */
  lemma SentCarriesMessage(msg: ChatMessage, isHistory: bool, formatTime: Time -> string)
    ensures var w := Sent(msg, isHistory, formatTime);
      && w.roomId == msg.roomId && w.speechMode == msg.speechMode && w.message == msg.message
      && ParseBool(w.privately) == Some(msg.privately)
      && ParseBool(w.isSystemMessage) == Some(msg.isSystemMessage)
      && ParseBool(w.isHistory) == Some(isHistory)
      && (GetFrom(msg).None? ==> w.from == "")
      && (GetFrom(msg).Some? ==> Unescape(w.from) == SerializeObject(UserListAdd(GetFrom(msg).value)))
      && (GetTo(msg).None? ==> w.to == "")
      && (GetTo(msg).Some? ==> Unescape(w.to) == SerializeObject(UserListAdd(GetTo(msg).value)))
      && (msg.systemMessageSubject.Some? ==>
            Unescape(w.systemMessageSubject) == SerializeObject(UserListAdd(msg.systemMessageSubject.value)))
  {
  }

  /** The connection of a room member is pushed exactly the messages the
      store delivers to that member's outbox, unless its IP is banned. */
  lemma PushMatchesStoreDelivery(s: ChatStore.Store, m: ChatMessage, conn: Conn, ips: Flood.Registry,
                                 now: Time, formatTime: Time -> string)
    requires ChatStore.Valid(s) && m.roomId in s.rooms
    requires conn.user.id in ChatStore.Members(s.roomUsers, m.roomId)
    requires !Flood.IsIPBanned(ips, conn.socket.ip, now)
    ensures conn.user.id in ChatStore.SendMessage(s, m).value.userMessages
    ensures PushMessage(conn, ips, now, formatTime, m, false).Some? <==>
      ChatStore.SendMessage(s, m).value.userMessages[conn.user.id] == s.userMessages[conn.user.id] + [m]
  {
    var id := conn.user.id;
    assert id in s.users;
    ChatStore.SendMessageReaches(s, m, id);
    assert s.userMessages[id] + [m] != s.userMessages[id] by {
      assert |s.userMessages[id] + [m]| == |s.userMessages[id]| + 1;
    }
  }

  /** Whether a message is delivered to the user `id`. */
  function DeliveredToUser(id: string): ChatMessage -> bool {
    (m: ChatMessage) => DeliveredTo(m, id)
  }

  /** The frame that pushes `m` as history. */
  function HistoryFrame(m: ChatMessage, formatTime: Time -> string): seq<byte> {
    SerializeMessage(Codes.ServerMessageSent, Sent(m, true, formatTime))
  }

  /** The history frames of `v`: the frame of each message, in order. */
  function HistoryFrames(v: seq<ChatMessage>, formatTime: Time -> string): (r: seq<seq<byte>>)
    ensures |r| == |v|
    ensures forall k :: 0 <= k < |v| ==> r[k] == HistoryFrame(v[k], formatTime)
    decreases |v|
  {
    if |v| == 0 then [] else [HistoryFrame(v[0], formatTime)] + HistoryFrames(v[1..], formatTime)
  }

  /** Putting a message in front puts its frame in front. */
  lemma HistoryFramesCons(m: ChatMessage, v: seq<ChatMessage>, formatTime: Time -> string)
    ensures HistoryFrames([m] + v, formatTime) == [HistoryFrame(m, formatTime)] + HistoryFrames(v, formatTime)
  {
    assert ([m] + v)[0] == m && ([m] + v)[1..] == v;
  }

  /** The history loop of `registerUser`: each message of `msgs` pushed in
      turn. A banned connection gets nothing; otherwise the frames are the
      history frames of exactly the messages delivered to the user, in the
      order of `msgs`. */
  function Pushes(conn: Conn, ips: Flood.Registry, now: Time, formatTime: Time -> string,
                  msgs: seq<ChatMessage>): (r: seq<seq<byte>>)
    ensures Flood.IsIPBanned(ips, conn.socket.ip, now) ==> r == []
    ensures |r| <= |msgs|
    ensures !Flood.IsIPBanned(ips, conn.socket.ip, now) ==>
      r == HistoryFrames(Rooms.Keep(msgs, DeliveredToUser(conn.user.id)), formatTime)
    ensures !Flood.IsIPBanned(ips, conn.socket.ip, now) ==>
      (|r| == |msgs| <==> forall k :: 0 <= k < |msgs| ==> DeliveredTo(msgs[k], conn.user.id))
    decreases |msgs|
  {
    if |msgs| == 0 then []
    else
      var rest := Pushes(conn, ips, now, formatTime, msgs[1..]);
      var visible := DeliveredToUser(conn.user.id);
      HistoryFramesCons(msgs[0], Rooms.Keep(msgs[1..], visible), formatTime);
      Rooms.KeepKeepsAll(msgs, visible);
      match PushMessage(conn, ips, now, formatTime, msgs[0], true)
      case Some(frame) => [frame] + rest
      case None => rest
  }

  /** `PushUserJoined`: a user-list-add frame whose payload is the user's
      id, nickname, colour and room. */
  function PushUserJoined(user: ChatUser): (r: seq<byte>)
    ensures |r| == 4 + |SerializeObject(UserListAdd(user))|
    ensures var p := SerializeObject(UserListAdd(user));
      IsByteString(p) && |p| < 65536 ==>
        DetermineMessageType(r) == Success(Frame(Codes.ServerUserListAdd, |p|, p))
  {
    SerializeMessage(Codes.ServerUserListAdd, UserListAdd(user))
  }

  /** `PushUserLeft`: a user-list-remove frame whose payload is the user's
      id and room. */
  function PushUserLeft(user: ChatUser): (r: seq<byte>)
    ensures |r| == 4 + |SerializeObject(ServerUserListRemove(user.id, user.roomId))|
    ensures var p := SerializeObject(ServerUserListRemove(user.id, user.roomId));
      IsByteString(p) && |p| < 65536 ==>
        DetermineMessageType(r) == Success(Frame(Codes.ServerUserListRemove, |p|, p))
  {
    SerializeMessage(Codes.ServerUserListRemove, ServerUserListRemove(user.id, user.roomId))
  }

  /** A client decoding the payload of a user-list-add frame into a message
      of that kind gets the user's fields back, each without outer spaces,
      when they are safe on the wire. */
  lemma UserJoinedPayloadRoundTrip(template: WireMessage, user: ChatUser)
    requires template.ServerUserListAdd?
    requires WireSafe(user.id) && WireSafe(user.nickname) && WireSafe(user.color) && WireSafe(user.roomId)
    ensures DeserializeMessage(template, SerializeObject(UserListAdd(user))) ==
      Success(ServerUserListAdd(TrimSpaces(user.id), TrimSpaces(user.nickname),
                                TrimSpaces(user.color), TrimSpaces(user.roomId)))
  {
    DecodeUserListAdd(template, user.id, user.nickname, user.color, user.roomId);
  }

  /** The same for the id and room of a user-list-remove frame. */
  lemma UserLeftPayloadRoundTrip(template: WireMessage, user: ChatUser)
    requires template.ServerUserListRemove?
    requires WireSafe(user.id) && WireSafe(user.roomId)
    ensures DeserializeMessage(template, SerializeObject(ServerUserListRemove(user.id, user.roomId))) ==
      Success(ServerUserListRemove(TrimSpaces(user.id), TrimSpaces(user.roomId)))
  {
    DecodeUserListRemove(template, user.id, user.roomId);
  }

  /** `PushUserKickedMessage`: a kick of another user is ignored; a kick of
      the connection's own user deregisters it and tells the client why. */
  function PushUserKickedMessage(srv: Server, conn: Conn, kickedId: string, reason: string, now: Time):
    (r: Result<Outcome, string>)
    ensures kickedId != conn.user.id ==> r == Success(Unchanged(srv, conn))
    ensures r.Success? && kickedId == conn.user.id ==>
      r.value.written == [SerializeMessage(Codes.ServerUserKicked, ServerUserKicked(reason))]
  {
    if kickedId != conn.user.id then Success(Unchanged(srv, conn))
    else
      match ChatStore.DeregisterUser(srv.store, conn.user.id, now)
      case Failure(e) => Failure(e)
      case Success(s) =>
        Success(Outcome(srv.(store := s), conn, [SerializeMessage(Codes.ServerUserKicked, ServerUserKicked(reason))]))
  }

  /** A kicked connection's user is gone from the store afterwards, unless
      it is an admin Discord user, whom removal spares; no other user is
      touched. */
  lemma KickedUserIsDeregistered(srv: Server, conn: Conn, reason: string, now: Time)
    requires PushUserKickedMessage(srv, conn, conn.user.id, reason, now).Success?
    ensures var id := conn.user.id;
      var users := PushUserKickedMessage(srv, conn, id, reason, now).value.server.store.users;
      && (id in srv.store.users && !(srv.store.users[id].isAdmin && IsDiscordUser(srv.store.users[id])) ==>
            users == srv.store.users - {id})
      && (id !in srv.store.users ==> users == srv.store.users)
  {
    ChatStore.DeregisterUserRemoves(srv.store, conn.user.id, now);
  }

  // ---------------------------------------------------------------------
  // Registration
  // ---------------------------------------------------------------------

  const NicknameInUseText: string := "Someone is already using this Nickname, try a different one."
  const RegisterFailedText: string := "Couldn't register user, try again."
  const UserNotFoundText: string := "User not found!"
  const FloodKickText: string := "You have been temporarily kicked out for flooding."

  function ErrorFrame(text: string): seq<byte> {
    SerializeMessage(Codes.ServerError, ServerError(text))
  }

  /** The user-list frames of a room's members, in member order. */
  function UserListFrames(users: seq<ChatUser>): (r: seq<seq<byte>>)
    ensures |r| == |users|
    ensures forall k :: 0 <= k < |users| ==> r[k] == PushUserJoined(users[k])
  {
    seq(|users|, k requires 0 <= k < |users| => PushUserJoined(users[k]))
  }

  /** The user a registration request describes. */
  function NewUser(nickname: string, color: string, roomId: string, id: string): ChatUser {
    ChatUser(id, nickname, color, "", false, roomId, false, ClientInfoText.EmptyInfo)
  }

  /** The errors of storing a user the validation accepted: a taken id gets
      the nickname-in-use text and any other refusal the generic one. */
  function StoreErrors(reg: Result<ChatStore.Store, string>): (r: seq<string>)
    ensures reg.Success? <==> r == []
    ensures reg == Failure("user exists") ==> r == [NicknameInUseText]
    ensures reg.Failure? && reg.error != "user exists" ==> r == [RegisterFailedText]
  {
    match reg
    case Success(_) => []
    case Failure(e) => if e == "user exists" then [NicknameInUseText] else [RegisterFailedText]
  }

  /** The part of `registerUser` after validation, given the validation
      errors: the first error is the only thing written; otherwise the user
      is stored, the room's users are listed, the registration is confirmed
      and announced to the connection's listener, and the user's outbox is
      pushed as history to the connection, now bound to the user. A missing
      room event bus panics. */
  function RegisterOutcome(env: Env, srv: Server, conn: Conn, user: ChatUser, errors: seq<string>):
    (r: Result<Outcome, string>)
    ensures |errors| > 0 ==> r == Success(Outcome(srv, conn, [ErrorFrame(errors[0])]))
    ensures |errors| == 0 && ChatStore.RegisterUser(srv.store, user, env.now) == Failure("user exists") ==>
      r == Success(Outcome(srv, conn, [ErrorFrame(NicknameInUseText)]))
    ensures |errors| == 0 && ChatStore.RegisterUser(srv.store, user, env.now) == Failure("nickname selected") ==>
      r == Success(Outcome(srv, conn, [ErrorFrame(RegisterFailedText)]))
    ensures r.Success? && |r.value.written| > 1 ==>
      |errors| == 0 && ChatStore.RegisterUser(srv.store, user, env.now) == Success(r.value.server.store)
    ensures r.Success? && r.value.server.store != srv.store ==> |errors| == 0
  {
    if |errors| > 0 then Success(Outcome(srv, conn, [ErrorFrame(errors[0])]))
    else
      var reg := ChatStore.RegisterUser(srv.store, user, env.now);
      if reg.Failure? && reg.error == "room has no event bus" then Failure(reg.error)
      else if reg.Failure? then Success(Outcome(srv, conn, [ErrorFrame(StoreErrors(reg)[0])]))
      else
        var s := reg.value;
        var listing := UserListFrames(ChatStore.GetRoomUsers(s, user.roomId));
        match ChatStore.GetUser(s, user.id)
        case None =>
          Success(Outcome(srv.(store := s), conn, listing + [ErrorFrame(UserNotFoundText)]))
        case Some(u) =>
          var confirm := SerializeMessage(Codes.ServerUserRegistrationSuccess,
                                          RegisterUserResponse(user.id, u.nickname, u.color, u.roomId));
          var bound := conn.(user := u);
          var history := match ChatStore.GetUserMessageList(s, user.id) case Some(h) => h case None => [];
          var pushes := Pushes(bound, srv.ips, env.now, env.formatTime, history);
          Success(Outcome(Server(s, srv.ips, srv.internal + [UserRegistered(conn.id, u)]), bound,
                          listing + [confirm] + pushes))
  }

  /** `registerUser`: decodes the request, validates the described user
      and completes the registration. A payload that decodes describes a
      new user with the next fresh id, and the outcome is that of
      registering it with the validation's errors. */
  function RegisterUserHandler(env: Env, srv: Server, conn: Conn, payload: string): (r: Result<Outcome, string>)
    ensures DeserializeMessage(RegisterUser("", "", "", ""), payload).Failure? ==> r.Failure?
    ensures var d := DeserializeMessage(RegisterUser("", "", "", ""), payload);
      d.Success? && d.value.RegisterUser? ==>
        var user := NewUser(d.value.nickname, d.value.color, d.value.roomId, env.freshId);
        r == RegisterOutcome(env, srv, conn, user,
                             Validations.ValidateUser(srv.ips, env.now, conn.socket, user, env.ownerNickname,
                                                      srv.store, env.blocked, env.censored, []))
  {
    var content :- DeserializeMessage(RegisterUser("", "", "", ""), payload);
    SameKindSameConstructor(content, RegisterUser("", "", "", ""));
    var user := NewUser(content.nickname, content.color, content.roomId, env.freshId);
    var errors := Validations.ValidateUser(srv.ips, env.now, conn.socket, user, env.ownerNickname,
                                           srv.store, env.blocked, env.censored, []);
    RegisterOutcome(env, srv, conn, user, errors)
  }

  /** A refused registration writes one error frame and changes nothing. */
  lemma RefusedRegistrationWritesOneError(env: Env, srv: Server, conn: Conn, user: ChatUser, errors: seq<string>)
    requires RegisterOutcome(env, srv, conn, user, errors).Success?
    requires |errors| > 0 || ChatStore.RegisterUser(srv.store, user, env.now).Failure?
    ensures var o := RegisterOutcome(env, srv, conn, user, errors).value;
      o.server == srv && o.conn == conn && |o.written| == 1
  {
  }

  /** An accepted registration stores the user and writes, in order, one
      user-list frame per user of the room, the confirmation, then the
      history pushes of the user's outbox. */
  lemma AcceptedRegistration(env: Env, srv: Server, conn: Conn, user: ChatUser)
    requires ChatStore.RegisterUser(srv.store, user, env.now).Success?
    ensures var s := ChatStore.RegisterUser(srv.store, user, env.now).value;
      var u := s.users[user.id];
      var r := RegisterOutcome(env, srv, conn, user, []);
      && user.id in s.userMessages
      && r.Success?
      && r.value.server.store == s
      && r.value.server.ips == srv.ips
      && r.value.server.internal == srv.internal + [UserRegistered(conn.id, u)]
      && r.value.conn.user == u
      && r.value.written ==
           UserListFrames(ChatStore.GetRoomUsers(s, user.roomId))
           + [SerializeMessage(Codes.ServerUserRegistrationSuccess, RegisterUserResponse(user.id, u.nickname, u.color, u.roomId))]
           + Pushes(conn.(user := u), srv.ips, env.now, env.formatTime, s.userMessages[user.id])
  {
    var s := ChatStore.RegisterUser(srv.store, user, env.now).value;
    assert user.id in s.users;
    assert ChatStore.GetUser(s, user.id) == Some(s.users[user.id]);
    ChatStore.RegisterUserSeedsOutbox(srv.store, user, env.now);
  }

  // ---------------------------------------------------------------------
  // Sending
  // ---------------------------------------------------------------------

  /** The part of `sendMessage` after the gate answered `v`: the answer, if
      any, goes to the store, preceded on the room's bus by a kick of the
      sender when its IP is banned. The gate's changes to the socket state
      and the flood registry stay whatever it answers. */
  function Commit(srv: Server, conn: Conn, user: ChatUser, roomId: string, v: Validations.Verdict, now: Time):
    (r: Result<Outcome, string>)
    ensures r.Success? ==> r.value.written == [] && r.value.server.internal == srv.internal
    ensures r.Success? ==> r.value.server.ips == v.ips && r.value.conn == conn.(socket := v.state)
    ensures v.reply.None? ==> r == Success(Outcome(srv.(ips := v.ips), conn.(socket := v.state), []))
    ensures v.reply.Some? && v.reply.value.roomId in srv.store.rooms && roomId in srv.store.rooms ==> r.Success?
    ensures v.reply.Some? && !Flood.IsIPBanned(v.ips, conn.socket.ip, now) && r.Success? ==>
      ChatStore.SendMessage(srv.store, v.reply.value) == Success(r.value.server.store)
    ensures v.reply.Some? && Flood.IsIPBanned(v.ips, conn.socket.ip, now) && r.Success? ==>
      r.value.server.store.events ==
        srv.store.events + [ChatStore.Posted(roomId, ChatStore.UserKicked(user.id, FloodKickText)),
                            ChatStore.Posted(v.reply.value.roomId, ChatStore.MessagePosted(v.reply.value))]
  {
    var conn1 := conn.(socket := v.state);
    match v.reply
    case None => Success(Outcome(srv.(ips := v.ips), conn1, []))
    case Some(reply) =>
      var s1 :- if Flood.IsIPBanned(v.ips, conn.socket.ip, now)
                then ChatStore.Publish(srv.store, roomId, ChatStore.UserKicked(user.id, FloodKickText))
                else Success(srv.store);
      var s2 :- ChatStore.SendMessage(s1, reply);
      Success(Outcome(srv.(store := s2, ips := v.ips), conn1, []))
  }

  /** The gate's verdict on a message from a connection. */
  function Verdict(env: Env, srv: Server, conn: Conn, msg: ChatMessage): Validations.Verdict
    requires CoolDownReadable(conn.socket)
  {
    Validations.ValidateMessage(conn.socket, srv.store, srv.ips, env.record, env.blocked,
                                env.censored, env.cooldownSec, msg, env.now)
  }

  /** The chat message a send request describes. */
  function RequestedMessage(s: ChatStore.Store, user: ChatUser, userId: string, to: string, speechMode: string,
                            message: string, privately: bool, roomId: string, now: Time): (m: ChatMessage)
    ensures m.from == userId && m.to == to && m.privately == privately && m.speechMode == speechMode
    ensures m.message == message && m.roomId == roomId && !m.isSystemMessage
    ensures |m.involvedUsers| >= 1 && m.involvedUsers[0] == user
  {
    var involved := [user] + match ChatStore.GetUser(s, to) case Some(u) => [u] case None => [];
    ChatMessage(roomId, now, message, userId, to, privately, speechMode, false, Some(user), false, involved)
  }

  /** `sendMessage`: decodes the request; an unknown sender or a privacy
      flag that is not a boolean drops the request silently. A known
      sender's request becomes the chat message it describes, which goes
      through the message gate and is committed. */
  function SendMessageHandler(env: Env, srv: Server, conn: Conn, payload: string): (r: Result<Outcome, string>)
    requires CoolDownReadable(conn.socket)
    ensures DeserializeMessage(SendMessage("", "", "", "", "", ""), payload).Failure? ==> r.Failure?
    ensures var d := DeserializeMessage(SendMessage("", "", "", "", "", ""), payload);
      d.Success? && d.value.SendMessage? && d.value.userId in srv.store.users && ParseBool(d.value.privately).Some? ==>
        var user := srv.store.users[d.value.userId];
        var msg := RequestedMessage(srv.store, user, d.value.userId, d.value.to, d.value.speechMode,
                                    d.value.message, ParseBool(d.value.privately).value, d.value.roomId, env.now);
        r == Commit(srv, conn, user, d.value.roomId, Verdict(env, srv, conn, msg), env.now)
    ensures r.Success? ==> r.value.written == [] && r.value.server.internal == srv.internal
  {
    var content :- DeserializeMessage(SendMessage("", "", "", "", "", ""), payload);
    SameKindSameConstructor(content, SendMessage("", "", "", "", "", ""));
    match ChatStore.GetUser(srv.store, content.userId)
    case None => Success(Unchanged(srv, conn))
    case Some(user) =>
      match ParseBool(content.privately)
      case None => Success(Unchanged(srv, conn))
      case Some(privately) =>
        var msg := RequestedMessage(srv.store, user, content.userId, content.to, content.speechMode,
                                    content.message, privately, content.roomId, env.now);
        Commit(srv, conn, user, content.roomId, Verdict(env, srv, conn, msg), env.now)
  }

  /** A request from an unknown sender, or with a privacy flag that does
      not parse, changes nothing. */
  lemma DroppedRequestsChangeNothing(env: Env, srv: Server, conn: Conn, payload: string)
    requires CoolDownReadable(conn.socket)
    requires var d := DeserializeMessage(SendMessage("", "", "", "", "", ""), payload);
      d.Success? && (d.value.userId !in srv.store.users || ParseBool(d.value.privately).None?)
    ensures SendMessageHandler(env, srv, conn, payload) == Success(Unchanged(srv, conn))
  {
    var d := DeserializeMessage(SendMessage("", "", "", "", "", ""), payload);
    SameKindSameConstructor(d.value, SendMessage("", "", "", "", "", ""));
  }

  // ---------------------------------------------------------------------
  // Lists and dispatch
  // ---------------------------------------------------------------------

  /** `colorListRequest`: the colours and their names, in menu order. */
  function ColorListMessage(): (r: WireMessage)
    ensures r.ColorList? && |r.colors| == |NicknameColors| && |r.colorNames| == |NicknameColors|
    ensures forall k :: 0 <= k < |NicknameColors| ==>
      r.colors[k] == NicknameColors[k].color && r.colorNames[k] == NicknameColors[k].name
  {
    ColorList(seq(|NicknameColors|, k requires 0 <= k < |NicknameColors| => NicknameColors[k].color),
              seq(|NicknameColors|, k requires 0 <= k < |NicknameColors| => NicknameColors[k].name))
  }

  /** `GetAllRooms`: the rooms in configuration order; a key without a room
      reads as the zero room. */
  function RoomAt(s: ChatStore.Store, key: string): ChatRoom {
    if key in s.rooms then s.rooms[key] else ChatRoom("", "", "", "", "", "", 0, "")
  }

  /** `roomListRequest`: the ids and names of all rooms, in order. */
  function RoomListMessage(s: ChatStore.Store): (r: WireMessage)
    ensures r.RoomList? && |r.roomIds| == |s.roomKeys| && |r.roomNames| == |s.roomKeys|
    ensures forall k :: 0 <= k < |s.roomKeys| ==>
      r.roomIds[k] == RoomAt(s, s.roomKeys[k]).id && r.roomNames[k] == RoomAt(s, s.roomKeys[k]).name
  {
    RoomList(seq(|s.roomKeys|, k requires 0 <= k < |s.roomKeys| => RoomAt(s, s.roomKeys[k]).id),
             seq(|s.roomKeys|, k requires 0 <= k < |s.roomKeys| => RoomAt(s, s.roomKeys[k]).name))
  }

  /** `ProcessMessage`: a frame whose header does not decode is dropped;
      each client code goes to its handler; a ping is decoded and only
      logged, so a ping without a token fails as the decoder panics; any
      other code is ignored. */
  function ProcessMessage(env: Env, srv: Server, conn: Conn, message: seq<byte>): (r: Result<Outcome, string>)
    requires CoolDownReadable(conn.socket)
    ensures DetermineMessageType(message).Failure? ==> r == Success(Unchanged(srv, conn))
    ensures DetermineMessageType(message).Success? ==>
      var f := DetermineMessageType(message).value;
      && (f.msgType !in Codes.ClientCodes ==> r == Success(Unchanged(srv, conn)))
      && (f.msgType == Codes.ClientPing ==>
            (r.Failure? <==> DeserializeMessage(Ping(""), f.content).Failure?) &&
            (r.Success? ==> r == Success(Unchanged(srv, conn))))
      && (f.msgType == Codes.ClientRegisterUser ==> r == RegisterUserHandler(env, srv, conn, f.content))
      && (f.msgType == Codes.ClientSendMessage ==> r == SendMessageHandler(env, srv, conn, f.content))
      && (f.msgType == Codes.ClientColorListRequest ==>
            r == Success(Outcome(srv, conn, [SerializeMessage(Codes.ServerColorList, ColorListMessage())])))
      && (f.msgType == Codes.ClientRoomListRequest ==>
            r == Success(Outcome(srv, conn, [SerializeMessage(Codes.ServerRoomList, RoomListMessage(srv.store))])))
  {
    match DetermineMessageType(message)
    case Failure(_) => Success(Unchanged(srv, conn))
    case Success(f) =>
      if f.msgType == Codes.ClientRegisterUser then RegisterUserHandler(env, srv, conn, f.content)
      else if f.msgType == Codes.ClientColorListRequest then
        Success(Outcome(srv, conn, [SerializeMessage(Codes.ServerColorList, ColorListMessage())]))
      else if f.msgType == Codes.ClientRoomListRequest then
        Success(Outcome(srv, conn, [SerializeMessage(Codes.ServerRoomList, RoomListMessage(srv.store))]))
      else if f.msgType == Codes.ClientPing then
        var _ :- DeserializeMessage(Ping(""), f.content);
        Success(Unchanged(srv, conn))
      else if f.msgType == Codes.ClientSendMessage then SendMessageHandler(env, srv, conn, f.content)
      else Success(Unchanged(srv, conn))
  }

  /** The frame a client sends for a request decodes to that request, so
      its code reaches the request's handler: the encoder and the dispatch
      agree. */
  lemma EncodedRequestIsDispatched(env: Env, srv: Server, conn: Conn, code: nat, content: string)
    requires CoolDownReadable(conn.socket)
    requires IsByteString(content) && |content| < 65536
    requires code in Codes.ClientCodes
    ensures var r := ProcessMessage(env, srv, conn, EncodeFrame(code, content));
      && (code == Codes.ClientRegisterUser ==> r == RegisterUserHandler(env, srv, conn, content))
      && (code == Codes.ClientSendMessage ==> r == SendMessageHandler(env, srv, conn, content))
      && (code == Codes.ClientPing ==>
            (r.Failure? <==> DeserializeMessage(Ping(""), content).Failure?) &&
            (r.Success? ==> r == Success(Unchanged(srv, conn))))
  {
    Codes.CodesAreWellSeparated();
    DecodeEncodeFrameExact(code, content);
  }
}

=== FILE: profanity.dfy ===
/** The word filters of profanity-filter.go. The two word lists are loaded
    from files at start-up; here they are parameters. A word is what
    `strings.Split(input, " ")` yields, so runs of spaces give empty words. */
module Profanity {
  import opened Text

  /** A word the list names, compared in lower case; the empty word never
      matches. */
  predicate Listed(list: seq<string>, word: string) {
    word != "" && ToLower(word) in list
  }

  /** The censoring of one word: its first and last characters stay, every
      character between them becomes `*`. */
  function CensorWord(word: string): (r: string)
    ensures |r| == |word|
    ensures |word| > 0 ==> r[0] == word[0] && r[|word| - 1] == word[|word| - 1]
    ensures forall i :: 0 < i < |word| - 1 ==> r[i] == '*'
  {
    seq(|word|, i requires 0 <= i < |word| => if i == 0 || i >= |word| - 1 then word[i] else '*')
  }

  /** Words of at most two characters have no interior and pass unchanged. */
  lemma ShortWordsUncensored(word: string)
    requires |word| <= 2
    ensures CensorWord(word) == word
  {
  }

  /** Censoring never introduces a space, so the word boundaries survive. */
  lemma CensorKeepsNoSpace(word: string)
    requires NoSpace(word)
    ensures NoSpace(CensorWord(word))
  {
  }

  function MaskWord(censored: seq<string>, word: string): (r: string)
    ensures !Listed(censored, word) ==> r == word
    ensures Listed(censored, word) ==> r == CensorWord(word)
  {
    if word == "" then word
    else if ToLower(word) !in censored then word
    else CensorWord(word)
  }

  function MaskWords(censored: seq<string>, words: seq<string>): (r: seq<string>)
    ensures |r| == |words|
    ensures forall k :: 0 <= k < |words| ==> r[k] == MaskWord(censored, words[k])
  {
    seq(|words|, k requires 0 <= k < |words| => MaskWord(censored, words[k]))
  }

  /** `ReplaceSensoredProfanity`: every censored word is masked in place.
      The text keeps its length, and splitting it on spaces gives the masked
      words of the input one for one. */
  function ReplaceSensoredProfanity(censored: seq<string>, input: string): (r: string)
    ensures |r| == |input|
    ensures Split(r, " ") == MaskWords(censored, Split(input, " "))
  {
    var words := Split(input, " ");
    var masked := MaskWords(censored, words);
    SplitWordsNoSpace(input);
    JoinSameLengths(masked, words, " ");
    JoinSplit(input, " ");
    forall k | 0 <= k < |masked| ensures NoSpace(masked[k]) {
      if Listed(censored, words[k]) {
        CensorKeepsNoSpace(words[k]);
      }
    }
    SplitJoinWords(masked);
    Join(masked, " ")
  }

  /** Text without a censored word passes through unchanged. */
  lemma CleanTextUnchanged(censored: seq<string>, input: string)
    requires forall k :: 0 <= k < |Split(input, " ")| ==> !Listed(censored, Split(input, " ")[k])
    ensures ReplaceSensoredProfanity(censored, input) == input
  {
    var words := Split(input, " ");
    assert MaskWords(censored, words) == words;
    JoinSplit(input, " ");
  }

  /** Some word of the sequence is on the list. */
  ghost predicate SomeListed(list: seq<string>, words: seq<string>) {
    exists k :: 0 <= k < |words| && Listed(list, words[k])
  }

  /** The scan over the words that `HasBlockedWords` and `IsProfaneNickname`
      run. */
  function AnyListed(list: seq<string>, words: seq<string>): (r: bool)
    ensures r <==> SomeListed(list, words)
    decreases |words|
  {
    if |words| == 0 then false
    else if Listed(list, words[0]) then true
    else
      var rest := AnyListed(list, words[1..]);
      assert SomeListed(list, words[1..]) ==> SomeListed(list, words) by {
        if SomeListed(list, words[1..]) {
          var k :| 0 <= k < |words[1..]| && Listed(list, words[1..][k]);
          assert words[k + 1] == words[1..][k];
        }
      }
      assert SomeListed(list, words) ==> SomeListed(list, words[1..]) by {
        if SomeListed(list, words) {
          var k :| 0 <= k < |words| && Listed(list, words[k]);
          assert words[1..][k - 1] == words[k];
        }
      }
      rest
  }

  /** `HasBlockedWords`. */
  function HasBlockedWords(blocked: seq<string>, input: string): (r: bool)
    ensures r <==> SomeListed(blocked, Split(input, " "))
  {
    AnyListed(blocked, Split(input, " "))
  }

  /** `IsProfaneNickname`: the blocked check on the lowered nickname, then the
      censored list word by word. A nickname is profane exactly when one of
      its lowered words is blocked or one of its words is censored. */
  function IsProfaneNickname(blocked: seq<string>, censored: seq<string>, input: string): (r: bool)
    ensures r <==> SomeListed(blocked, Split(ToLower(input), " ")) || SomeListed(censored, Split(input, " "))
    ensures AnyListed(censored, Split(input, " ")) ==> r
    ensures HasBlockedWords(blocked, ToLower(input)) ==> r
  {
    HasBlockedWords(blocked, ToLower(input)) || AnyListed(censored, Split(input, " "))
  }

  /** The blocked-word check does not depend on letter case. */
  lemma BlockedIgnoresCase(blocked: seq<string>, input: string)
    ensures HasBlockedWords(blocked, ToLower(input)) == HasBlockedWords(blocked, input)
  {
    var words := Split(input, " ");
    SplitToLower(input);
    forall k | 0 <= k < |words|
      ensures Listed(blocked, ToLower(words[k])) == Listed(blocked, words[k])
    {
      ToLowerIdempotent(words[k]);
    }
    if HasBlockedWords(blocked, ToLower(input)) {
      var k :| 0 <= k < |words| && Listed(blocked, Split(ToLower(input), " ")[k]);
      assert Listed(blocked, words[k]);
    }
    if HasBlockedWords(blocked, input) {
      var k :| 0 <= k < |words| && Listed(blocked, words[k]);
      assert Listed(blocked, Split(ToLower(input), " ")[k]);
    }
  }

  /** A nickname with a blocked word is profane. */
  lemma BlockedNicknameIsProfane(blocked: seq<string>, censored: seq<string>, input: string)
    requires HasBlockedWords(blocked, input)
    ensures IsProfaneNickname(blocked, censored, input)
  {
    BlockedIgnoresCase(blocked, input);
  }
}

=== FILE: pubsub.dfy ===
/** The subscriber registry of pubsub/pubsub.go. A subscriber is an id and
    the inbox of its channel: the messages it has received. Delivery is
    non-blocking, so a message reaches only the subscribers that are ready to
    receive at that moment; which ones are ready is a parameter. */
module PubSub {
  import opened Wrappers

  datatype Pubsub<T> = Pubsub(subscribers: map<string, seq<T>>)

  /** `NewPubsub`. */
  function NewPubsub<T>(): (r: Pubsub<T>)
    ensures |r.subscribers| == 0
  {
    Pubsub(map[])
  }

  /** `Subscribe`: a new, empty channel for the id, replacing any channel it
      had; no other subscriber changes. */
  function Subscribe<T>(p: Pubsub<T>, id: string): (r: Pubsub<T>)
    ensures r.subscribers.Keys == p.subscribers.Keys + {id}
    ensures r.subscribers[id] == []
    ensures forall other :: other in p.subscribers && other != id ==>
      r.subscribers[other] == p.subscribers[other]
  {
    Pubsub(p.subscribers[id := []])
  }

  /** `Unsubscribe`: an unknown id is an error and changes nothing; a known
      id is removed and no other subscriber changes. */
  function Unsubscribe<T>(p: Pubsub<T>, id: string): (r: Result<Pubsub<T>, string>)
    ensures id !in p.subscribers <==> r == Failure("id not found")
    ensures r.Success? ==> r.value.subscribers.Keys == p.subscribers.Keys - {id}
    ensures r.Success? ==> forall other :: other in r.value.subscribers ==>
      r.value.subscribers[other] == p.subscribers[other]
  {
    if id !in p.subscribers then Failure("id not found")
    else Success(Pubsub(p.subscribers - {id}))
  }

  /** `Publish`: the subscriber set is unchanged; every ready subscriber
      receives the message and every other inbox is left as it was. */
  function Publish<T>(p: Pubsub<T>, message: T, ready: set<string>): (r: Pubsub<T>)
    ensures r.subscribers.Keys == p.subscribers.Keys
    ensures forall id :: id in p.subscribers && id in ready ==>
      r.subscribers[id] == p.subscribers[id] + [message]
    ensures forall id :: id in p.subscribers && id !in ready ==>
      r.subscribers[id] == p.subscribers[id]
  {
    Pubsub(map id | id in p.subscribers ::
      if id in ready then p.subscribers[id] + [message] else p.subscribers[id])
  }

  /** Subscribing again is not a no-op: it discards what the earlier channel
      received. */
  lemma ResubscribeDropsInbox<T>(p: Pubsub<T>, id: string, message: T)
    ensures Publish(Subscribe(p, id), message, {id}).subscribers[id] == [message]
    ensures Subscribe(Publish(Subscribe(p, id), message, {id}), id).subscribers[id] == []
  {
  }

  /** Unsubscribing right after subscribing leaves every other subscriber as
      it was and the id gone. */
  lemma UnsubscribeAfterSubscribe<T>(p: Pubsub<T>, id: string)
    ensures Unsubscribe(Subscribe(p, id), id) == Success(Pubsub(p.subscribers - {id}))
  {
    var q := Subscribe(p, id).subscribers - {id};
    assert q == p.subscribers - {id};
  }

  /** A message published to nobody ready changes nothing. */
  lemma PublishToNoneIsIdentity<T>(p: Pubsub<T>, message: T, ready: set<string>)
    requires forall id :: id in ready ==> id !in p.subscribers
    ensures Publish(p, message, ready) == p
  {
    assert Publish(p, message, ready).subscribers == p.subscribers;
  }
}

=== FILE: rooms.dfy ===
/** The room model of the chatroom package (chatroom/chat-room.go,
    chatroom/query.go, chatroom/owner.go): each room keeps its messages
    newest first, its web users and its Discord users; the owner is one
    global user. Users are stored by value: the Go code shares them through
    pointers, and the updates it makes through those pointers elsewhere are
    not part of this model.

    The clock is `now`, the name-based UUID of a nickname is the parameter
    `nameId`, and the owner's log-out (not part of this model) is the
    parameter `logout`. Every posted message is appended to a log; when a
    message reveals a flood its sender's session is marked flooded. */
module Rooms {
  import opened Wrappers
  import opened Text
  import opened Clock
  import Session
  import Flood
  import SessionFlood

  const MaxMessages: nat := 200
  const ColorBlack: string := "#000000"
  const SayTo: string := "says-to"
  const JoinedText: string := "{nickname} has joined the room!"
  const LeftText: string := "{nickname} has left the room!"

  datatype RoomUser = RoomUser(
    id: string,
    lastActivity: Time,
    nickname: string,
    color: string,
    lastPing: Time,
    lastUserListUpdate: Time,
    sessionIdent: string,
    isDiscordUser: bool,
    isOwner: bool)

  datatype RoomMessage = RoomMessage(
    time: Time,
    message: string,
    from: RoomUser,
    to: Option<RoomUser>,
    privately: bool,
    speechMode: string,
    isSystemMessage: bool,
    fromDiscord: bool)

  datatype Room = Room(
    id: string,
    name: string,
    description: string,
    color: string,
    discordChannel: string,
    messages: seq<RoomMessage>,
    users: seq<RoomUser>,
    discordUsers: seq<RoomUser>,
    lastUserListUpdate: Time,
    textColor: string)

  /** A message posted on the messaging bus, with the room it was sent in. */
  datatype Posted = Posted(roomId: string, message: RoomMessage)

  /** The state outside the rooms: the owner, the sessions with their flood
      registry, and the messaging bus. */
  datatype World = World(
    owner: Option<RoomUser>,
    sessions: Session.Sessions,
    ips: Flood.Registry,
    posted: seq<Posted>)

  // ---------------------------------------------------------------------
  // Finding and filtering
  // ---------------------------------------------------------------------

  /** `lo.Find`: the first element satisfying `p`. */
  function FindFirst<T(==)>(s: seq<T>, p: T -> bool): (r: Option<T>)
    ensures r.None? <==> forall k :: 0 <= k < |s| ==> !p(s[k])
    ensures r.Some? ==> p(r.value)
    ensures r.Some? ==>
      exists k :: (0 <= k < |s| && s[k] == r.value && forall j :: 0 <= j < k ==> !p(s[j]))
    decreases |s|
  {
    if |s| == 0 then None
    else if p(s[0]) then Some(s[0])
    else
      var r := FindFirst(s[1..], p);
      assert forall k :: 1 <= k < |s| ==> s[k] == s[1..][k - 1];
      if r.Some? then
        var k :| 0 <= k < |s[1..]| && s[1..][k] == r.value && forall j :: 0 <= j < k ==> !p(s[1..][j]);
        assert s[k + 1] == r.value;
        r
      else r
  }

  /** `lo.Filter`: the elements satisfying `p`, in order (`KeepAppend`),
      each as often as in `s` (`KeepCount`). */
  function Keep<T(==)>(s: seq<T>, p: T -> bool): (r: seq<T>)
    ensures |r| <= |s|
    ensures forall k :: 0 <= k < |r| ==> r[k] in s && p(r[k])
    ensures forall k :: 0 <= k < |s| && p(s[k]) ==> s[k] in r
    ensures (forall k :: 0 <= k < |s| ==> p(s[k])) ==> r == s
    decreases |s|
  {
    if |s| == 0 then []
    else
      assert s == [s[0]] + s[1..];
      if p(s[0]) then [s[0]] + Keep(s[1..], p) else Keep(s[1..], p)
  }

  function ById(users: seq<RoomUser>, id: string): Option<RoomUser> {
    FindFirst(users, (u: RoomUser) => u.id == id)
  }

  /** Filtering a concatenation filters each part and keeps them in order;
      with `KeepSingle` this fixes the result element by element. */
  lemma {:induction false} KeepAppend<T>(s: seq<T>, t: seq<T>, p: T -> bool)
    ensures Keep(s + t, p) == Keep(s, p) + Keep(t, p)
    decreases |s|
  {
    if |s| == 0 {
      assert s + t == t;
    } else {
      KeepAppend(s[1..], t, p);
      KeepAppendStep(s[0], s[1..], t, p);
      assert s == [s[0]] + s[1..];
    }
  }

  /** One step of `KeepAppend`: putting an element in front of both. */
  lemma KeepAppendStep<T>(x: T, rest: seq<T>, t: seq<T>, p: T -> bool)
    requires Keep(rest + t, p) == Keep(rest, p) + Keep(t, p)
    ensures Keep([x] + rest + t, p) == Keep([x] + rest, p) + Keep(t, p)
  {
    assert [x] + rest + t == [x] + (rest + t);
    KeepCons(x, rest, p);
    KeepCons(x, rest + t, p);
    Regroup(if p(x) then [x] else [], Keep(rest, p), Keep(t, p), Keep(rest + t, p));
  }

  lemma Regroup<T>(h: seq<T>, a: seq<T>, b: seq<T>, c: seq<T>)
    requires c == a + b
    ensures h + c == (h + a) + b
  {
  }

  lemma KeepCons<T>(x: T, s: seq<T>, p: T -> bool)
    ensures Keep([x] + s, p) == (if p(x) then [x] else []) + Keep(s, p)
  {
    assert ([x] + s)[0] == x && ([x] + s)[1..] == s;
  }

  /** A single element is kept exactly when it satisfies `p`. */
  lemma KeepSingle<T>(x: T, p: T -> bool)
    ensures Keep([x], p) == if p(x) then [x] else []
  {
    assert [x][1..] == [];
  }

  /** Nothing is dropped exactly when every element satisfies `p`. */
  lemma {:induction false} KeepKeepsAll<T>(s: seq<T>, p: T -> bool)
    ensures |Keep(s, p)| == |s| <==> forall k :: 0 <= k < |s| ==> p(s[k])
    decreases |s|
  {
    if |s| > 0 {
      KeepKeepsAll(s[1..], p);
      assert forall k :: 1 <= k < |s| ==> s[k] == s[1..][k - 1];
    }
  }

  /** A value satisfying `p` occurs in the result as often as in `s`; any
      other value does not occur. */
  lemma {:induction false} KeepCount<T>(s: seq<T>, p: T -> bool, x: T)
    ensures multiset(Keep(s, p))[x] == if p(x) then multiset(s)[x] else 0
    decreases |s|
  {
    if |s| > 0 {
      var y, rest := s[0], s[1..];
      KeepCount(rest, p, x);
      assert s == [y] + rest;
      KeepCons(y, rest, p);
      var head := if p(y) then [y] else [];
      CountSplit([y], rest, x);
      CountSplit(head, Keep(rest, p), x);
    }
  }

  lemma CountSplit<T>(a: seq<T>, b: seq<T>, x: T)
    ensures multiset(a + b)[x] == multiset(a)[x] + multiset(b)[x]
  {
  }

  function Without(users: seq<RoomUser>, id: string): seq<RoomUser> {
    Keep(users, (u: RoomUser) => u.id != id)
  }

  // ---------------------------------------------------------------------
  // Flood detection
  // ---------------------------------------------------------------------

  /** The messages `user` sent, newest first. */
  function SentBy(messages: seq<RoomMessage>, userId: string): seq<RoomMessage> {
    Keep(messages, (m: RoomMessage) => m.from.id == userId)
  }

  /** No message among `recent` is more than the flood range after `first`. */
  function AllWithinRange(recent: seq<RoomMessage>, first: RoomMessage): (r: bool)
    ensures r <==> forall k :: 0 <= k < |recent| ==>
      !LongerThanSeconds(recent[k].time, first.time, Flood.MessageFloodRangeSec)
    decreases |recent|
  {
    if |recent| == 0 then true
    else
      assert forall k :: 1 <= k < |recent| ==> recent[k] == recent[1..][k - 1];
      !LongerThanSeconds(recent[0].time, first.time, Flood.MessageFloodRangeSec) &&
      AllWithinRange(recent[1..], first)
  }

  /** A burst: the newest `count` messages of a sender lie within the flood
      range of the oldest of them. */
  predicate Burst(mine: seq<RoomMessage>) {
    var n := Flood.MessageFloodMessagesCount;
    |mine| >= n &&
    forall k :: 0 <= k < n - 1 ==>
      Sub(mine[k].time, mine[n - 1].time) <= Flood.MessageFloodRangeSec * Second
  }

  /** `checkForMessageAbuse`: owners and Discord users are never flagged;
      anybody else is flagged exactly when their newest messages form a
      burst. */
  function CheckForMessageAbuse(messages: seq<RoomMessage>, user: RoomUser): (r: bool)
    ensures user.isDiscordUser || user.isOwner ==> !r
    ensures !user.isDiscordUser && !user.isOwner ==> (r <==> Burst(SentBy(messages, user.id)))
  {
    if user.isDiscordUser || user.isOwner then false
    else
      var mine := SentBy(messages, user.id);
      var n := Flood.MessageFloodMessagesCount;
      if |mine| < n then false
      else
        var first := mine[n - 1];
        AllWithinRange(mine[..n - 1], first)
  }

  /** A sender with fewer messages than the flood count is never flagged. */
  lemma FewMessagesNeverFlagged(messages: seq<RoomMessage>, user: RoomUser)
    requires |SentBy(messages, user.id)| < Flood.MessageFloodMessagesCount
    ensures !CheckForMessageAbuse(messages, user)
  {
  }

  // ---------------------------------------------------------------------
  // Messages
  // ---------------------------------------------------------------------

  /** The room's messages with `msg` in front, at most `MaxMessages`. */
  function Prepend(messages: seq<RoomMessage>, msg: RoomMessage): (r: seq<RoomMessage>)
    ensures |r| == if |messages| + 1 > MaxMessages then MaxMessages else |messages| + 1
    ensures r[0] == msg && r[1..] == messages[..|r| - 1]
  {
    var all := [msg] + messages;
    assert all[1..] == messages;
    if |all| > MaxMessages then all[..MaxMessages] else all
  }

  /** `Room.SendMessage`: the message goes in front, is posted on the bus,
      and, when it reveals a flood by its sender, the sender's session is
      marked flooded; the type assertion on the session's "ip" value then
      panics for a value that is not a string. Only then is the list cut to
      `MaxMessages`. */
  function SendMessage(w: World, room: Room, msg: RoomMessage, now: Time): (r: Result<(Room, World), string>)
    ensures r.Failure? <==>
      CheckForMessageAbuse([msg] + room.messages, msg.from) && !SessionFlood.IpIsText(w.sessions, msg.from.sessionIdent)
    ensures r.Success? ==>
      && r.value.0 == room.(messages := Prepend(room.messages, msg))
      && r.value.1.posted == w.posted + [Posted(room.id, msg)]
      && r.value.1.owner == w.owner && r.value.1.sessions == w.sessions
      && (CheckForMessageAbuse([msg] + room.messages, msg.from) ==>
            r.value.1.ips == SessionFlood.SetFlooded(w.sessions, w.ips, msg.from.sessionIdent, now))
      && (!CheckForMessageAbuse([msg] + room.messages, msg.from) ==> r.value.1.ips == w.ips)
  {
    var w1 := w.(posted := w.posted + [Posted(room.id, msg)]);
    if CheckForMessageAbuse([msg] + room.messages, msg.from) then
      if !SessionFlood.IpIsText(w.sessions, msg.from.sessionIdent) then Failure("ip is not a string")
      else
        var ips := SessionFlood.SetFlooded(w.sessions, w.ips, msg.from.sessionIdent, now);
        Success((room.(messages := Prepend(room.messages, msg)), w1.(ips := ips)))
    else Success((room.(messages := Prepend(room.messages, msg)), w1))
  }

  /** The public system message announcing that `user` joined or left. */
  function Announcement(user: RoomUser, text: string, now: Time): RoomMessage {
    RoomMessage(now, text, user, None, false, SayTo, true, false)
  }

  // ---------------------------------------------------------------------
  // Users
  // ---------------------------------------------------------------------

  /** The comparison form of a nickname in `RegisterUser`. */
  function InputNickname(nickname: string): string {
    ToLower(TrimSpace(nickname))
  }

  /** `Room.RegisterUser`: the user's id is the name-based UUID of the
      lowered, trimmed nickname, so a nickname already in the room under any
      case or outer spacing is refused with "user exists". Otherwise the user
      joins the list, the joined message is sent and the list stamp moves to
      `now`. */
  function RegisterUser(w: World, room: Room, nickname: string, color: string, sessionIdent: string,
                        now: Time, nameId: string -> string): (r: Result<(Room, RoomUser, World), string>)
    ensures r == Failure("user exists") <==> ById(room.users, nameId(InputNickname(nickname))).Some?
    ensures var user := RoomUser(nameId(InputNickname(nickname)), now, nickname, color, now, now, sessionIdent, false, false);
      r.Success? <==>
        && ById(room.users, user.id).None?
        && !(CheckForMessageAbuse([Announcement(user, JoinedText, now)] + room.messages, user) &&
             !SessionFlood.IpIsText(w.sessions, sessionIdent))
    ensures r.Success? ==>
      var (room', user, w') := r.value;
      && user == RoomUser(nameId(InputNickname(nickname)), now, nickname, color, now, now, sessionIdent, false, false)
      && room'.users == room.users + [user]
      && room'.messages == Prepend(room.messages, Announcement(user, JoinedText, now))
      && room'.discordUsers == room.discordUsers
      && room'.lastUserListUpdate == now
      && w'.posted == w.posted + [Posted(room.id, Announcement(user, JoinedText, now))]
  {
    var userId := nameId(InputNickname(nickname));
    if ById(room.users, userId).Some? then Failure("user exists")
    else
      var user := RoomUser(userId, now, nickname, color, now, now, sessionIdent, false, false);
      var joined := room.(users := room.users + [user]);
      match SendMessage(w, joined, Announcement(user, JoinedText, now), now)
      case Failure(e) => Failure(e)
      case Success((room2, w2)) => Success((room2.(lastUserListUpdate := now), user, w2))
  }

  /** Nicknames that differ only in case or outer spacing collide: once one
      is in the room, registering the other is refused. */
  lemma SameNicknameFormCollides(w: World, room: Room, a: string, b: string, color: string,
                                 ident: string, now: Time, nameId: string -> string, w2: World, later: Time)
    requires InputNickname(a) == InputNickname(b)
    requires RegisterUser(w, room, a, color, ident, now, nameId).Success?
    ensures var room' := RegisterUser(w, room, a, color, ident, now, nameId).value.0;
      RegisterUser(w2, room', b, color, ident, later, nameId) == Failure("user exists")
  {
    var (room', user, _) := RegisterUser(w, room, a, color, ident, now, nameId).value;
    assert room'.users[|room.users|] == user;
  }

  /** `Room.RegisterDiscordUser`: a Discord user already in the room is
      returned as it is; a new one joins the Discord list. */
  function RegisterDiscordUser(room: Room, discordId: string, username: string, now: Time): (r: (Room, RoomUser))
    ensures ById(room.discordUsers, discordId).Some? ==> r == (room, ById(room.discordUsers, discordId).value)
    ensures ById(room.discordUsers, discordId).None? ==>
      && r.1 == RoomUser(discordId, now, username, ColorBlack, now, now, discordId, true, false)
      && r.0 == room.(discordUsers := room.discordUsers + [r.1])
    ensures r.1.id == discordId
  {
    match ById(room.discordUsers, discordId)
    case Some(u) => (room, u)
    case None =>
      var user := RoomUser(discordId, now, username, ColorBlack, now, now, discordId, true, false);
      (room.(discordUsers := room.discordUsers + [user]), user)
  }

  predicate DistinctIds(users: seq<RoomUser>) {
    forall i, j :: 0 <= i < j < |users| ==> users[i].id != users[j].id
  }

  /** Registering Discord users never lists one twice. */
  lemma RegisterDiscordUserKeepsIdsDistinct(room: Room, discordId: string, username: string, now: Time)
    requires DistinctIds(room.discordUsers)
    ensures DistinctIds(RegisterDiscordUser(room, discordId, username, now).0.discordUsers)
  {
  }

  /** `Room.DeregisterUser`: the owner is only logged out, which dereferences
      the owner and so needs one; anybody else is dropped from the web users,
      the left message is sent and the list stamp moves to `now`. Sending
      fails only as `SendMessage` does. */
  function DeregisterUser(w: World, room: Room, user: RoomUser, now: Time, logout: RoomUser -> RoomUser):
    (r: Result<(Room, World), string>)
    ensures w.owner.None? ==> r.Failure?
    ensures w.owner.Some? && user.id == w.owner.value.id ==>
      r == Success((room, w.(owner := Some(logout(w.owner.value)))))
    ensures w.owner.Some? && user.id != w.owner.value.id && r.Success? ==>
      && r.value.0.users == Without(room.users, user.id)
      && r.value.0.discordUsers == room.discordUsers
      && r.value.0.messages == Prepend(room.messages, Announcement(user, LeftText, now))
      && r.value.0.lastUserListUpdate == now
      && r.value.1.posted == w.posted + [Posted(room.id, Announcement(user, LeftText, now))]
    ensures w.owner.Some? && user.id != w.owner.value.id ==>
      (r.Success? <==>
        !(CheckForMessageAbuse([Announcement(user, LeftText, now)] + room.messages, user) &&
          !SessionFlood.IpIsText(w.sessions, user.sessionIdent)))
  {
    match w.owner
    case None => Failure("nil owner")
    case Some(owner) =>
      if user.id == owner.id then Success((room, w.(owner := Some(logout(owner)))))
      else
        var kept := room.(users := Without(room.users, user.id));
        match SendMessage(w, kept, Announcement(user, LeftText, now), now)
        case Failure(e) => Failure(e)
        case Success((room2, w2)) => Success((room2.(lastUserListUpdate := now), w2))
  }

  /** A deregistered web user is no longer found among the web users. */
  lemma DeregisteredUserIsGone(w: World, room: Room, user: RoomUser, now: Time, logout: RoomUser -> RoomUser)
    requires w.owner.Some? && user.id != w.owner.value.id
    requires DeregisterUser(w, room, user, now, logout).Success?
    ensures ById(DeregisterUser(w, room, user, now, logout).value.0.users, user.id).None?
  {
    var users := DeregisterUser(w, room, user, now, logout).value.0.users;
    forall k | 0 <= k < |users| ensures users[k].id != user.id {
      assert users[k] in users;
    }
  }

  /** `Room.DeregisterDiscordUser` as written: it assigns the filtered
      Discord users to the web users, so the Discord list keeps the user and
      the web users are replaced. */
  function DeregisterDiscordUserAsWritten(room: Room, user: RoomUser): (r: Room)
    ensures r.users == Without(room.discordUsers, user.id)
    ensures r.discordUsers == room.discordUsers
  {
    room.(users := Without(room.discordUsers, user.id))
  }

  /** The discrepancy: a room with one web user and one Discord user; after
      deregistering the Discord user the web user is gone and the Discord
      user is still found. */
  lemma DeregisterDiscordUserAsWrittenLosesWebUsers()
    ensures var web := RoomUser("w", 0, "web", ColorBlack, 0, 0, "s", false, false);
      var bot := RoomUser("d", 0, "bot", ColorBlack, 0, 0, "d", true, false);
      var room := Room("r", "Room", "", ColorBlack, "", [], [web], [bot], 0, ColorBlack);
      var after := DeregisterDiscordUserAsWritten(room, bot);
      && ById(after.users, "w").None?
      && ById(after.discordUsers, "d") == Some(bot)
  {
    var web := RoomUser("w", 0, "web", ColorBlack, 0, 0, "s", false, false);
    var bot := RoomUser("d", 0, "bot", ColorBlack, 0, 0, "d", true, false);
    assert Without([bot], "d") == [];
  }

  /** `Room.DeregisterDiscordUser` as intended: the Discord list loses the
      user, and the web users are untouched. */
  function DeregisterDiscordUser(room: Room, user: RoomUser): (r: Room)
    ensures r.users == room.users
    ensures forall u :: u in r.discordUsers <==> u in room.discordUsers && u.id != user.id
    ensures ById(r.discordUsers, user.id).None?
  {
    var kept := Without(room.discordUsers, user.id);
    assert forall k :: 0 <= k < |kept| ==> kept[k] in kept;
    room.(discordUsers := kept)
  }

  // ---------------------------------------------------------------------
  // Lookups
  // ---------------------------------------------------------------------

  /** `Room.GetUser`: the owner, when there is one and the id is the owner's
      id or the configured owner Discord id; then the first Discord user
      with the id; then the first web user with it. */
  function GetUser(owner: Option<RoomUser>, ownerDiscordId: string, room: Room, userId: string):
    (r: Option<RoomUser>)
    ensures owner.Some? && (userId == owner.value.id || userId == ownerDiscordId) ==> r == owner
    ensures !(owner.Some? && (userId == owner.value.id || userId == ownerDiscordId)) ==>
      && (ById(room.discordUsers, userId).Some? ==> r == ById(room.discordUsers, userId))
      && (ById(room.discordUsers, userId).None? ==> r == ById(room.users, userId))
    ensures r.None? <==>
      && !(owner.Some? && (userId == owner.value.id || userId == ownerDiscordId))
      && (forall k :: 0 <= k < |room.discordUsers| ==> room.discordUsers[k].id != userId)
      && (forall k :: 0 <= k < |room.users| ==> room.users[k].id != userId)
    ensures r.Some? && r != owner ==> r.value.id == userId
  {
    if owner.Some? && (userId == owner.value.id || userId == ownerDiscordId) then owner
    else if ById(room.discordUsers, userId).Some? then ById(room.discordUsers, userId)
    else ById(room.users, userId)
  }

  /** The comparison form of a nickname in the lookups. */
  function CleanNickname(nickname: string): string {
    TrimSpace(ToLower(nickname))
  }

  /** `Room.GetUserByNickname`: the same priority, comparing nicknames
      without case and outer white space. It reads the owner's nickname
      without a nil check, so with no owner it panics. */
  function GetUserByNickname(owner: Option<RoomUser>, room: Room, nickname: string): (r: Result<Option<RoomUser>, string>)
    ensures r.Failure? <==> owner.None?
    ensures r.Success? && CleanNickname(owner.value.nickname) == CleanNickname(nickname) ==>
      r.value == Some(owner.value)
    ensures r.Success? && r.value.Some? ==> CleanNickname(r.value.value.nickname) == CleanNickname(nickname)
    ensures r.Success? ==>
      (r.value.None? <==>
        && CleanNickname(owner.value.nickname) != CleanNickname(nickname)
        && (forall k :: 0 <= k < |room.discordUsers| ==>
              CleanNickname(room.discordUsers[k].nickname) != CleanNickname(nickname))
        && (forall k :: 0 <= k < |room.users| ==> CleanNickname(room.users[k].nickname) != CleanNickname(nickname)))
  {
    match owner
    case None => Failure("nil owner")
    case Some(o) =>
      var clean := CleanNickname(nickname);
      if clean == CleanNickname(o.nickname) then Success(Some(o))
      else
        var d := FindFirst(room.discordUsers, (u: RoomUser) => CleanNickname(u.nickname) == clean);
        if d.Some? then Success(d)
        else Success(FindFirst(room.users, (u: RoomUser) => CleanNickname(u.nickname) == clean))
  }

  /** `Room.GetUserBySessionIdent`: the same priority on session
      identifiers; it too reads the owner without a nil check. */
  function GetUserBySessionIdent(owner: Option<RoomUser>, room: Room, ident: string): (r: Result<Option<RoomUser>, string>)
    ensures r.Failure? <==> owner.None?
    ensures r.Success? && owner.value.sessionIdent == ident ==> r.value == Some(owner.value)
    ensures r.Success? && r.value.Some? ==> r.value.value.sessionIdent == ident
    ensures r.Success? ==>
      (r.value.None? <==>
        && owner.value.sessionIdent != ident
        && (forall k :: 0 <= k < |room.discordUsers| ==> room.discordUsers[k].sessionIdent != ident)
        && (forall k :: 0 <= k < |room.users| ==> room.users[k].sessionIdent != ident))
  {
    match owner
    case None => Failure("nil owner")
    case Some(o) =>
      if ident == o.sessionIdent then Success(Some(o))
      else
        var d := FindFirst(room.discordUsers, (u: RoomUser) => u.sessionIdent == ident);
        if d.Some? then Success(d)
        else Success(FindFirst(room.users, (u: RoomUser) => u.sessionIdent == ident))
  }

  // ---------------------------------------------------------------------
  // Rooms and the owner
  // ---------------------------------------------------------------------

  /** `FindRoomByID`: the first configured room with the id. */
  function FindRoomById(rooms: seq<Room>, id: string): (r: Option<Room>)
    ensures r.None? <==> forall k :: 0 <= k < |rooms| ==> rooms[k].id != id
    ensures r.Some? ==> r.value.id == id
    ensures r.Some? ==>
      exists k :: (0 <= k < |rooms| && rooms[k] == r.value && forall j :: 0 <= j < k ==> rooms[j].id != id)
  {
    FindFirst(rooms, (room: Room) => room.id == id)
  }

  /** `FindRoomByDiscordChannel`: the first configured room on the channel;
      the empty channel finds the first room without one. */
  function FindRoomByDiscordChannel(rooms: seq<Room>, channel: string): (r: Option<Room>)
    ensures r.None? <==> forall k :: 0 <= k < |rooms| ==> rooms[k].discordChannel != channel
    ensures r.Some? ==> r.value.discordChannel == channel
    ensures r.Some? ==>
      exists k :: (0 <= k < |rooms| && rooms[k] == r.value &&
                   forall j :: 0 <= j < k ==> rooms[j].discordChannel != channel)
  {
    FindFirst(rooms, (room: Room) => room.discordChannel == channel)
  }

  /** The owner's entry in the configuration. */
  datatype OwnerConfig = OwnerConfig(id: string, nickname: string, color: string, discordId: string)

  /** `InitializeOwner`: the owner is built from the configuration, logged
      out, and a Discord user exactly when a Discord id is configured. */
  function InitializeOwner(cfg: OwnerConfig, now: Time): (r: RoomUser)
    ensures r.id == cfg.id && r.nickname == cfg.nickname && r.color == cfg.color
    ensures r.isOwner && r.sessionIdent == ""
    ensures r.isDiscordUser <==> cfg.discordId != ""
  {
    RoomUser(cfg.id, now, cfg.nickname, cfg.color, now, now, "", cfg.discordId != "", true)
  }

  /** `LoginOwner`: binds the owner to a session; with no owner the
      dereference panics. */
  function LoginOwner(owner: Option<RoomUser>, ident: string): (r: Result<RoomUser, string>)
    ensures owner.None? <==> r.Failure?
    ensures r.Success? ==> r.value.sessionIdent == ident
  {
    match owner
    case None => Failure("nil owner")
    case Some(o) => Success(o.(sessionIdent := ident))
  }

  /** Logging in changes only the owner's session, after which a session
      lookup in any room finds the owner. */
  lemma LoginOwnerBindsSession(owner: RoomUser, ident: string, room: Room)
    ensures var o := LoginOwner(Some(owner), ident).value;
      && o == owner.(sessionIdent := ident)
      && o.id == owner.id && o.nickname == owner.nickname && o.isOwner == owner.isOwner
      && GetUserBySessionIdent(Some(o), room, ident) == Success(Some(o))
  {
  }
}

=== FILE: schema.dfy ===
/** The message structures of the raw-socket protocol. Go describes the wire
    layout with `fieldOrder` struct tags read by reflection; here each message
    lists its field values in declaration order together with their tags. */
module Schema {

  /** The three field kinds the message structures use. */
  datatype FieldValue = Str(s: string) | I32(i: int) | StrList(items: seq<string>)

  function StrOf(v: FieldValue): string { if v.Str? then v.s else "" }
  function IntOf(v: FieldValue): int { if v.I32? then v.i else 0 }
  function ListOf(v: FieldValue): seq<string> { if v.StrList? then v.items else [] }

  predicate SameKind(a: FieldValue, b: FieldValue) {
    (a.Str? && b.Str?) || (a.I32? && b.I32?) || (a.StrList? && b.StrList?)
  }

  datatype WireMessage =
    | RoomListRequest
    | RoomList(roomIds: seq<string>, roomNames: seq<string>)
    | SendMessage(userId: string, to: string, speechMode: string, message: string,
                  privately: string, roomId: string)
    | ColorListRequest
    | ColorList(colors: seq<string>, colorNames: seq<string>)
    | Ping(userId: string)
    | ServerError(message: string)
    | RegisterUser(nickname: string, color: string, roomId: string, client: string)
    | RegisterUserResponse(userId: string, nickname: string, color: string, roomId: string)
    | ServerUserListAdd(userId: string, nickname: string, color: string, roomId: string)
    | ServerUserListRemove(userId: string, roomId: string)
    | ServerUserKicked(reason: string)
    | ServerUserListUpdate(roomId: string, totalId: int)
    | ServerMessageSent(roomId: string, from: string, to: string, privately: string,
                        speechMode: string, time: string, isSystemMessage: string,
                        systemMessageSubject: string, isHistory: string, message: string)

  /** The struct's field values, in declaration order. */
  function Values(m: WireMessage): seq<FieldValue> {
    match m
    case RoomListRequest => []
    case RoomList(ids, names) => [StrList(ids), StrList(names)]
    case SendMessage(u, t, sm, msg, p, r) => [Str(u), Str(t), Str(sm), Str(msg), Str(p), Str(r)]
    case ColorListRequest => []
    case ColorList(cs, ns) => [StrList(cs), StrList(ns)]
    case Ping(u) => [Str(u)]
    case ServerError(msg) => [Str(msg)]
    case RegisterUser(n, c, r, cl) => [Str(n), Str(c), Str(r), Str(cl)]
    case RegisterUserResponse(u, n, c, r) => [Str(u), Str(n), Str(c), Str(r)]
    case ServerUserListAdd(u, n, c, r) => [Str(u), Str(n), Str(c), Str(r)]
    case ServerUserListRemove(u, r) => [Str(u), Str(r)]
    case ServerUserKicked(reason) => [Str(reason)]
    case ServerUserListUpdate(r, total) => [Str(r), I32(total)]
    case ServerMessageSent(r, f, t, p, sm, tm, sys, subj, hist, msg) =>
      [Str(r), Str(f), Str(t), Str(p), Str(sm), Str(tm), Str(sys), Str(subj), Str(hist), Str(msg)]
  }

  /** The `fieldOrder` tag of each field, in declaration order. */
  function Tags(m: WireMessage): (t: seq<nat>)
    ensures |t| == |Values(m)|
    ensures forall i :: 0 <= i < |t| ==> t[i] < |t|
  {
    match m
    case RoomListRequest => []
    case RoomList(_, _) => [0, 1]
    case SendMessage(_, _, _, _, _, _) => [0, 1, 2, 3, 4, 5]
    case ColorListRequest => []
    case ColorList(_, _) => [0, 1]
    case Ping(_) => [0]
    case ServerError(_) => [0]
    case RegisterUser(_, _, _, _) => [0, 1, 2, 3]
    case RegisterUserResponse(_, _, _, _) => [0, 1, 2, 3]
    case ServerUserListAdd(_, _, _, _) => [0, 1, 2, 3]
    case ServerUserListRemove(_, _) => [0, 1]
    case ServerUserKicked(_) => [0]
    case ServerUserListUpdate(_, _) => [0, 1]
    case ServerMessageSent(_, _, _, _, _, _, _, _, _, _) => [0, 1, 2, 3, 4, 5, 6, 7, 8, 9]
  }

  /** The tags of a structure are a permutation of its field positions. */
  ghost predicate TagsArePermutation(tags: seq<nat>) {
    && (forall i :: 0 <= i < |tags| ==> tags[i] < |tags|)
    && (forall i, j :: 0 <= i < j < |tags| ==> tags[i] != tags[j])
  }

  /** Every structure tags its fields 0..n-1 in declaration order, so no slot
      of the payload is left unassigned and none is assigned twice. */
  lemma TagsAreDeclarationOrder(m: WireMessage)
    ensures |Tags(m)| == |Values(m)|
    ensures forall i :: 0 <= i < |Tags(m)| ==> Tags(m)[i] == i
    ensures TagsArePermutation(Tags(m))
  {
  }

  /** Which structure a message is: its Go struct type. */
  function Kind(m: WireMessage): nat {
    match m
    case RoomListRequest => 0
    case RoomList(_, _) => 1
    case SendMessage(_, _, _, _, _, _) => 2
    case ColorListRequest => 3
    case ColorList(_, _) => 4
    case Ping(_) => 5
    case ServerError(_) => 6
    case RegisterUser(_, _, _, _) => 7
    case RegisterUserResponse(_, _, _, _) => 8
    case ServerUserListAdd(_, _, _, _) => 9
    case ServerUserListRemove(_, _) => 10
    case ServerUserKicked(_) => 11
    case ServerUserListUpdate(_, _) => 12
    case ServerMessageSent(_, _, _, _, _, _, _, _, _, _) => 13
  }

  /** Messages of the same kind are built by the same constructor. */
  lemma SameKindSameConstructor(m: WireMessage, t: WireMessage)
    requires Kind(m) == Kind(t)
    ensures m.RegisterUser? <==> t.RegisterUser?
    ensures m.SendMessage? <==> t.SendMessage?
  {
  }

  /** The same structure with its field values replaced: what reflection's
      field setters do to a struct value. */
  function Rebuild(m: WireMessage, vs: seq<FieldValue>): (r: WireMessage)
    requires |vs| == |Values(m)|
    ensures Tags(r) == Tags(m)
    ensures Kind(r) == Kind(m)
  {
    match m
    case RoomListRequest => RoomListRequest
    case RoomList(_, _) => RoomList(ListOf(vs[0]), ListOf(vs[1]))
    case SendMessage(_, _, _, _, _, _) =>
      SendMessage(StrOf(vs[0]), StrOf(vs[1]), StrOf(vs[2]), StrOf(vs[3]), StrOf(vs[4]), StrOf(vs[5]))
    case ColorListRequest => ColorListRequest
    case ColorList(_, _) => ColorList(ListOf(vs[0]), ListOf(vs[1]))
    case Ping(_) => Ping(StrOf(vs[0]))
    case ServerError(_) => ServerError(StrOf(vs[0]))
    case RegisterUser(_, _, _, _) =>
      RegisterUser(StrOf(vs[0]), StrOf(vs[1]), StrOf(vs[2]), StrOf(vs[3]))
    case RegisterUserResponse(_, _, _, _) =>
      RegisterUserResponse(StrOf(vs[0]), StrOf(vs[1]), StrOf(vs[2]), StrOf(vs[3]))
    case ServerUserListAdd(_, _, _, _) =>
      ServerUserListAdd(StrOf(vs[0]), StrOf(vs[1]), StrOf(vs[2]), StrOf(vs[3]))
    case ServerUserListRemove(_, _) => ServerUserListRemove(StrOf(vs[0]), StrOf(vs[1]))
    case ServerUserKicked(_) => ServerUserKicked(StrOf(vs[0]))
    case ServerUserListUpdate(_, _) => ServerUserListUpdate(StrOf(vs[0]), IntOf(vs[1]))
    case ServerMessageSent(_, _, _, _, _, _, _, _, _, _) =>
      ServerMessageSent(StrOf(vs[0]), StrOf(vs[1]), StrOf(vs[2]), StrOf(vs[3]), StrOf(vs[4]),
                        StrOf(vs[5]), StrOf(vs[6]), StrOf(vs[7]), StrOf(vs[8]), StrOf(vs[9]))
  }

  predicate SameKinds(vs: seq<FieldValue>, ws: seq<FieldValue>) {
    |vs| == |ws| && forall i :: 0 <= i < |vs| ==> SameKind(vs[i], ws[i])
  }

  lemma KindedValue(v: FieldValue, w: FieldValue)
    requires SameKind(v, w)
    ensures w.Str? ==> v == Str(StrOf(v))
    ensures w.I32? ==> v == I32(IntOf(v))
    ensures w.StrList? ==> v == StrList(ListOf(v))
  {
  }

  /** Rebuilding with values of the structure's own kinds stores exactly
      those values. */
  lemma RebuildValues(m: WireMessage, vs: seq<FieldValue>)
    requires SameKinds(vs, Values(m))
    ensures Values(Rebuild(m, vs)) == vs
  {
    var ws := Values(m);
    forall i | 0 <= i < |vs| ensures Values(Rebuild(m, vs))[i] == vs[i] {
      KindedValue(vs[i], ws[i]);
    }
  }

  /** A structure whose fields are all strings: the client requests. */
  predicate AllStrings(m: WireMessage) {
    forall i :: 0 <= i < |Values(m)| ==> Values(m)[i].Str?
  }
}

=== FILE: session.dfy ===
/** The in-memory session store of session/session.go: a map from session
    identifier to a key/value bag. The identifier is a name-based UUID of the
    client's IP and user agent; the UUID function is a parameter. */
module Session {
  import opened Wrappers
  import opened Dynamic

  type UserSession = Bag
  type Sessions = map<string, UserSession>

  /** Request headers; a header that is not present reads as "". */
  type Headers = map<string, string>

  function Header(h: Headers, key: string): string {
    if key in h then h[key] else ""
  }

  /** The headers consulted for the client IP, in order of preference. */
  const IpHeaders: seq<string> :=
    ["HTTP_CF_CONNECTING_IP", "HTTP_X_REAL_IP", "HTTP_X_FORWARDED_FOR", "REMOTE_ADDR"]

  /** The first non-empty header among `keys`, or "". */
  function FirstHeader(h: Headers, keys: seq<string>): (r: string)
    ensures r == "" <==> forall k :: 0 <= k < |keys| ==> Header(h, keys[k]) == ""
    ensures r != "" ==>
      exists k :: 0 <= k < |keys| && r == Header(h, keys[k]) && forall j :: 0 <= j < k ==> Header(h, keys[j]) == ""
    decreases |keys|
  {
    if |keys| == 0 then ""
    else if Header(h, keys[0]) != "" then Header(h, keys[0])
    else
      var r := FirstHeader(h, keys[1..]);
      assert forall k :: 1 <= k < |keys| ==> keys[k] == keys[1..][k - 1];
      if r != "" then
        var k :| 0 <= k < |keys[1..]| && r == Header(h, keys[1..][k]) &&
          forall j :: 0 <= j < k ==> Header(h, keys[1..][j]) == "";
        assert forall j :: 0 <= j < k + 1 ==> Header(h, keys[j]) == "" by {
          forall j | 0 <= j < k + 1 ensures Header(h, keys[j]) == "" {
            if j > 0 { assert keys[j] == keys[1..][j - 1]; }
          }
        }
        r
      else r
  }

  /** `getIP`: the first of the four IP headers that is set, in order of
      preference, or "" when none is. */
  function GetIP(h: Headers): (r: string)
    ensures r == "" <==> forall k :: 0 <= k < |IpHeaders| ==> Header(h, IpHeaders[k]) == ""
    ensures r != "" ==>
      exists k :: 0 <= k < |IpHeaders| && r == Header(h, IpHeaders[k]) &&
        forall j :: 0 <= j < k ==> Header(h, IpHeaders[j]) == ""
  {
    FirstHeader(h, IpHeaders)
  }

  /** `getIP` takes the Cloudflare header over every other, and the socket
      address only when no proxy header is set. */
  lemma GetIPPrecedence(h: Headers)
    ensures Header(h, "HTTP_CF_CONNECTING_IP") != "" ==> GetIP(h) == Header(h, "HTTP_CF_CONNECTING_IP")
    ensures (Header(h, "HTTP_CF_CONNECTING_IP") == "" && Header(h, "HTTP_X_REAL_IP") == "" &&
             Header(h, "HTTP_X_FORWARDED_FOR") == "") ==> GetIP(h) == Header(h, "REMOTE_ADDR")
  {
    var ks := IpHeaders;
    assert FirstHeader(h, ks[3..]) == Header(h, "REMOTE_ADDR");
    assert ks[1..][1..][1..] == ks[3..];
    assert ks[1..][1..] == ks[2..];
  }

  /** `GetSessionUserIdent`: a name-based UUID of IP and user agent. */
  function GetSessionUserIdent(nameUuid: string -> string, h: Headers): string {
    nameUuid(GetIP(h) + Header(h, "User-Agent"))
  }

  /** `GetSessionValue`: a missing session, a missing key and a nil value all
      read as not found. */
  function GetSessionValue(sessions: Sessions, ident: string, key: string): (r: Option<Dyn>)
    ensures r.Some? <==> ident in sessions && key in sessions[ident] && sessions[ident][key] != Nil
    ensures r.Some? ==> r.value == sessions[ident][key]
  {
    if ident in sessions && Lookup(sessions[ident], key) != Nil then Some(sessions[ident][key])
    else None
  }

  /** `SetSessionValue`: creates the session on first use. */
  function SetSessionValue(sessions: Sessions, ident: string, key: string, value: Dyn): (r: Sessions)
    ensures r.Keys == sessions.Keys + {ident}
    ensures forall other :: other in sessions && other != ident ==> r[other] == sessions[other]
    ensures key in r[ident] && r[ident][key] == value
    ensures ident in sessions ==> r[ident].Keys == sessions[ident].Keys + {key}
    ensures ident !in sessions ==> r[ident].Keys == {key}
    ensures ident in sessions ==>
      forall k :: k in sessions[ident] && k != key ==> r[ident][k] == sessions[ident][k]
  {
    var session: UserSession := if ident in sessions then sessions[ident] else map[];
    sessions[ident := session[key := value]]
  }

  /** A get after a set returns the value set, unless it is nil. */
  lemma GetAfterSet(sessions: Sessions, ident: string, key: string, value: Dyn)
    ensures value != Nil ==> GetSessionValue(SetSessionValue(sessions, ident, key, value), ident, key) == Some(value)
    ensures value == Nil ==> GetSessionValue(SetSessionValue(sessions, ident, key, value), ident, key) == None
  {
  }

  /** Setting one key of one session changes no other read. */
  lemma SetLeavesOtherReads(sessions: Sessions, ident: string, key: string, value: Dyn,
                            ident': string, key': string)
    requires ident' != ident || key' != key
    ensures GetSessionValue(SetSessionValue(sessions, ident, key, value), ident', key') ==
      GetSessionValue(sessions, ident', key')
  {
  }

  /** `DeregisterSession`: removes exactly that session. */
  function DeregisterSession(sessions: Sessions, ident: string): (r: Sessions)
    ensures r.Keys == sessions.Keys - {ident}
    ensures forall other :: other in r ==> r[other] == sessions[other]
  {
    sessions - {ident}
  }

  /** `GetSessionIds`: every current session identifier once, in no
      particular order. */
  method GetSessionIds(sessions: Sessions) returns (ids: seq<string>)
    ensures forall id :: id in ids <==> id in sessions
    ensures forall i, j :: 0 <= i < j < |ids| ==> ids[i] != ids[j]
  {
    ids := [];
    var rest := sessions.Keys;
    while rest != {}
      invariant rest <= sessions.Keys
      invariant forall id :: id in ids <==> id in sessions && id !in rest
      invariant forall i, j :: 0 <= i < j < |ids| ==> ids[i] != ids[j]
      decreases rest
    {
      var id :| id in rest;
      ids := ids + [id];
      rest := rest - {id};
    }
  }
}

=== FILE: sessionflood.dfy ===
/** Flood control keyed through a session (session/flood-control.go): the
    same state machine as the per-IP one, reached through the session's "ip"
    value. The package has its own registry of records. */
module SessionFlood {
  import opened Wrappers
  import opened Clock
  import opened Dynamic
  import opened Session
  import Flood

  /** The type assertion `ip.(string)`: a stored "ip" value is a string. */
  predicate IpIsText(sessions: Sessions, ident: string) {
    var v := GetSessionValue(sessions, ident, "ip");
    v.Some? ==> v.value.Str?
  }

  function SessionIp(sessions: Sessions, ident: string): (r: Option<string>)
    requires IpIsText(sessions, ident)
    ensures r.None? <==> GetSessionValue(sessions, ident, "ip").None?
    ensures r.Some? ==> GetSessionValue(sessions, ident, "ip") == Some(Dynamic.Str(r.value))
  {
    match GetSessionValue(sessions, ident, "ip")
    case None => None
    case Some(v) => Some(v.s)
  }

  /** `IsIPBanned`: a session with no IP is never banned. */
  function IsIPBanned(sessions: Sessions, ips: Flood.Registry, ident: string, now: Time): (r: bool)
    requires IpIsText(sessions, ident)
    ensures SessionIp(sessions, ident).None? ==> !r
    ensures SessionIp(sessions, ident).Some? ==>
      (r <==> Flood.IsIPBanned(ips, SessionIp(sessions, ident).value, now))
  {
    match SessionIp(sessions, ident)
    case None => false
    case Some(ip) => ip in ips && Flood.Banned(ips[ip], now)
  }

  /** `IsCooldownPeriod`: a session with no IP never cools down. */
  function IsCooldownPeriod(sessions: Sessions, ips: Flood.Registry, ident: string, now: Time): (r: bool)
    requires IpIsText(sessions, ident)
    ensures SessionIp(sessions, ident).None? ==> !r
    ensures SessionIp(sessions, ident).Some? ==>
      (r <==> Flood.IsCooldownPeriod(ips, SessionIp(sessions, ident).value, now))
  {
    match SessionIp(sessions, ident)
    case None => false
    case Some(ip) => ip in ips && Flood.CoolingDown(ips[ip], now)
  }

  /** `SetFlooded`: a session with no IP, or an IP without a record, changes
      nothing. */
  function SetFlooded(sessions: Sessions, ips: Flood.Registry, ident: string, now: Time): (r: Flood.Registry)
    requires IpIsText(sessions, ident)
    ensures SessionIp(sessions, ident).None? ==> r == ips
    ensures SessionIp(sessions, ident).Some? ==>
      r == Flood.SetFlooded(ips, SessionIp(sessions, ident).value, now)
  {
    match SessionIp(sessions, ident)
    case None => ips
    case Some(ip) => if ip !in ips then ips else ips[ip := Flood.Flooded(ips[ip], now)]
  }

  /** After a counted flood the session's IP cools down. */
  lemma SessionFloodStartsCooldown(sessions: Sessions, ips: Flood.Registry, ident: string, now: Time)
    requires IpIsText(sessions, ident)
    requires SessionIp(sessions, ident).Some? && SessionIp(sessions, ident).value in ips
    ensures IsCooldownPeriod(sessions, SetFlooded(sessions, ips, ident, now), ident, now)
  {
  }

  /** Two sessions sharing an IP share its ban. */
  lemma SharedIpSharesBan(sessions: Sessions, ips: Flood.Registry, a: string, b: string, now: Time)
    requires IpIsText(sessions, a) && IpIsText(sessions, b)
    requires SessionIp(sessions, a).Some? && SessionIp(sessions, a) == SessionIp(sessions, b)
    ensures IsIPBanned(sessions, ips, a, now) == IsIPBanned(sessions, ips, b, now)
  {
  }
}

=== FILE: tasks.dfy ===
/** One pass of each background sweep: the session cleanup
    (tasks/session-cleanup.go), which forgets sessions no room user is bound
    to, and the status check (tasks/check-user-status.go), which
    deregisters web users that stopped pinging. The endless loops and their
    sleeps are not part of this model; the web platform constant is the
    parameter `webPlat`. */
module Tasks {
  import opened Wrappers
  import opened Clock
  import opened ChatSchema
  import Session
  import Rooms
  import ChatStore

  // ---------------------------------------------------------------------
  // Session cleanup
  // ---------------------------------------------------------------------

  /** Some user of some room is bound to the session. */
  predicate Bound(rooms: seq<Rooms.Room>, ident: string) {
    exists i, j :: 0 <= i < |rooms| && 0 <= j < |rooms[i].users| && rooms[i].users[j].sessionIdent == ident
  }

  /** One sweep of `SessionCleanup`: every session no user is bound to is
      deregistered; the others are kept as they were. The rooms are only
      read. */
  method SessionCleanup(sessions: Session.Sessions, rooms: seq<Rooms.Room>) returns (r: Session.Sessions)
    ensures forall id :: id in r <==> id in sessions && Bound(rooms, id)
    ensures forall id :: id in r ==> r[id] == sessions[id]
  {
    var ids := Session.GetSessionIds(sessions);
    r := sessions;
    var k := 0;
    while k < |ids|
      invariant 0 <= k <= |ids|
      invariant forall id :: id in r <==> id in sessions && (Bound(rooms, id) || id !in ids[..k])
      invariant forall id :: id in r ==> r[id] == sessions[id]
    {
      if !Bound(rooms, ids[k]) {
        r := Session.DeregisterSession(r, ids[k]);
      }
      assert ids[..k + 1] == ids[..k] + [ids[k]];
      k := k + 1;
    }
    assert ids[..k] == ids;
  }

  // ---------------------------------------------------------------------
  // Status check
  // ---------------------------------------------------------------------

  /** The user the sweep acts on: a web user of the store who stopped
      pinging and whom deregistration removes (not an admin Discord user). */
  predicate Removable(s: ChatStore.Store, id: string, webPlat: string, now: Time) {
    && id in s.users
    && s.users[id].client.plat == webPlat
    && ChatStore.IsUserStale(s, id, now)
    && !(s.users[id].isAdmin && IsDiscordUser(s.users[id]))
  }

  /** The users the sweep sees are those of the store, each once. */
  predicate Snapshot(s: ChatStore.Store, users: seq<ChatUser>) {
    && (forall k :: 0 <= k < |users| && users[k].id in s.users ==> s.users[users[k].id] == users[k])
    && (forall i, j :: 0 <= i < j < |users| ==> users[i].id != users[j].id)
  }

  /** The sweep's turn for one listed user: a web user that is stale at
      its turn is deregistered. A deregistration in a room without an event
      bus panics. */
  function Step(s: ChatStore.Store, u: ChatUser, webPlat: string, now: Time): (r: Result<ChatStore.Store, string>)
    ensures r.Success? ==> r.value.users.Keys <= s.users.Keys
    ensures r.Success? ==> forall id :: id in r.value.users ==> r.value.users[id] == s.users[id]
  {
    if u.client.plat == webPlat && ChatStore.IsUserStale(s, u.id, now) then
      match ChatStore.DeregisterUser(s, u.id, now)
      case Failure(e) => Failure(e)
      case Success(t) =>
        ChatStore.DeregisterUserRemoves(s, u.id, now);
        Success(t)
    else Success(s)
  }

  /** One sweep of `CheckUserStatus` over the users it listed, in order. */
  function StatusSweep(s: ChatStore.Store, users: seq<ChatUser>, webPlat: string, now: Time):
    (r: Result<ChatStore.Store, string>)
    ensures r.Success? ==> r.value.users.Keys <= s.users.Keys
    ensures r.Success? ==> forall id :: id in r.value.users ==> r.value.users[id] == s.users[id]
    decreases |users|
  {
    if |users| == 0 then Success(s)
    else
      match Step(s, users[0], webPlat, now)
      case Failure(e) => Failure(e)
      case Success(t) => StatusSweep(t, users[1..], webPlat, now)
  }

  /** The ids a sweep over `users` removes from `s`. */
  function Removed(s: ChatStore.Store, users: seq<ChatUser>, webPlat: string, now: Time): set<string> {
    set k | 0 <= k < |users| && Removable(s, users[k].id, webPlat, now) :: users[k].id
  }

  /** What one turn does to the store's users: the user it looked at goes,
      with its ping stamp, exactly when removable; nothing else changes. */
  predicate RemovesOnly(s: ChatStore.Store, t: ChatStore.Store, gone: string, webPlat: string, now: Time) {
    && (Removable(s, gone, webPlat, now) ==> t.users == s.users - {gone} && t.userPings == s.userPings - {gone})
    && (!Removable(s, gone, webPlat, now) ==> t.users == s.users && t.userPings == s.userPings)
  }

  lemma StepRemovesOnly(s: ChatStore.Store, u: ChatUser, webPlat: string, now: Time)
    requires u.id in s.users ==> s.users[u.id] == u
    requires Step(s, u, webPlat, now).Success?
    ensures RemovesOnly(s, Step(s, u, webPlat, now).value, u.id, webPlat, now)
  {
    if u.client.plat == webPlat && ChatStore.IsUserStale(s, u.id, now) {
      ChatStore.DeregisterUserRemoves(s, u.id, now);
    }
  }

  /** Removing one user changes whether no other user is removable. */
  lemma RemovableElsewhere(s: ChatStore.Store, t: ChatStore.Store, gone: string, id: string,
                           webPlat: string, now: Time)
    requires id != gone && RemovesOnly(s, t, gone, webPlat, now)
    ensures Removable(t, id, webPlat, now) == Removable(s, id, webPlat, now)
  {
  }

  /** The users removed over a list are the first one's removal followed by
      those removed over the rest. */
  lemma RemovedSplit(s: ChatStore.Store, t: ChatStore.Store, users: seq<ChatUser>, webPlat: string, now: Time)
    requires |users| > 0 && Snapshot(s, users)
    requires RemovesOnly(s, t, users[0].id, webPlat, now)
    ensures Removed(s, users, webPlat, now) ==
      (if Removable(s, users[0].id, webPlat, now) then {users[0].id} else {}) + Removed(t, users[1..], webPlat, now)
  {
    var u := users[0];
    var rest := Removed(t, users[1..], webPlat, now);
    forall id | id in rest ensures id in Removed(s, users, webPlat, now) && id != u.id {
      var k :| 0 <= k < |users[1..]| && Removable(t, users[1..][k].id, webPlat, now) && users[1..][k].id == id;
      assert users[k + 1].id == id;
      RemovableElsewhere(s, t, u.id, id, webPlat, now);
    }
    forall id | id in Removed(s, users, webPlat, now) && id != u.id ensures id in rest {
      var k :| 0 <= k < |users| && Removable(s, users[k].id, webPlat, now) && users[k].id == id;
      assert k > 0 && users[1..][k - 1].id == id;
      RemovableElsewhere(s, t, u.id, id, webPlat, now);
    }
  }

  lemma SnapshotTail(s: ChatStore.Store, t: ChatStore.Store, users: seq<ChatUser>)
    requires |users| > 0 && Snapshot(s, users)
    requires t.users.Keys <= s.users.Keys
    requires forall id :: id in t.users ==> t.users[id] == s.users[id]
    ensures Snapshot(t, users[1..])
  {
    forall k | 0 <= k < |users[1..]| && users[1..][k].id in t.users
      ensures t.users[users[1..][k].id] == users[1..][k]
    {
      assert users[1..][k] == users[k + 1];
    }
  }

  /** A sweep removes exactly the removable users it lists and keeps every
      other user as it was. */
  lemma {:induction false} StatusSweepRemoves(s: ChatStore.Store, users: seq<ChatUser>, webPlat: string, now: Time)
    requires Snapshot(s, users)
    requires StatusSweep(s, users, webPlat, now).Success?
    ensures StatusSweep(s, users, webPlat, now).value.users.Keys == s.users.Keys - Removed(s, users, webPlat, now)
    decreases |users|
  {
    if |users| > 0 {
      var t := Step(s, users[0], webPlat, now).value;
      StepRemovesOnly(s, users[0], webPlat, now);
      SnapshotTail(s, t, users);
      StatusSweepRemoves(t, users[1..], webPlat, now);
      RemovedSplit(s, t, users, webPlat, now);
    }
  }

  /** A listed user whose removal is announced: removable, with an id and
      without a Discord id. */
  predicate LeaveAnnounced(s: ChatStore.Store, u: ChatUser, webPlat: string, now: Time) {
    Removable(s, u.id, webPlat, now) && u.id != "" && u.discordId == ""
  }

  /** The events a sweep over `users` posts: the left message and the
      user-left event of each announced removal, in list order. */
  function SweepEvents(s: ChatStore.Store, users: seq<ChatUser>, webPlat: string, now: Time): seq<ChatStore.Posted>
    decreases |users|
  {
    if |users| == 0 then []
    else
      (if LeaveAnnounced(s, users[0], webPlat, now) then ChatStore.LeaveEvents(users[0], now) else [])
      + SweepEvents(s, users[1..], webPlat, now)
  }

  /** One turn posts the leave events of its user exactly when announced. */
  lemma StepPosts(s: ChatStore.Store, u: ChatUser, webPlat: string, now: Time)
    requires u.id in s.users ==> s.users[u.id] == u
    requires Step(s, u, webPlat, now).Success?
    ensures Step(s, u, webPlat, now).value.events ==
      s.events + (if LeaveAnnounced(s, u, webPlat, now) then ChatStore.LeaveEvents(u, now) else [])
  {
  }

  /** Another user's removal does not change the events a list of distinct
      users would post. */
  lemma {:induction false} SweepEventsElsewhere(s: ChatStore.Store, t: ChatStore.Store, users: seq<ChatUser>,
                                                gone: string, webPlat: string, now: Time)
    requires RemovesOnly(s, t, gone, webPlat, now)
    requires forall k :: 0 <= k < |users| ==> users[k].id != gone
    ensures SweepEvents(t, users, webPlat, now) == SweepEvents(s, users, webPlat, now)
    decreases |users|
  {
    if |users| > 0 {
      RemovableElsewhere(s, t, gone, users[0].id, webPlat, now);
      SweepEventsElsewhere(s, t, users[1..], gone, webPlat, now);
    }
  }

  /** A sweep posts, after the events already logged, the left message and
      the user-left event of every removed user that is not a Discord user,
      in list order; removed Discord users and kept users post nothing. */
  lemma {:induction false} StatusSweepPosts(s: ChatStore.Store, users: seq<ChatUser>, webPlat: string, now: Time)
    requires Snapshot(s, users)
    requires StatusSweep(s, users, webPlat, now).Success?
    ensures StatusSweep(s, users, webPlat, now).value.events == s.events + SweepEvents(s, users, webPlat, now)
    decreases |users|
  {
    if |users| > 0 {
      var t := Step(s, users[0], webPlat, now).value;
      StepPosts(s, users[0], webPlat, now);
      StepRemovesOnly(s, users[0], webPlat, now);
      SnapshotTail(s, t, users);
      StatusSweepPosts(t, users[1..], webPlat, now);
      assert forall k :: 0 <= k < |users[1..]| ==> users[1..][k].id != users[0].id by {
        forall k | 0 <= k < |users[1..]| ensures users[1..][k].id != users[0].id {
          assert users[1..][k] == users[k + 1];
        }
      }
      SweepEventsElsewhere(s, t, users[1..], users[0].id, webPlat, now);
      var head := if LeaveAnnounced(s, users[0], webPlat, now) then ChatStore.LeaveEvents(users[0], now) else [];
      Regroup(s.events, head, SweepEvents(s, users[1..], webPlat, now));
    }
  }

  lemma Regroup<T>(a: seq<T>, b: seq<T>, c: seq<T>)
    ensures (a + b) + c == a + (b + c)
  {
  }

  /** What a sweep over the store's own users promises: a user leaves
      exactly when it is a web user that stopped pinging (and not an admin
      Discord user); in particular users of other platforms and users that
      pinged within the timeout stay. */
  lemma StatusSweepOutcome(s: ChatStore.Store, users: seq<ChatUser>, webPlat: string, now: Time, id: string)
    requires Snapshot(s, users)
    requires forall x :: x in s.users ==> exists k :: 0 <= k < |users| && users[k].id == x
    requires StatusSweep(s, users, webPlat, now).Success?
    requires id in s.users
    ensures id !in StatusSweep(s, users, webPlat, now).value.users <==> Removable(s, id, webPlat, now)
    ensures s.users[id].client.plat != webPlat ==> id in StatusSweep(s, users, webPlat, now).value.users
    ensures id in s.userPings && Sub(now, s.userPings[id]) <= UserStaleTimeout * Second ==>
      id in StatusSweep(s, users, webPlat, now).value.users
  {
    StatusSweepRemoves(s, users, webPlat, now);
    var k :| 0 <= k < |users| && users[k].id == id;
    if Removable(s, id, webPlat, now) {
      assert id in Removed(s, users, webPlat, now);
    }
  }
}

=== FILE: templates.dfy ===
/** The message filters of the HTML templates
    (templates/template-functions.go): which room messages a user sees, and
    which are addressed to the user. */
module Templates {
  import opened Wrappers
  import ChatSchema
  import Rooms

  /** A room message as the chat store would carry it: users become their
      ids, and no addressee becomes the empty id. */
  function AsChatMessage(m: Rooms.RoomMessage, roomId: string): (c: ChatSchema.ChatMessage)
    ensures c.from == m.from.id && c.privately == m.privately
    ensures c.to == if m.to.None? then "" else m.to.value.id
  {
    ChatSchema.ChatMessage(roomId, m.time, m.message, m.from.id, if m.to.None? then "" else m.to.value.id,
                           m.privately, m.speechMode, m.isSystemMessage, None, m.fromDiscord, [])
  }

  /** `isMessageVisible`: public messages and messages without an addressee
      are visible to everyone; a private addressed message only to its
      addressee and its sender. It agrees with the chat store's delivery
      rule whenever an addressee has an id. */
  predicate IsMessageVisible(userId: string, m: Rooms.RoomMessage): (r: bool)
    ensures (m.to.Some? ==> m.to.value.id != "") ==>
      (r <==> ChatSchema.DeliveredTo(AsChatMessage(m, ""), userId))
  {
    !m.privately || m.to.None? || userId == m.to.value.id || userId == m.from.id
  }

  /** `isMessageToSelf`: the message has an addressee and it is the user, so
      the user also sees it. */
  predicate IsMessageToSelf(userId: string, m: Rooms.RoomMessage): (r: bool)
    ensures r ==> m.to.Some? && IsMessageVisible(userId, m)
    ensures m.to.Some? && userId == m.to.value.id ==> r
  {
    m.to.Some? && userId == m.to.value.id
  }

  /** Who sees a message: both directions of the rule, for each kind. */
  lemma VisibilityAudience(userId: string, m: Rooms.RoomMessage)
    ensures !m.privately || m.to.None? ==> IsMessageVisible(userId, m)
    ensures m.privately && m.to.Some? ==>
      (IsMessageVisible(userId, m) <==> userId == m.to.value.id || userId == m.from.id)
  {
  }

  /** A message addressed to the user is visible to the user. */
  lemma ToSelfIsVisible(userId: string, m: Rooms.RoomMessage)
    ensures IsMessageToSelf(userId, m) ==> IsMessageVisible(userId, m)
    ensures !IsMessageVisible(userId, m) ==> !IsMessageToSelf(userId, m)
  {
  }

  /** The template's filter is the chat store's delivery rule: a user sees a
      room message exactly when the store would deliver it to the user, as
      long as an addressee has an id. */
  lemma VisibleIffDelivered(userId: string, m: Rooms.RoomMessage, roomId: string)
    requires m.to.Some? ==> m.to.value.id != ""
    ensures IsMessageVisible(userId, m) <==> ChatSchema.DeliveredTo(AsChatMessage(m, roomId), userId)
  {
  }
}

=== FILE: text.dfy ===
/** The pieces of Go's `strings` and `strconv` packages the chat server
    relies on. A Go string is modelled as a sequence of characters, one
    character per byte: the server only ever compares, lowers and splits ASCII
    text, and `len` counts characters here. */
module Text {
  import opened Wrappers

  // ---------------------------------------------------------------------
  // Character classes
  // ---------------------------------------------------------------------

  /** `unicode.IsSpace` restricted to ASCII: what `strings.TrimSpace` trims. */
  predicate IsSpace(c: char) {
    c == ' ' || c == '\t' || c == '\n' || c == '\U{B}' || c == '\U{C}' || c == '\r'
  }

  /** The regular-expression class `\s` of Go's RE2 syntax: `[\t\n\f\r ]`
      (no vertical tab, unlike `unicode.IsSpace`). */
  predicate IsRegexSpace(c: char) {
    c == ' ' || c == '\t' || c == '\n' || c == '\U{C}' || c == '\r'
  }

  predicate IsUpper(c: char) { 'A' <= c <= 'Z' }

  predicate IsDigit(c: char) { '0' <= c <= '9' }

  function LowerChar(c: char): (r: char)
    ensures !IsUpper(r)
    ensures IsUpper(c) ==> r as int == c as int + 32
    ensures !IsUpper(c) ==> r == c
  {
    if IsUpper(c) then (c as int + 32) as char else c
  }

  /** `strings.ToLower` on ASCII text. */
  function ToLower(s: string): (r: string)
    ensures |r| == |s|
    ensures forall i :: 0 <= i < |s| ==> r[i] == LowerChar(s[i])
  {
    seq(|s|, i requires 0 <= i < |s| => LowerChar(s[i]))
  }

  lemma ToLowerIdempotent(s: string)
    ensures ToLower(ToLower(s)) == ToLower(s)
  {
  }

  lemma ToLowerAppend(a: string, b: string)
    ensures ToLower(a + b) == ToLower(a) + ToLower(b)
  {
  }

  // ---------------------------------------------------------------------
  // Trimming
  // ---------------------------------------------------------------------

  function TrimStart(s: string, cut: char -> bool): (r: string)
    ensures |r| <= |s| && r == s[|s| - |r|..]
    ensures |r| == 0 || !cut(r[0])
    ensures forall i :: 0 <= i < |s| - |r| ==> cut(s[i])
    decreases |s|
  {
    if |s| > 0 && cut(s[0]) then
      var r := TrimStart(s[1..], cut);
      assert forall i :: 1 <= i < |s| - |r| ==> s[i] == s[1..][i - 1];
      assert s[|s| - |r|..] == s[1..][|s| - 1 - |r|..];
      r
    else s
  }

  function TrimEnd(s: string, cut: char -> bool): (r: string)
    ensures |r| <= |s| && r == s[..|r|]
    ensures |r| == 0 || !cut(r[|r| - 1])
    ensures forall i :: |r| <= i < |s| ==> cut(s[i])
    decreases |s|
  {
    if |s| > 0 && cut(s[|s| - 1]) then
      var r := TrimEnd(s[..|s| - 1], cut);
      assert forall i :: |r| <= i < |s| - 1 ==> s[i] == s[..|s| - 1][i];
      assert s[..|r|] == s[..|s| - 1][..|r|];
      r
    else s
  }

  predicate IsSpaceChar(c: char) { c == ' ' }

  /** `strings.Trim(s, " ")`: strips leading and trailing spaces only. */
  function TrimSpaces(s: string): (r: string)
    ensures |r| <= |s|
    ensures |r| == 0 || (r[0] != ' ' && r[|r| - 1] != ' ')
  {
    TrimEnd(TrimStart(s, IsSpaceChar), IsSpaceChar)
  }

  /** `strings.TrimSpace`: strips leading and trailing white space. */
  function TrimSpace(s: string): (r: string)
    ensures |r| <= |s|
    ensures |r| == 0 || (!IsSpace(r[0]) && !IsSpace(r[|r| - 1]))
  {
    TrimEnd(TrimStart(s, IsSpace), IsSpace)
  }

  lemma TrimSpaceEmptyIffBlank(s: string)
    ensures |TrimSpace(s)| == 0 <==> forall i :: 0 <= i < |s| ==> IsSpace(s[i])
  {
    var a := TrimStart(s, IsSpace);
    if |a| > 0 {
      assert !IsSpace(a[0]);
      assert a[0] == s[|s| - |a|];
      assert |TrimEnd(a, IsSpace)| > 0;
    }
  }

  /** Trimming a string whose ends are not spaces leaves it unchanged. */
  lemma TrimSpacesNoop(s: string)
    requires |s| == 0 || (s[0] != ' ' && s[|s| - 1] != ' ')
    ensures TrimSpaces(s) == s
  {
  }

  /** `strings.TrimSpace` removes one trailing space from a text whose own
      ends are not white space, and leaves such a text alone. */
  lemma TrimSpaceOfPadded(s: string, pad: string)
    requires |s| > 0 && !IsSpace(s[0]) && !IsSpace(s[|s| - 1])
    requires pad == "" || pad == " "
    ensures TrimSpace(s + pad) == s
  {
    assert TrimStart(s + pad, IsSpace) == s + pad;
    if pad == " " {
      assert (s + pad)[..|s|] == s;
    }
  }

  // ---------------------------------------------------------------------
  // Searching
  // ---------------------------------------------------------------------

  predicate OccursAt(s: string, sub: string, i: int) {
    0 <= i && i + |sub| <= |s| && s[i..i + |sub|] == sub
  }

  function IndexFrom(s: string, sub: string, from: nat): (r: int)
    requires from <= |s| + 1
    ensures r == -1 || (from <= r && OccursAt(s, sub, r))
    ensures r == -1 ==> forall i :: from <= i ==> !OccursAt(s, sub, i)
    ensures r != -1 ==> forall i :: from <= i < r ==> !OccursAt(s, sub, i)
    decreases |s| + 1 - from
  {
    if from + |sub| > |s| then -1
    else if s[from..from + |sub|] == sub then from
    else IndexFrom(s, sub, from + 1)
  }

  /** `strings.Index`: the first position of `sub` in `s`, or -1. */
  function Index(s: string, sub: string): (r: int)
    ensures r == -1 <==> forall i :: !OccursAt(s, sub, i)
    ensures r != -1 ==> OccursAt(s, sub, r) && forall i :: 0 <= i < r ==> !OccursAt(s, sub, i)
  {
    IndexFrom(s, sub, 0)
  }

  predicate Contains(s: string, sub: string) {
    Index(s, sub) != -1
  }

  predicate HasPrefix(s: string, p: string) {
    |p| <= |s| && s[..|p|] == p
  }

  lemma ContainsSelf(s: string)
    ensures Index(s, s) == 0
  {
    assert OccursAt(s, s, 0);
  }

  // ---------------------------------------------------------------------
  // Splitting and joining
  // ---------------------------------------------------------------------

  /** `strings.Split(s, sep)` for a non-empty separator: the pieces between
      successive non-overlapping occurrences of `sep`, scanning left to right. */
  function Split(s: string, sep: string): (r: seq<string>)
    requires |sep| > 0
    ensures |r| >= 1
    decreases |s|
  {
    var i := Index(s, sep);
    if i == -1 then [s] else [s[..i]] + Split(s[i + |sep|..], sep)
  }

  /** `strings.Join`. */
  function Join(parts: seq<string>, sep: string): (r: string)
    decreases |parts|
  {
    if |parts| == 0 then ""
    else if |parts| == 1 then parts[0]
    else parts[0] + sep + Join(parts[1..], sep)
  }

  lemma JoinCons(a: string, tail: seq<string>, sep: string)
    requires |tail| >= 1
    ensures Join([a] + tail, sep) == a + sep + Join(tail, sep)
  {
    assert ([a] + tail)[1..] == tail;
  }

  lemma SliceAround(s: string, i: nat, j: nat)
    requires i <= j <= |s|
    ensures s == s[..i] + s[i..j] + s[j..]
  {
  }

  lemma {:induction false} JoinSplit(s: string, sep: string)
    requires |sep| > 0
    ensures Join(Split(s, sep), sep) == s
    decreases |s|
  {
    var i := Index(s, sep);
    if i != -1 {
      var rest := s[i + |sep|..];
      JoinSplit(rest, sep);
      SplitAtFirst(s, sep, i);
      JoinCons(s[..i], Split(rest, sep), sep);
      SliceAround(s, i, i + |sep|);
    }
  }

  /** Splitting at the first occurrence of the separator. */
  lemma SplitAtFirst(s: string, sep: string, i: int)
    requires |sep| > 0 && i == Index(s, sep) && i != -1
    ensures 0 <= i && i + |sep| <= |s| && s[i..i + |sep|] == sep
    ensures Split(s, sep) == [s[..i]] + Split(s[i + |sep|..], sep)
  {
  }

  /** No piece of a split contains the separator. */
  lemma {:induction false} SplitPiecesFree(s: string, sep: string)
    requires |sep| > 0
    ensures forall k :: 0 <= k < |Split(s, sep)| ==> Index(Split(s, sep)[k], sep) == -1
    decreases |s|
  {
    var i := Index(s, sep);
    if i != -1 {
      SplitPiecesFree(s[i + |sep|..], sep);
      forall j | 0 <= j
        ensures !OccursAt(s[..i], sep, j)
      {
        if OccursAt(s[..i], sep, j) {
          assert s[j..j + |sep|] == s[..i][j..j + |sep|];
          assert OccursAt(s, sep, j);
        }
      }
    }
  }

  /** A word as `strings.Split(s, " ")` yields it: no space inside. */
  predicate NoSpace(w: string) {
    forall i :: 0 <= i < |w| ==> w[i] != ' '
  }

  lemma OccursSpace(s: string, i: int)
    ensures OccursAt(s, " ", i) <==> 0 <= i < |s| && s[i] == ' '
  {
    if 0 <= i < |s| {
      assert s[i..i + 1] == [s[i]];
    }
  }

  lemma NoSpaceIndex(w: string)
    ensures NoSpace(w) <==> Index(w, " ") == -1
  {
    forall i | 0 <= i < |w| ensures OccursAt(w, " ", i) <==> w[i] == ' ' {
      OccursSpace(w, i);
    }
    if !NoSpace(w) {
      var i :| 0 <= i < |w| && w[i] == ' ';
      assert OccursAt(w, " ", i);
    }
  }

  /** The first space of a string is the first space of `Index`. */
  lemma FirstSpace(s: string, n: nat)
    requires n < |s| && s[n] == ' '
    requires forall i :: 0 <= i < n ==> s[i] != ' '
    ensures Index(s, " ") == n
  {
    OccursSpace(s, n);
    var r := Index(s, " ");
    OccursSpace(s, r);
  }

  /** Splitting a join of space-free words on the space gives the words back. */
  lemma {:induction false} SplitJoinWords(ws: seq<string>)
    requires |ws| >= 1
    requires forall k :: 0 <= k < |ws| ==> NoSpace(ws[k])
    ensures Split(Join(ws, " "), " ") == ws
    decreases |ws|
  {
    var s := Join(ws, " ");
    if |ws| == 1 {
      NoSpaceIndex(ws[0]);
    } else {
      var n := |ws[0]|;
      var rest := Join(ws[1..], " ");
      assert ws == [ws[0]] + ws[1..];
      JoinCons(ws[0], ws[1..], " ");
      assert s == ws[0] + " " + rest;
      assert s[n] == ' ';
      assert forall i :: 0 <= i < n ==> s[i] == ws[0][i];
      FirstSpace(s, n);
      assert s[..n] == ws[0];
      assert s[n + 1..] == rest;
      SplitJoinWords(ws[1..]);
      assert Split(s, " ") == [ws[0]] + Split(rest, " ");
    }
  }

  /** The pieces of a split on the space are space-free. */
  lemma SplitWordsNoSpace(s: string)
    ensures forall k :: 0 <= k < |Split(s, " ")| ==> NoSpace(Split(s, " ")[k])
  {
    SplitPiecesFree(s, " ");
    forall k | 0 <= k < |Split(s, " ")| ensures NoSpace(Split(s, " ")[k]) {
      NoSpaceIndex(Split(s, " ")[k]);
    }
  }

  function ToLowerAll(ws: seq<string>): (r: seq<string>)
    ensures |r| == |ws|
    ensures forall k :: 0 <= k < |ws| ==> r[k] == ToLower(ws[k])
  {
    seq(|ws|, k requires 0 <= k < |ws| => ToLower(ws[k]))
  }

  /** Lowering does not move spaces, so it commutes with splitting on them. */
  lemma {:induction false} SplitToLower(s: string)
    ensures Split(ToLower(s), " ") == ToLowerAll(Split(s, " "))
    decreases |s|
  {
    var t := ToLower(s);
    forall i ensures OccursAt(t, " ", i) <==> OccursAt(s, " ", i) {
      OccursSpace(t, i);
      OccursSpace(s, i);
    }
    var i := Index(s, " ");
    if i == -1 {
      assert Index(t, " ") == -1;
    } else {
      OccursSpace(s, i);
      forall j | 0 <= j < i ensures t[j] != ' ' {
        OccursSpace(s, j);
      }
      FirstSpace(t, i);
      SplitToLower(s[i + 1..]);
      assert t[..i] == ToLower(s[..i]);
      assert t[i + 1..] == ToLower(s[i + 1..]);
    }
  }

  /** Joining words of unchanged lengths gives a string of unchanged length. */
  lemma {:induction false} JoinSameLengths(ws: seq<string>, vs: seq<string>, sep: string)
    requires |ws| == |vs|
    requires forall k :: 0 <= k < |ws| ==> |ws[k]| == |vs[k]|
    ensures |Join(ws, sep)| == |Join(vs, sep)|
    decreases |ws|
  {
    if |ws| > 1 {
      JoinSameLengths(ws[1..], vs[1..], sep);
    }
  }

  /** Joining with a one-character separator: the separator count. */
  function Count(s: string, c: char): nat {
    if |s| == 0 then 0 else (if s[0] == c then 1 else 0) + Count(s[1..], c)
  }

  lemma CountAppend(a: string, b: string, c: char)
    ensures Count(a + b, c) == Count(a, c) + Count(b, c)
  {
    if |a| > 0 {
      assert (a + b)[1..] == a[1..] + b;
      CountAppend(a[1..], b, c);
    } else {
      assert a + b == b;
    }
  }

  // ---------------------------------------------------------------------
  // Character-wise rewriting
  // ---------------------------------------------------------------------

  function FlatMap(s: string, f: char -> string): (r: string)
    decreases |s|
  {
    if |s| == 0 then "" else f(s[0]) + FlatMap(s[1..], f)
  }

  lemma FlatMapAppend(a: string, b: string, f: char -> string)
    ensures FlatMap(a + b, f) == FlatMap(a, f) + FlatMap(b, f)
  {
    if |a| > 0 {
      assert (a + b)[1..] == a[1..] + b;
      FlatMapAppend(a[1..], b, f);
    } else {
      assert a + b == b;
    }
  }

  function DeleteWhere(s: string, drop: char -> bool): (r: string)
    ensures |r| <= |s|
    ensures forall i :: 0 <= i < |r| ==> !drop(r[i])
    decreases |s|
  {
    if |s| == 0 then "" else (if drop(s[0]) then "" else [s[0]]) + DeleteWhere(s[1..], drop)
  }

  /** Deletion only keeps characters of the input: whatever holds of every
      input character holds of every output character. */
  lemma {:induction false} DeleteWhereKeeps(s: string, drop: char -> bool, p: char -> bool)
    requires forall i :: 0 <= i < |s| ==> p(s[i])
    ensures forall i :: 0 <= i < |DeleteWhere(s, drop)| ==> p(DeleteWhere(s, drop)[i])
    decreases |s|
  {
    if |s| > 0 {
      assert forall i :: 0 <= i < |s[1..]| ==> p(s[1..][i]) by {
        forall i | 0 <= i < |s[1..]| ensures p(s[1..][i]) { assert s[1..][i] == s[i + 1]; }
      }
      DeleteWhereKeeps(s[1..], drop, p);
      var h := if drop(s[0]) then "" else [s[0]];
      var t := DeleteWhere(s[1..], drop);
      forall i | 0 <= i < |h + t| ensures p((h + t)[i]) {
        if i >= |h| { assert (h + t)[i] == t[i - |h|]; }
      }
    }
  }

  /** Lowering text without capitals changes nothing. */
  lemma ToLowerOfLower(s: string)
    requires forall i :: 0 <= i < |s| ==> !IsUpper(s[i])
    ensures ToLower(s) == s
  {
  }

  // ---------------------------------------------------------------------
  // Decimal numbers (strconv)
  // ---------------------------------------------------------------------

  function DigitChar(d: nat): (c: char)
    requires d < 10
    ensures IsDigit(c)
  {
    ('0' as int + d) as char
  }

  function DigitValue(c: char): (d: nat)
    requires IsDigit(c)
    ensures d < 10
  {
    c as int - '0' as int
  }

  /** Decimal digits of a natural number, most significant first. */
  function NatToString(n: nat): (r: string)
    ensures |r| >= 1
    ensures forall i :: 0 <= i < |r| ==> IsDigit(r[i])
    decreases n
  {
    if n < 10 then [DigitChar(n)] else NatToString(n / 10) + [DigitChar(n % 10)]
  }

  /** `strconv.FormatInt(i, 10)`. */
  function IntToString(i: int): string {
    if i < 0 then "-" + NatToString(-i) else NatToString(i)
  }

  function DigitsValue(s: string): nat
    requires forall i :: 0 <= i < |s| ==> IsDigit(s[i])
    decreases |s|
  {
    if |s| == 0 then 0 else DigitsValue(s[..|s| - 1]) * 10 + DigitValue(s[|s| - 1])
  }

  predicate AllDigits(s: string) {
    forall i :: 0 <= i < |s| ==> IsDigit(s[i])
  }

  const Int64Min: int := -0x8000_0000_0000_0000
  const Int64Max: int := 0x7FFF_FFFF_FFFF_FFFF

  /** `strconv.ParseInt(s, 10, 64)`: an optional sign followed by at least one
      decimal digit, within the signed 64-bit range; anything else is an error. */
  function ParseInt64(s: string): (r: Option<int>)
    ensures r.Some? ==> Int64Min <= r.value <= Int64Max
  {
    if |s| == 0 then None
    else
      var neg := s[0] == '-';
      var body := if s[0] == '-' || s[0] == '+' then s[1..] else s;
      if |body| == 0 || !AllDigits(body) then None
      else
        var d: int := DigitsValue(body);
        var v := if neg then 0 - d else d;
        if Int64Min <= v <= Int64Max then Some(v) else None
  }

  lemma {:induction false} DigitsOfNat(n: nat)
    ensures DigitsValue(NatToString(n)) == n
    decreases n
  {
    if n >= 10 {
      DigitsOfNat(n / 10);
      var s := NatToString(n);
      assert s[..|s| - 1] == NatToString(n / 10);
    }
  }

  /** Formatting then parsing a 64-bit integer gives it back. */
  lemma ParseFormatInt(i: int)
    requires Int64Min <= i <= Int64Max
    ensures ParseInt64(IntToString(i)) == Some(i)
  {
    if i < 0 {
      DigitsOfNat(-i);
      ParseNegative(NatToString(-i));
    } else {
      DigitsOfNat(i);
      ParseUnsigned(NatToString(i));
    }
  }

  lemma ParseUnsigned(t: string)
    requires |t| >= 1 && AllDigits(t) && DigitsValue(t) <= Int64Max
    ensures ParseInt64(t) == Some(DigitsValue(t))
  {
    assert IsDigit(t[0]);
  }

  lemma ParseNegative(t: string)
    requires |t| >= 1 && AllDigits(t) && DigitsValue(t) <= -Int64Min
    ensures ParseInt64("-" + t) == Some(-(DigitsValue(t) as int))
  {
    var s := "-" + t;
    assert s[0] == '-';
    assert s[1..] == t;
  }

  /** `strconv.ParseBool`. */
  function ParseBool(s: string): (r: Option<bool>)
    ensures r == Some(true) <==> s in {"1", "t", "T", "TRUE", "true", "True"}
    ensures r == Some(false) <==> s in {"0", "f", "F", "FALSE", "false", "False"}
  {
    if s in {"1", "t", "T", "TRUE", "true", "True"} then Some(true)
    else if s in {"0", "f", "F", "FALSE", "false", "False"} then Some(false)
    else None
  }

  /** `strconv.FormatBool`. */
  function FormatBool(b: bool): (r: string)
    ensures ParseBool(r) == Some(b)
  {
    if b then "true" else "false"
  }
}

=== FILE: userstate.dfy ===
/** The per-connection state a socket keeps for the validator
    (sockets/socket-user-state.go): whether the cooldown notice was already
    shown, and the second of the last scream. Both live in the connection's
    key/value bag; the connection itself is a record of the user's id, the
    client's IP and the bag. */
module UserState {
  import opened Clock
  import opened Dynamic

  const CoolDownKey: string := "coolDownMessageSent"
  const LastScreamKey: string := "lastScream"

  datatype SocketState = SocketState(userId: string, ip: string, state: Bag)

  /** The type assertion `.(bool)` succeeds: the flag is unset or a bool. */
  predicate CoolDownReadable(st: SocketState) {
    Lookup(st.state, CoolDownKey).Nil? || Lookup(st.state, CoolDownKey).Bool?
  }

  /** `GetCoolDownMessageSent`: an unset flag reads as false. */
  function GetCoolDownMessageSent(st: SocketState): (r: bool)
    requires CoolDownReadable(st)
    ensures r <==> Lookup(st.state, CoolDownKey) == Bool(true)
  {
    match Lookup(st.state, CoolDownKey)
    case Bool(b) => b
    case _ => false
  }

  function SetCoolDownMessageSent(st: SocketState, v: bool): (r: SocketState)
    ensures r.userId == st.userId && r.ip == st.ip
    ensures r.state.Keys == st.state.Keys + {CoolDownKey}
  {
    st.(state := st.state[CoolDownKey := Bool(v)])
  }

  /** `GetLastScream`: the stored Unix second as a time; an unset value, or
      one that is not an `int64`, reads as the Unix epoch. */
  function GetLastScream(st: SocketState): (t: Time)
    ensures Lookup(st.state, LastScreamKey).Int64? ==> t == Lookup(st.state, LastScreamKey).i * Second
    ensures !Lookup(st.state, LastScreamKey).Int64? ==> t == 0
    ensures t % Second == 0
  {
    match Lookup(st.state, LastScreamKey)
    case Int64(i) => FromUnixSeconds(i)
    case _ => FromUnixSeconds(0)
  }

  /** `SetLastScream`: stores the time's Unix second. */
  function SetLastScream(st: SocketState, t: Time): (r: SocketState)
    ensures r.userId == st.userId && r.ip == st.ip
    ensures r.state.Keys == st.state.Keys + {LastScreamKey}
  {
    st.(state := st.state[LastScreamKey := Int64(UnixSeconds(t))])
  }

  /** The flag reads back as written. */
  lemma CoolDownRoundTrip(st: SocketState, v: bool)
    ensures CoolDownReadable(SetCoolDownMessageSent(st, v))
    ensures GetCoolDownMessageSent(SetCoolDownMessageSent(st, v)) == v
  {
  }

  /** A scream time reads back truncated to its second: never later than
      written, and less than a second earlier. */
  lemma LastScreamRoundTrip(st: SocketState, t: Time)
    ensures GetLastScream(SetLastScream(st, t)) <= t < GetLastScream(SetLastScream(st, t)) + Second
  {
  }

  /** Writing one of the two values leaves the other as it was. */
  lemma StateKeysIndependent(st: SocketState, v: bool, t: Time)
    ensures GetLastScream(SetCoolDownMessageSent(st, v)) == GetLastScream(st)
    ensures CoolDownReadable(st) ==> CoolDownReadable(SetLastScream(st, t))
    ensures CoolDownReadable(st) ==>
      GetCoolDownMessageSent(SetLastScream(st, t)) == GetCoolDownMessageSent(st)
  {
  }
}

=== FILE: validations.dfy ===
/** The gatekeeping of chat/validations.go: the nickname similarity test, the
    checks a registration must pass, and the ordered gate every chat message
    goes through (flood ban, flood cooldown, blocked words, scream timeout)
    before it is accepted with its censored words masked.

    The clock is the parameter `now`. The flood registry is the value of the
    per-IP records; the function that records one message attempt for an IP
    is not part of this model and is the parameter `record`, and so is the
    cooldown length the notice quotes. */
module Validations {
  import opened Wrappers
  import opened Text
  import opened Clock
  import opened ChatSchema
  import opened UserState
  import Dynamic
  import opened Levenshtein
  import Flood
  import Profanity
  import ChatStore

  // ---------------------------------------------------------------------
  // Floating point, as far as the comparisons need it
  // ---------------------------------------------------------------------

  /** A float64 result: a finite value, positive infinity (a positive number
      over zero) or NaN (zero over zero). */
  datatype Float = Finite(v: real) | PosInf | NaN

  /** `float64(x) / float64(y)` on lengths. */
  function Quotient(x: nat, y: nat): (f: Float)
    ensures y == 0 && x == 0 ==> f == NaN
    ensures y == 0 && x > 0 ==> f == PosInf
    ensures y > 0 ==> f.Finite? && f.v * (y as real) == x as real
  {
    if y == 0 then (if x == 0 then NaN else PosInf) else Finite(x as real / y as real)
  }

  function Times100(f: Float): Float {
    match f
    case Finite(v) => Finite(v * 100.0)
    case _ => f
  }

  /** `f >= c`: false for NaN, true for positive infinity. */
  predicate AtLeast(f: Float, c: real) {
    f.PosInf? || (f.Finite? && f.v >= c)
  }

  /** `f <= c`: false for NaN and for positive infinity. */
  predicate AtMost(f: Float, c: real) {
    f.Finite? && f.v <= c
  }

  // ---------------------------------------------------------------------
  // Nickname similarity
  // ---------------------------------------------------------------------

  /** `substringPercentage`: how much of `str` the text `substr` covers, when
      it occurs in it at all. An empty `str` (and so an empty `substr`)
      gives NaN. */
  function SubstringPercentage(str: string, substr: string): (r: Float)
    ensures !Contains(str, substr) ==> r == Finite(0.0)
    ensures Contains(str, substr) && |str| == 0 ==> r == NaN
    ensures Contains(str, substr) && |str| > 0 ==>
      r.Finite? && r.v * (|str| as real) == 100.0 * (|substr| as real)
  {
    if Index(str, substr) == -1 then Finite(0.0)
    else
      assert |substr| <= |str| by { assert OccursAt(str, substr, Index(str, substr)); }
      var q := Quotient(|substr|, |str|);
      assert |str| > 0 ==> q.Finite? && q.v * 100.0 * (|str| as real) == 100.0 * (q.v * (|str| as real));
      Times100(q)
  }

  /** The 70% test on a percentage is the integer test `10 * |substr| >=
      7 * |str|` on an occurring substring of a non-empty text. */
  lemma PercentageThreshold(str: string, substr: string)
    ensures AtLeast(SubstringPercentage(str, substr), 70.0) <==>
      Contains(str, substr) && |str| > 0 && 10 * |substr| >= 7 * |str|
  {
    if Contains(str, substr) {
      assert |substr| <= |str| by { assert OccursAt(str, substr, Index(str, substr)); }
      if |str| > 0 {
        RatioThreshold(|substr|, |str|);
      }
    }
  }

  /** A positive factor keeps the sign of a product. */
  lemma PositiveFactor(y: real, z: real)
    requires z > 0.0
    ensures y >= 0.0 <==> y * z >= 0.0
  {
  }

  /** `(n / l) * 100 >= 70` is `10 * n >= 7 * l` for a positive `l`. */
  lemma RatioThreshold(n: nat, l: nat)
    requires l > 0
    ensures AtLeast(Times100(Quotient(n, l)), 70.0) <==> 10 * n >= 7 * l
  {
    var x := n as real / l as real;
    var y := x * 100.0 - 70.0;
    assert x * (l as real) == n as real;
    assert y * (l as real) == 100.0 * (n as real) - 70.0 * (l as real);
    PositiveFactor(y, l as real);
  }

  /** The distance test `distance / len <= 0.25` is the integer test
      `4 * distance <= len` on a non-empty text; on an empty one the
      quotient is NaN or infinite and the test fails. */
  lemma DistanceThreshold(d: nat, len: nat)
    ensures AtMost(Quotient(d, len), 0.25) <==> len > 0 && 4 * d <= len
  {
    if len > 0 {
      var x := d as real / len as real;
      var y := 0.25 - x;
      assert x * (len as real) == d as real;
      assert y * (len as real) == 0.25 * (len as real) - d as real;
      PositiveFactor(y, len as real);
    }
  }

  /** The characters the pattern `[\s_-]+` removes. */
  predicate IsNickSeparator(c: char) {
    IsRegexSpace(c) || c == '_' || c == '-'
  }

  /** Trimmed, lowered, and with every separator removed. */
  function Normalize(nick: string): (r: string)
    ensures forall i :: 0 <= i < |r| ==> !IsNickSeparator(r[i]) && !IsUpper(r[i])
  {
    var lowered := ToLower(TrimSpace(nick));
    DeleteWhereKeeps(lowered, IsNickSeparator, c => !IsUpper(c));
    DeleteWhere(lowered, IsNickSeparator)
  }

  /** What `IsNickVariation` decides, in integer terms: either normalised
      name covers at least 70% of the other, or the edit distance is at most
      a quarter of the length of the name compared against. */
  predicate NickClose(ni: string, na: string) {
    || (Contains(ni, na) && |ni| > 0 && 10 * |na| >= 7 * |ni|)
    || (Contains(na, ni) && |na| > 0 && 10 * |ni| >= 7 * |na|)
    || (|na| > 0 && 4 * EditDistance(ni, na) <= |na|)
  }

  /** `IsNickVariation`: the float computation of the source, which decides
      exactly the integer relation `NickClose` on the normalised names. */
  function IsNickVariation(input: string, against: string): (r: bool)
    ensures r <==> NickClose(Normalize(input), Normalize(against))
  {
    var ni := Normalize(input);
    var na := Normalize(against);
    var percentA := SubstringPercentage(ni, na);
    var percentB := SubstringPercentage(na, ni);
    ToLowerOfLower(ni);
    ToLowerOfLower(na);
    var distance := EditDistance(ToLower(ni), ToLower(na));
    var distancePercent := Quotient(distance, |na|);
    PercentageThreshold(ni, na);
    PercentageThreshold(na, ni);
    DistanceThreshold(distance, |na|);
    AtLeast(percentA, 70.0) || AtLeast(percentB, 70.0) || AtMost(distancePercent, 0.25)
  }

  /** Two names that normalise to the same non-empty name are variations of
      each other. */
  lemma SameNormalFormIsVariation(input: string, against: string)
    requires Normalize(input) == Normalize(against) && Normalize(input) != ""
    ensures IsNickVariation(input, against)
  {
    ContainsSelf(Normalize(input));
  }

  /** A name that normalises to nothing is a variation of no name, not even
      of itself: every quotient involved is zero, NaN or too large. */
  lemma EmptyNormalFormIsNoVariation(input: string, against: string)
    requires Normalize(input) == ""
    ensures !IsNickVariation(input, against)
  {
    var na := Normalize(against);
    if Contains("", na) {
      assert OccursAt("", na, Index("", na));
    }
    EditDistanceFacts("", na);
  }

  // ---------------------------------------------------------------------
  // Registration checks
  // ---------------------------------------------------------------------

  /** The registration errors, in the order they are checked. */
  datatype UserError = Banned | NoNickname | BadCharacters | TooShort | TooLong | Profane | Taken | LoggedIn

  const CheckOrder: seq<UserError> :=
    [Banned, NoNickname, BadCharacters, TooShort, TooLong, Profane, Taken, LoggedIn]

  /** The text the client is shown for each error. */
  function ErrorText(e: UserError): string {
    match e
    case Banned => "You have been temporarily kicked out for flooding, try again later."
    case NoNickname => "You must provide a Nickname."
    case BadCharacters => "Only alpha-numeric characters, spaces, underscores and dashes are allowed in nicknames."
    case TooShort => "Nickname must be at least 3 characters long."
    case TooLong => "Nickname must be no more than 20 characters long."
    case Profane => "This nickname is not allowed."
    case Taken => "Someone is already using this Nickname, try a different one."
    case LoggedIn => "User already logged in."
  }

  predicate IsNicknameChar(c: char) {
    'a' <= c <= 'z' || 'A' <= c <= 'Z' || IsDigit(c) || IsRegexSpace(c) || c == '_' || c == '-'
  }

  /** `^[a-zA-Z0-9\s_-]+$`. */
  predicate MatchesNicknamePattern(nick: string) {
    |nick| > 0 && forall i :: 0 <= i < |nick| ==> IsNicknameChar(nick[i])
  }

  /** The items whose flags are set, in order. */
  function Select<T>(items: seq<T>, flags: seq<bool>): (r: seq<T>)
    requires |items| == |flags|
    ensures |r| <= |items|
    decreases |items|
  {
    if |items| == 0 then []
    else (if flags[0] then [items[0]] else []) + Select(items[1..], flags[1..])
  }

  /** Exactly the flagged items are selected. */
  lemma {:induction false} SelectMembers<T>(items: seq<T>, flags: seq<bool>)
    requires |items| == |flags|
    ensures forall k :: 0 <= k < |flags| && flags[k] ==> items[k] in Select(items, flags)
    ensures forall x :: x in Select(items, flags) ==> exists k :: 0 <= k < |flags| && flags[k] && items[k] == x
    decreases |items|
  {
    if |items| > 0 {
      SelectMembers(items[1..], flags[1..]);
      var rest := Select(items[1..], flags[1..]);
      var r := Select(items, flags);
      assert r == (if flags[0] then [items[0]] else []) + rest;
      forall k | 0 <= k < |flags| && flags[k] ensures items[k] in r {
        if k > 0 { assert flags[1..][k - 1] == flags[k] && items[1..][k - 1] == items[k]; }
      }
      forall x | x in r ensures exists k :: 0 <= k < |flags| && flags[k] && items[k] == x {
        if !(flags[0] && x == items[0]) {
          assert x in rest;
          var k :| 0 <= k < |flags[1..]| && flags[1..][k] && items[1..][k] == x;
          assert flags[k + 1] && items[k + 1] == x;
        }
      }
    }
  }

  /** The selection is empty exactly when no flag is set, and otherwise it
      starts with the item of the first set flag. */
  lemma {:induction false} SelectFirst<T>(items: seq<T>, flags: seq<bool>)
    requires |items| == |flags|
    ensures Select(items, flags) == [] <==> forall k :: 0 <= k < |flags| ==> !flags[k]
    ensures Select(items, flags) != [] ==>
      (exists k :: 0 <= k < |flags| && flags[k] && Select(items, flags)[0] == items[k] &&
        forall j :: 0 <= j < k ==> !flags[j])
    decreases |items|
  {
    if |items| > 0 {
      SelectFirst(items[1..], flags[1..]);
      var rest := Select(items[1..], flags[1..]);
      var r := Select(items, flags);
      assert r == (if flags[0] then [items[0]] else []) + rest;
      assert forall k :: 1 <= k < |flags| ==> flags[k] == flags[1..][k - 1];
      if !flags[0] && rest != [] {
        var k :| 0 <= k < |flags[1..]| && flags[1..][k] && rest[0] == items[1..][k] &&
          forall j :: 0 <= j < k ==> !flags[1..][j];
        assert flags[k + 1] && r[0] == items[k + 1];
        assert forall j :: 0 <= j < k + 1 ==> !flags[j];
      }
    }
  }

  lemma {:induction false} SelectOnly<T>(items: seq<T>, flags: seq<bool>, x: T)
    requires |items| == |flags|
    ensures x in Select(items, flags) ==> x in items
    decreases |items|
  {
    if |items| > 0 {
      SelectOnly(items[1..], flags[1..], x);
    }
  }

  /** An item that occurs once is selected exactly when its flag is set. */
  lemma {:induction false} SelectAt<T>(items: seq<T>, flags: seq<bool>, k: nat)
    requires |items| == |flags| && k < |items|
    requires forall j :: 0 <= j < |items| && j != k ==> items[j] != items[k]
    ensures items[k] in Select(items, flags) <==> flags[k]
    decreases |items|
  {
    var rest := Select(items[1..], flags[1..]);
    assert Select(items, flags) == (if flags[0] then [items[0]] else []) + rest;
    if k == 0 {
      SelectOnly(items[1..], flags[1..], items[0]);
      forall j | 0 <= j < |items[1..]| ensures items[1..][j] != items[0] {
        assert items[1..][j] == items[j + 1];
      }
    } else {
      assert items[1..][k - 1] == items[k];
      SelectAt(items[1..], flags[1..], k - 1);
    }
  }

  /** With distinct items, an item is selected exactly when its flag is
      set. */
  lemma SelectExact<T>(items: seq<T>, flags: seq<bool>)
    requires |items| == |flags|
    requires forall i, j :: 0 <= i < j < |items| ==> items[i] != items[j]
    ensures forall k :: 0 <= k < |items| ==> (items[k] in Select(items, flags) <==> flags[k])
  {
    forall k | 0 <= k < |items| ensures items[k] in Select(items, flags) <==> flags[k] {
      SelectAt(items, flags, k);
    }
  }

  /** The outcome of the checks that consult other state: the ban on the
      connection's IP, the profanity lists, the nicknames in use and the
      users logged in. */
  datatype Checks = Checks(banned: bool, nickname: string, profane: bool, taken: bool, loggedIn: bool)

  /** Runs those checks for `user`; `ownerNickname` is the configured
      owner's nickname, whose variations are taken. */
  function ChecksOf(ips: Flood.Registry, now: Time, st: SocketState, user: ChatUser,
                    ownerNickname: string, s: ChatStore.Store,
                    blocked: seq<string>, censored: seq<string>): Checks
  {
    Checks(Flood.IsIPBanned(ips, st.ip, now),
           user.nickname,
           Profanity.IsProfaneNickname(blocked, censored, user.nickname),
           IsNickVariation(user.nickname, ownerNickname) || ChatStore.HasUserNickname(s, user.nickname),
           user.id in s.users)
  }

  /** Which checks fail, in `CheckOrder`. */
  function ErrorFlags(c: Checks): (flags: seq<bool>)
    ensures |flags| == |CheckOrder|
  {
    [c.banned, c.nickname == "", !MatchesNicknamePattern(c.nickname), |c.nickname| < 3,
     |c.nickname| > 20, c.profane, c.taken, c.loggedIn]
  }

  /** The errors of a registration, in the order they are checked: each
      error is reported exactly when its check fails. */
  function UserErrors(c: Checks): (r: seq<UserError>)
    ensures Banned in r <==> c.banned
    ensures NoNickname in r <==> c.nickname == ""
    ensures BadCharacters in r <==> !MatchesNicknamePattern(c.nickname)
    ensures TooShort in r <==> |c.nickname| < 3
    ensures TooLong in r <==> |c.nickname| > 20
    ensures Profane in r <==> c.profane
    ensures Taken in r <==> c.taken
    ensures LoggedIn in r <==> c.loggedIn
  {
    var flags := ErrorFlags(c);
    SelectEachCheck(flags);
    Select(CheckOrder, flags)
  }

  /** The position of each error in `CheckOrder`. */
  function Rank(e: UserError): (k: nat)
    ensures k < |CheckOrder| && CheckOrder[k] == e
  {
    match e
    case Banned => 0
    case NoNickname => 1
    case BadCharacters => 2
    case TooShort => 3
    case TooLong => 4
    case Profane => 5
    case Taken => 6
    case LoggedIn => 7
  }

  /** Each error is selected exactly when its check's flag is set. */
  lemma SelectCheckOrder(flags: seq<bool>, e: UserError)
    requires |flags| == |CheckOrder|
    ensures e in Select(CheckOrder, flags) <==> flags[Rank(e)]
  {
    forall j | 0 <= j < |CheckOrder| && j != Rank(e) ensures CheckOrder[j] != e {
      assert Rank(CheckOrder[j]) == j;
    }
    SelectAt(CheckOrder, flags, Rank(e));
  }

  lemma SelectEachCheck(flags: seq<bool>)
    requires |flags| == |CheckOrder|
    ensures var r := Select(CheckOrder, flags);
      && (Banned in r <==> flags[0]) && (NoNickname in r <==> flags[1])
      && (BadCharacters in r <==> flags[2]) && (TooShort in r <==> flags[3])
      && (TooLong in r <==> flags[4]) && (Profane in r <==> flags[5])
      && (Taken in r <==> flags[6]) && (LoggedIn in r <==> flags[7])
  {
    SelectCheckOrder(flags, Banned); SelectCheckOrder(flags, NoNickname); SelectCheckOrder(flags, BadCharacters);
    SelectCheckOrder(flags, TooShort); SelectCheckOrder(flags, TooLong); SelectCheckOrder(flags, Profane);
    SelectCheckOrder(flags, Taken); SelectCheckOrder(flags, LoggedIn);
  }

  /** The texts of `found` appended to `errors`. */
  function AppendErrorTexts(errors: seq<string>, found: seq<UserError>): (r: seq<string>)
    ensures |r| == |errors| + |found|
    ensures r[..|errors|] == errors
    ensures forall k :: 0 <= k < |found| ==> r[|errors| + k] == ErrorText(found[k])
  {
    errors + seq(|found|, k requires 0 <= k < |found| => ErrorText(found[k]))
  }

  /** `ValidateUser`: appends the text of every registration error, in
      order, to `errors`. The caller's errors stay in front; nothing is
      added exactly when every check passes, and a banned connection's
      first new error is the ban. */
  function ValidateUser(ips: Flood.Registry, now: Time, st: SocketState, user: ChatUser,
                        ownerNickname: string, s: ChatStore.Store,
                        blocked: seq<string>, censored: seq<string>, errors: seq<string>): (r: seq<string>)
    ensures var found := UserErrors(ChecksOf(ips, now, st, user, ownerNickname, s, blocked, censored));
      && |r| == |errors| + |found| && r[..|errors|] == errors
      && forall k :: 0 <= k < |found| ==> r[|errors| + k] == ErrorText(found[k])
    ensures var c := ChecksOf(ips, now, st, user, ownerNickname, s, blocked, censored);
      r == errors <==>
        !c.banned && MatchesNicknamePattern(c.nickname) && 3 <= |c.nickname| <= 20 &&
        !c.profane && !c.taken && !c.loggedIn
    ensures ChecksOf(ips, now, st, user, ownerNickname, s, blocked, censored).banned ==>
      |r| > |errors| && r[|errors|] == ErrorText(Banned)
  {
    var c := ChecksOf(ips, now, st, user, ownerNickname, s, blocked, censored);
    ErrorTextsOfChecks(c, errors);
    AppendErrorTexts(errors, UserErrors(c))
  }

  lemma ErrorTextsOfChecks(c: Checks, errors: seq<string>)
    ensures var r := AppendErrorTexts(errors, UserErrors(c));
      && (r == errors <==>
            !c.banned && MatchesNicknamePattern(c.nickname) && 3 <= |c.nickname| <= 20 &&
            !c.profane && !c.taken && !c.loggedIn)
      && (c.banned ==> |r| > |errors| && r[|errors|] == ErrorText(Banned))
  {
    UserAcceptedIffClean(c);
    FirstUserError(c);
  }

  /** Only the first error is ever shown to the client, so the order
      matters: a banned connection is told about the ban first, and
      otherwise an empty nickname is reported before anything else. */
  lemma FirstUserError(c: Checks)
    ensures c.banned ==> UserErrors(c) != [] && UserErrors(c)[0] == Banned
    ensures !c.banned && c.nickname == "" ==> UserErrors(c) != [] && UserErrors(c)[0] == NoNickname
  {
    var flags := ErrorFlags(c);
    var r := UserErrors(c);
    SelectFirst(CheckOrder, flags);
    if c.banned || c.nickname == "" {
      assert flags[0] || flags[1];
      var k :| 0 <= k < |flags| && flags[k] && r[0] == CheckOrder[k] &&
        forall j :: 0 <= j < k ==> !flags[j];
      if c.banned { assert k == 0; } else { assert k == 1; }
    }
  }

  /** A registration passes exactly when no check fails. */
  lemma UserAcceptedIffClean(c: Checks)
    ensures UserErrors(c) == [] <==>
      !c.banned && MatchesNicknamePattern(c.nickname) && 3 <= |c.nickname| <= 20 &&
      !c.profane && !c.taken && !c.loggedIn
  {
    SelectFirst(CheckOrder, ErrorFlags(c));
  }

  // ---------------------------------------------------------------------
  // The message gate
  // ---------------------------------------------------------------------

  /** What the gate answers: the message to post, if any, with the
      connection state and the flood registry afterwards. */
  datatype Verdict = Verdict(reply: Option<ChatMessage>, state: SocketState, ips: Flood.Registry)

  const KickText: string := "{nickname} was kicked for flooding the channel too many times."
  const NiceText: string := "Come on {nickname}! Let's be nice! This is a place for having fun!"

  function CooldownText(cooldownSec: nat): string {
    "Hey {nickname}, chill out, you'll be able to send messages again " + IntToString(cooldownSec / 60) +
    " minutes after your last message attempt."
  }

  function ScreamText(): string {
    "Hi {nickname}, you're only allowed to scream once every " + IntToString(UserScreamTimeoutMin) + " minutes."
  }

  /** The public notice that `user` was kicked. */
  function KickNotice(room: ChatRoom, user: ChatUser, now: Time): ChatMessage {
    ChatMessage(room.id, now, KickText, "", "", false, ModeSayTo, true, Some(user), false, [])
  }

  /** A system notice only `user` sees. */
  function PrivateNotice(room: ChatRoom, user: ChatUser, text: string, now: Time): ChatMessage {
    ChatMessage(room.id, now, text, "", user.id, true, ModeSayTo, true, Some(user), false, [user])
  }

  /** The checks before any flood accounting: a known room, a sender among
      the involved users, and a text that is not blank. */
  predicate Admitted(s: ChatStore.Store, m: ChatMessage) {
    m.roomId in s.rooms && GetFrom(m).Some? && TrimSpace(m.message) != ""
  }

  /** The sender may not scream yet. */
  predicate ScreamTooSoon(st: SocketState, m: ChatMessage, now: Time) {
    WithinMinutes(now, GetLastScream(st), UserScreamTimeoutMin) && m.speechMode == ModeScreamAt
  }

  /** The accepted message: the sender's text with censored words masked,
      involving the sender and, when known, the addressee. */
  function Accepted(s: ChatStore.Store, censored: seq<string>, room: ChatRoom, user: ChatUser,
                    m: ChatMessage, now: Time): (r: ChatMessage)
    ensures !r.isSystemMessage && r.from == user.id && r.to == m.to
    ensures r.privately == m.privately && r.speechMode == m.speechMode
    ensures r.message == Profanity.ReplaceSensoredProfanity(censored, m.message)
    ensures |r.involvedUsers| >= 1 && r.involvedUsers[0] == user
    ensures |r.involvedUsers| == 2 <==> m.to in s.users
    ensures |r.involvedUsers| == 2 ==> r.involvedUsers[1] == s.users[m.to]
  {
    var involved := [user] + match ChatStore.GetUser(s, m.to) case Some(u) => [u] case None => [];
    ChatMessage(room.id, now, Profanity.ReplaceSensoredProfanity(censored, m.message), user.id, m.to,
                m.privately, m.speechMode, false, None, false, involved)
  }

  /** The checks after the flood gate let a message through: blocked words,
      then the scream timeout; otherwise the message is accepted and a scream
      stamps its second. `st` is the state with the cooldown flag reset. */
  function ContentGate(st: SocketState, s: ChatStore.Store, blocked: seq<string>, censored: seq<string>,
                       room: ChatRoom, user: ChatUser, m: ChatMessage, now: Time): (r: (Option<ChatMessage>, SocketState))
    requires CoolDownReadable(st) && !GetCoolDownMessageSent(st)
    ensures CoolDownReadable(r.1) && !GetCoolDownMessageSent(r.1)
    ensures r.1.ip == st.ip && r.1.userId == st.userId
    ensures r.0.Some?
    ensures !r.0.value.isSystemMessage <==> !Profanity.HasBlockedWords(blocked, m.message) && !ScreamTooSoon(st, m, now)
    ensures !r.0.value.isSystemMessage ==> r.0.value == Accepted(s, censored, room, user, m, now)
    ensures r.0.value.isSystemMessage ==> r.0.value.from == "" && r.0.value.systemMessageSubject == Some(user) && r.1 == st
    ensures !r.0.value.isSystemMessage && m.speechMode == ModeScreamAt ==>
      Dynamic.Lookup(r.1.state, LastScreamKey) == Dynamic.Int64(UnixSeconds(now))
  {
    if Profanity.HasBlockedWords(blocked, m.message) then
      (Some(PrivateNotice(room, user, NiceText, now)), st)
    else if ScreamTooSoon(st, m, now) then
      (Some(PrivateNotice(room, user, ScreamText(), now)), st)
    else
      var st1 := if m.speechMode == ModeScreamAt then SetLastScream(st, now) else st;
      (Some(Accepted(s, censored, room, user, m, now)), st1)
  }

  /** `ValidateMessage`. `record` counts one message attempt of an IP in the
      registry; `cooldownSec` is the cooldown length the notice quotes. */
  function ValidateMessage(st: SocketState, s: ChatStore.Store, ips: Flood.Registry,
                           record: (Flood.Registry, string, Time) -> Flood.Registry,
                           blocked: seq<string>, censored: seq<string>, cooldownSec: nat,
                           m: ChatMessage, now: Time): (v: Verdict)
    requires CoolDownReadable(st)
    ensures CoolDownReadable(v.state) && v.state.ip == st.ip && v.state.userId == st.userId
    ensures !Admitted(s, m) ==> v == Verdict(None, st, ips)
    ensures Admitted(s, m) ==> v.ips == record(ips, st.ip, now)
    ensures Admitted(s, m) && Flood.IsIPBanned(v.ips, st.ip, now) ==>
      v.reply == Some(KickNotice(s.rooms[m.roomId], GetFrom(m).value, now)) && v.state == st
    ensures Admitted(s, m) && !Flood.IsIPBanned(v.ips, st.ip, now) && Flood.IsCooldownPeriod(v.ips, st.ip, now) ==>
      && (GetCoolDownMessageSent(st) ==> v.reply.None? && v.state == st)
      && (!GetCoolDownMessageSent(st) ==>
            && v.reply == Some(PrivateNotice(s.rooms[m.roomId], GetFrom(m).value, CooldownText(cooldownSec), now))
            && GetCoolDownMessageSent(v.state))
    ensures Admitted(s, m) && !Flood.IsIPBanned(v.ips, st.ip, now) && !Flood.IsCooldownPeriod(v.ips, st.ip, now) ==>
      && !GetCoolDownMessageSent(v.state)
      && (v.reply, v.state) == ContentGate(SetCoolDownMessageSent(st, false), s, blocked, censored,
                                           s.rooms[m.roomId], GetFrom(m).value, m, now)
    ensures v.reply.Some? && !v.reply.value.isSystemMessage ==>
      Admitted(s, m) && !Flood.IsIPBanned(v.ips, st.ip, now) && !Flood.IsCooldownPeriod(v.ips, st.ip, now)
    ensures v.reply.Some? && v.reply.value.isSystemMessage ==>
      v.reply.value.from == "" && v.reply.value.systemMessageSubject == GetFrom(m)
  {
    if m.roomId !in s.rooms then Verdict(None, st, ips)
    else
      var room := s.rooms[m.roomId];
      match GetFrom(m)
      case None => Verdict(None, st, ips)
      case Some(user) =>
        if |TrimSpace(m.message)| == 0 then Verdict(None, st, ips)
        else
          var ips1 := record(ips, st.ip, now);
          if Flood.IsIPBanned(ips1, st.ip, now) then
            Verdict(Some(KickNotice(room, user, now)), st, ips1)
          else if Flood.IsCooldownPeriod(ips1, st.ip, now) then
            if GetCoolDownMessageSent(st) then Verdict(None, st, ips1)
            else
              Verdict(Some(PrivateNotice(room, user, CooldownText(cooldownSec), now)),
                      SetCoolDownMessageSent(st, true), ips1)
          else
            var st1 := SetCoolDownMessageSent(st, false);
            var r := ContentGate(st1, s, blocked, censored, room, user, m, now);
            Verdict(r.0, r.1, ips1)
  }

  /** What an accepted message satisfies: it passed every gate and is the
      sender's text with censored words masked; an accepted scream stamps
      the connection's last scream with its second. */
  lemma AcceptedPassedEveryGate(st: SocketState, s: ChatStore.Store, ips: Flood.Registry,
                                record: (Flood.Registry, string, Time) -> Flood.Registry,
                                blocked: seq<string>, censored: seq<string>, cooldownSec: nat,
                                m: ChatMessage, now: Time)
    requires CoolDownReadable(st)
    requires var v := ValidateMessage(st, s, ips, record, blocked, censored, cooldownSec, m, now);
      v.reply.Some? && !v.reply.value.isSystemMessage
    ensures var v := ValidateMessage(st, s, ips, record, blocked, censored, cooldownSec, m, now);
      && Admitted(s, m)
      && !Flood.IsIPBanned(v.ips, st.ip, now) && !Flood.IsCooldownPeriod(v.ips, st.ip, now)
      && !Profanity.HasBlockedWords(blocked, m.message)
      && !ScreamTooSoon(st, m, now)
      && v.reply.value == Accepted(s, censored, s.rooms[m.roomId], GetFrom(m).value, m, now)
      && (m.speechMode == ModeScreamAt ==>
            Dynamic.Lookup(v.state.state, LastScreamKey) == Dynamic.Int64(UnixSeconds(now)))
  {
    StateKeysIndependent(st, false, now);
  }
  /** The cooldown notice is shown once: the connection that was just told
      to cool down gets no answer at all while the cooldown lasts. */
  lemma CooldownNoticeOnce(st: SocketState, s: ChatStore.Store, ips: Flood.Registry,
                           record: (Flood.Registry, string, Time) -> Flood.Registry,
                           blocked: seq<string>, censored: seq<string>, cooldownSec: nat,
                           m1: ChatMessage, now1: Time, m2: ChatMessage, now2: Time)
    requires CoolDownReadable(st) && !GetCoolDownMessageSent(st)
    requires var v1 := ValidateMessage(st, s, ips, record, blocked, censored, cooldownSec, m1, now1);
      Admitted(s, m1) && !Flood.IsIPBanned(v1.ips, st.ip, now1) && Flood.IsCooldownPeriod(v1.ips, st.ip, now1)
    ensures var v1 := ValidateMessage(st, s, ips, record, blocked, censored, cooldownSec, m1, now1);
      && v1.reply.Some? && v1.reply.value.privately && v1.reply.value.to == m1.from
      && var v2 := ValidateMessage(v1.state, s, v1.ips, record, blocked, censored, cooldownSec, m2, now2);
         (Flood.IsCooldownPeriod(v2.ips, st.ip, now2) && !Flood.IsIPBanned(v2.ips, st.ip, now2) ==> v2.reply.None?)
  {
  }

  /** No two screams are accepted within the scream timeout: after an
      accepted scream, a scream less than the timeout minus a second later
      is turned away (the stored time is truncated to its second). */
  lemma ScreamOncePerTimeout(st: SocketState, s: ChatStore.Store, ips: Flood.Registry,
                             record: (Flood.Registry, string, Time) -> Flood.Registry,
                             blocked: seq<string>, censored: seq<string>, cooldownSec: nat,
                             m1: ChatMessage, now1: Time, m2: ChatMessage, now2: Time)
    requires CoolDownReadable(st)
    requires now1 <= now2 <= now1 + UserScreamTimeoutMin * Minute - Second
    requires var v1 := ValidateMessage(st, s, ips, record, blocked, censored, cooldownSec, m1, now1);
      v1.reply.Some? && !v1.reply.value.isSystemMessage && m1.speechMode == ModeScreamAt
    ensures var v1 := ValidateMessage(st, s, ips, record, blocked, censored, cooldownSec, m1, now1);
      var v2 := ValidateMessage(v1.state, s, v1.ips, record, blocked, censored, cooldownSec, m2, now2);
      v2.reply.Some? && !v2.reply.value.isSystemMessage ==> m2.speechMode != ModeScreamAt
  {
    var v1 := ValidateMessage(st, s, ips, record, blocked, censored, cooldownSec, m1, now1);
    var last := GetLastScream(v1.state);
    assert last == UnixSeconds(now1) * Second;
    assert now1 - Second < last <= now1;
  }
}

=== FILE: wire.dfy ===
/** The raw-socket codec (sockets/protocol.go): a four-byte header carrying
    the message type and the payload length as big-endian 16-bit numbers,
    followed by a payload of space-separated fields in `fieldOrder` order.
    Fields that are empty or contain a space travel in double quotes. */
module Wire {
  import opened Wrappers
  import opened Text
  import opened Schema

  newtype byte = b: int | 0 <= b < 256

  // ---------------------------------------------------------------------
  // Bytes and 16-bit numbers
  // ---------------------------------------------------------------------

  /** `binary.BigEndian.Uint16`. */
  function BigEndianUint16(hi: byte, lo: byte): (r: nat)
    ensures r < 65536
  {
    hi as int * 256 + lo as int
  }

  /** `binary.BigEndian.PutUint16(b, uint16(v))`: the conversion to `uint16`
      keeps the low sixteen bits of `v`. */
  function PutUint16(v: int): (r: seq<byte>)
    ensures |r| == 2
    ensures BigEndianUint16(r[0], r[1]) == v % 65536
  {
    var u := v % 65536;
    [(u / 256) as byte, (u % 256) as byte]
  }

  /** A Go string is a sequence of bytes; the model's characters stand for
      them, so a string that came off the wire has no character above 255. */
  predicate IsByteString(s: string) {
    forall i :: 0 <= i < |s| ==> s[i] as int < 256
  }

  /** `[]byte(s)`. */
  function StringBytes(s: string): (r: seq<byte>)
    ensures |r| == |s|
  {
    seq(|s|, i requires 0 <= i < |s| => (s[i] as int % 256) as byte)
  }

  /** `string(b)`. */
  function BytesString(b: seq<byte>): (r: string)
    ensures |r| == |b|
    ensures IsByteString(r)
  {
    seq(|b|, i requires 0 <= i < |b| => b[i] as int as char)
  }

  lemma BytesOfByteString(s: string)
    requires IsByteString(s)
    ensures BytesString(StringBytes(s)) == s
  {
  }

  // ---------------------------------------------------------------------
  // Frame header
  // ---------------------------------------------------------------------

  datatype Frame = Frame(msgType: nat, length: nat, content: string)

  /** `determineMessageType`: splits a received frame into type, declared
      length and payload. Bytes beyond the declared length are not part of
      the payload. */
  function DetermineMessageType(message: seq<byte>): (r: Result<Frame, string>)
    ensures |message| < 4 <==> r == Failure("message too short")
    ensures r.Success? ==>
      && r.value.msgType == BigEndianUint16(message[0], message[1])
      && r.value.length == BigEndianUint16(message[2], message[3])
      && 4 + r.value.length <= |message|
      && r.value.content == BytesString(message[4..4 + r.value.length])
    ensures r == Failure("message length mismatch") <==>
      |message| >= 4 && |message| - 4 < BigEndianUint16(message[2], message[3])
  {
    if |message| < 4 then Failure("message too short")
    else
      var msgType := BigEndianUint16(message[0], message[1]);
      var contentLength := BigEndianUint16(message[2], message[3]);
      if |message| - 4 < contentLength then Failure("message length mismatch")
      else Success(Frame(msgType, contentLength, BytesString(message[4..4 + contentLength])))
  }

  /** The framing half of `SerializeMessage`: type, length, payload. */
  function EncodeFrame(msgType: int, content: string): (r: seq<byte>)
    ensures |r| == 4 + |content|
    ensures r[4..] == StringBytes(content)
  {
    PutUint16(msgType) + PutUint16(|content|) + StringBytes(content)
  }

  /** Decoding an encoded frame recovers the type and the payload, up to the
      truncation of type and length to sixteen bits. */
  lemma DecodeEncodeFrame(msgType: int, content: string)
    requires IsByteString(content)
    ensures DetermineMessageType(EncodeFrame(msgType, content)) ==
      Success(Frame(msgType % 65536, |content| % 65536, content[..|content| % 65536]))
  {
    var f := EncodeFrame(msgType, content);
    var n := |content| % 65536;
    FrameHeader(msgType, content);
    FramePayload(msgType, content, n);
    assert 4 + n <= |f|;
  }

  /** The four header bytes of an encoded frame carry the truncated type
      and length. */
  lemma FrameHeader(msgType: int, content: string)
    ensures var f := EncodeFrame(msgType, content);
      BigEndianUint16(f[0], f[1]) == msgType % 65536 && BigEndianUint16(f[2], f[3]) == |content| % 65536
  {
    var f := EncodeFrame(msgType, content);
    var a, b := PutUint16(msgType), PutUint16(|content|);
    assert f == a + b + StringBytes(content);
    assert f[0] == a[0] && f[1] == a[1] && f[2] == b[0] && f[3] == b[1];
  }

  /** Any prefix of an encoded payload reads back as the same prefix of the
      string. */
  lemma FramePayload(msgType: int, content: string, n: nat)
    requires IsByteString(content) && n <= |content|
    ensures BytesString(EncodeFrame(msgType, content)[4..4 + n]) == content[..n]
  {
    var f := EncodeFrame(msgType, content);
    assert f[4..4 + n] == f[4..][..n];
    StringBytesPrefix(content, n);
    assert IsByteString(content[..n]) by {
      forall i | 0 <= i < n ensures content[..n][i] as int < 256 {
        assert content[..n][i] == content[i];
      }
    }
    BytesOfByteString(content[..n]);
  }

  lemma StringBytesPrefix(s: string, n: nat)
    requires n <= |s|
    ensures StringBytes(s)[..n] == StringBytes(s[..n])
  {
    forall i | 0 <= i < n ensures StringBytes(s)[..n][i] == StringBytes(s[..n])[i] {
      assert s[..n][i] == s[i];
    }
  }

  /** Within sixteen bits the frame round trip is exact. */
  lemma DecodeEncodeFrameExact(msgType: int, content: string)
    requires IsByteString(content)
    requires 0 <= msgType < 65536 && |content| < 65536
    ensures DetermineMessageType(EncodeFrame(msgType, content)) ==
      Success(Frame(msgType, |content|, content))
  {
    DecodeEncodeFrame(msgType, content);
    assert content[..|content|] == content;
  }

  /** Whatever follows a complete frame does not change how it decodes. */
  lemma TrailingBytesIgnored(message: seq<byte>, extra: seq<byte>)
    requires DetermineMessageType(message).Success?
    ensures DetermineMessageType(message + extra) == DetermineMessageType(message)
  {
    var m := message + extra;
    assert m[0] == message[0] && m[1] == message[1];
    assert m[2] == message[2] && m[3] == message[3];
    var len := BigEndianUint16(message[2], message[3]);
    assert m[4..4 + len] == message[4..4 + len];
  }

  // ---------------------------------------------------------------------
  // Field encoding
  // ---------------------------------------------------------------------

  /** A slice element is quoted when its first space is not at position 0. */
  function QuoteItem(v: string): string {
    if Index(v, " ") > 0 then "\"" + v + "\"" else v
  }

  function QuoteItems(items: seq<string>): (r: seq<string>)
    ensures |r| == |items|
    ensures forall i :: 0 <= i < |items| ==> r[i] == QuoteItem(items[i])
  {
    seq(|items|, i requires 0 <= i < |items| => QuoteItem(items[i]))
  }

  /** `stringifyValue`: integers in decimal, slices as `[]` followed by
      their comma-separated elements. */
  function StringifyValue(v: FieldValue): string {
    match v
    case Str(s) => s
    case I32(i) => IntToString(i)
    case StrList(items) => "[]" + Join(QuoteItems(items), ",")
  }

  /** The quoting rule of `ExtractFromInterface`, applied to a trimmed value:
      quote it when it is empty, or when it contains a space after its first
      character and is not a slice. */
  function QuoteField(t: string): (r: string)
    ensures r == t || r == "\"" + t + "\""
    ensures |t| == 0 ==> r == "\"\""
  {
    if (|t| > 1 && t[..2] != "[]" && Index(t, " ") > 0) || |t| <= 0 then "\"" + t + "\"" else t
  }

  /** The per-field step of `ExtractFromInterface`: trim spaces, then quote. */
  function EncodeField(v: FieldValue): string {
    QuoteField(TrimSpaces(StringifyValue(v)))
  }

  /** Storing each encoded field at the slot its tag names. */
  function Place(fields: seq<string>, tags: seq<nat>, encoded: seq<string>): (r: seq<string>)
    requires |tags| == |encoded|
    requires forall i :: 0 <= i < |tags| ==> tags[i] < |fields|
    ensures |r| == |fields|
    decreases |tags|
  {
    if |tags| == 0 then fields
    else Place(fields[tags[0] := encoded[0]], tags[1..], encoded[1..])
  }

  /** With distinct tags every field lands at its own slot, and slots no tag
      names keep their initial content. */
  lemma {:induction false} PlaceStoresAtTag(fields: seq<string>, tags: seq<nat>, encoded: seq<string>)
    requires |tags| == |encoded|
    requires forall i :: 0 <= i < |tags| ==> tags[i] < |fields|
    requires forall i, j :: 0 <= i < j < |tags| ==> tags[i] != tags[j]
    ensures forall i :: 0 <= i < |tags| ==> Place(fields, tags, encoded)[tags[i]] == encoded[i]
    ensures forall k :: 0 <= k < |fields| && k !in tags ==> Place(fields, tags, encoded)[k] == fields[k]
    decreases |tags|
  {
    if |tags| > 0 {
      var f' := fields[tags[0] := encoded[0]];
      PlaceStoresAtTag(f', tags[1..], encoded[1..]);
      var r := Place(fields, tags, encoded);
      assert r == Place(f', tags[1..], encoded[1..]);
      forall i | 0 <= i < |tags|
        ensures r[tags[i]] == encoded[i]
      {
        if i == 0 {
          assert tags[0] !in tags[1..] by {
            forall j | 0 <= j < |tags[1..]| ensures tags[1..][j] != tags[0] {
              assert tags[1..][j] == tags[j + 1];
            }
          }
        } else {
          assert tags[1..][i - 1] == tags[i];
        }
      }
      forall k | 0 <= k < |fields| && k !in tags
        ensures r[k] == fields[k]
      {
        assert k !in tags[1..] by {
          forall j | 0 <= j < |tags[1..]| ensures tags[1..][j] != k {
            assert tags[1..][j] == tags[j + 1];
          }
        }
      }
    }
  }

  function EncodeAll(vs: seq<FieldValue>): (r: seq<string>)
    ensures |r| == |vs|
    ensures forall i :: 0 <= i < |vs| ==> r[i] == EncodeField(vs[i])
  {
    seq(|vs|, i requires 0 <= i < |vs| => EncodeField(vs[i]))
  }

  /** `ExtractFromInterface`: the encoded fields, each stored at the index
      given by its tag. */
  function ExtractFromInterface(m: WireMessage): (r: seq<string>)
    ensures |r| == |Values(m)|
    ensures forall i :: 0 <= i < |Values(m)| ==> r[Tags(m)[i]] == EncodeField(Values(m)[i])
  {
    TagsAreDeclarationOrder(m);
    var encoded := EncodeAll(Values(m));
    PlaceInOrder(seq(|encoded|, _ => ""), Tags(m), encoded);
    Place(seq(|encoded|, _ => ""), Tags(m), encoded)
  }

  /** Tags that count up from zero place each field at its own position. */
  lemma PlaceInOrder(fields: seq<string>, tags: seq<nat>, encoded: seq<string>)
    requires |tags| == |encoded| == |fields|
    requires forall i :: 0 <= i < |tags| ==> tags[i] == i
    ensures forall i :: 0 <= i < |tags| ==> Place(fields, tags, encoded)[tags[i]] == encoded[i]
  {
    PlaceStoresAtTag(fields, tags, encoded);
  }

  /** Since every tag equals its field's position, the payload lists the
      encoded fields in declaration order. */
  lemma ExtractInDeclarationOrder(m: WireMessage)
    ensures ExtractFromInterface(m) == EncodeAll(Values(m))
  {
    TagsAreDeclarationOrder(m);
  }

  /** `SerializeObject`: the fields joined by single spaces. When every
      field is safe on the wire, the tokenizer splits the payload back into
      the fields' texts, in declaration order. */
  function SerializeObject(m: WireMessage): (r: string)
    ensures (forall i :: 0 <= i < |Values(m)| ==> FieldSafe(Values(m)[i])) ==> Tokenize(r, 0) == FieldTexts(Values(m))
  {
    var r := Join(ExtractFromInterface(m), " ");
    if forall i :: 0 <= i < |Values(m)| ==> FieldSafe(Values(m)[i]) then
      SerializedTokens(m);
      r
    else r
  }

  /** `SerializeMessage`: a header and the serialized object. A code and a
      payload that fit in 16 bits come back unchanged from the decoder. */
  function SerializeMessage(msgType: int, m: WireMessage): (r: seq<byte>)
    ensures |r| == 4 + |SerializeObject(m)|
    ensures IsByteString(SerializeObject(m)) && 0 <= msgType < 65536 && |SerializeObject(m)| < 65536 ==>
      DetermineMessageType(r) == Success(Frame(msgType, |SerializeObject(m)|, SerializeObject(m)))
  {
    var p := SerializeObject(m);
    if IsByteString(p) && 0 <= msgType < 65536 && |p| < 65536 then
      DecodeEncodeFrameExact(msgType, p);
      EncodeFrame(msgType, p)
    else EncodeFrame(msgType, p)
  }

  // ---------------------------------------------------------------------
  // Payload tokenizer
  // ---------------------------------------------------------------------

  // The decoder splits the payload with the regular expression
  //   (?:^|\s)((?:(?:\\"|")(?P<val1>(?:|[^\\"])+)?(?:\\"|"))|(?P<val2>[^\s"]+))
  // scanned left to right for successive non-overlapping leftmost-first
  // matches. Each match is a start of text or one white-space character,
  // then either a quoted value (opening `"` or `\"`, a run without `\` or
  // `"`, closing `"` or `\"`) or a bare run without white space or `"`.

  datatype Match = Match(value: string, end: nat)

  predicate IsQuoteOrBackslash(c: char) { c == '"' || c == '\\' }

  predicate IsBareChar(c: char) { !IsRegexSpace(c) && c != '"' }

  /** The first position at or after `k` holding a quote or a backslash. */
  function NextSpecial(s: string, k: nat): (r: nat)
    requires k <= |s|
    ensures k <= r <= |s|
    ensures r < |s| ==> IsQuoteOrBackslash(s[r])
    ensures forall x :: k <= x < r ==> !IsQuoteOrBackslash(s[x])
    decreases |s| - k
  {
    if k == |s| || IsQuoteOrBackslash(s[k]) then k else NextSpecial(s, k + 1)
  }

  /** The end of the run of bare characters starting at `k`. */
  function BareRunEnd(s: string, k: nat): (r: nat)
    requires k <= |s|
    ensures k <= r <= |s|
    ensures r < |s| ==> !IsBareChar(s[r])
    ensures forall x :: k <= x < r ==> IsBareChar(s[x])
    decreases |s| - k
  {
    if k == |s| || !IsBareChar(s[k]) then k else BareRunEnd(s, k + 1)
  }

  function MatchQuoted(s: string, j: nat): (r: Option<Match>)
    requires j <= |s|
    ensures r.Some? ==> j < r.value.end <= |s|
  {
    var open :=
      if j + 1 < |s| && s[j] == '\\' && s[j + 1] == '"' then 2
      else if j < |s| && s[j] == '"' then 1
      else 0;
    if open == 0 then None
    else
      var k := NextSpecial(s, j + open);
      if k == |s| then None
      else if s[k] == '\\' then
        (if k + 1 < |s| && s[k + 1] == '"' then Some(Match(s[j + open..k], k + 2)) else None)
      else Some(Match(s[j + open..k], k + 1))
  }

  function MatchBare(s: string, j: nat): (r: Option<Match>)
    requires j <= |s|
    ensures r.Some? ==> j < r.value.end <= |s|
  {
    var e := BareRunEnd(s, j);
    if e == j then None else Some(Match(s[j..e], e))
  }

  /** The capturing group: a quoted value is preferred to a bare one. */
  function MatchGroup(s: string, j: nat): (r: Option<Match>)
    requires j <= |s|
    ensures r.Some? ==> j < r.value.end <= |s|
  {
    match MatchQuoted(s, j)
    case Some(m) => Some(m)
    case None => MatchBare(s, j)
  }

  /** A match starting at position `i`: `^` is only available at 0 and is
      tried before a white-space character. */
  function MatchAt(s: string, i: nat): (r: Option<Match>)
    requires i < |s|
    ensures r.Some? ==> i < r.value.end <= |s|
  {
    if i == 0 then
      match MatchGroup(s, 0)
      case Some(m) => Some(m)
      case None => if IsRegexSpace(s[0]) then MatchGroup(s, 1) else None
    else if IsRegexSpace(s[i]) then MatchGroup(s, i + 1)
    else None
  }

  /** The values of all successive matches from position `p` on. */
  function Tokenize(s: string, p: nat): seq<string>
    requires p <= |s|
    decreases |s| - p
  {
    if p == |s| then []
    else match MatchAt(s, p)
      case Some(m) => [m.value] + Tokenize(s, m.end)
      case None => Tokenize(s, p + 1)
  }

  // ---------------------------------------------------------------------
  // Decoding into a structure
  // ---------------------------------------------------------------------

  /** Truncation to a signed 32-bit integer, as `reflect.Value.SetInt` does
      for an `int32` field. */
  function WrapInt32(n: int): (r: int)
    ensures -0x8000_0000 <= r < 0x8000_0000
    ensures -0x8000_0000 <= n < 0x8000_0000 ==> r == n
  {
    (n + 0x8000_0000) % 0x1_0000_0000 - 0x8000_0000
  }

  /** `parseAndSet`: strings take the token, integers take it when it parses
      (and are left alone otherwise); slices cannot be set. */
  function ParseAndSet(current: FieldValue, token: string): (r: FieldValue)
    ensures SameKind(r, current)
  {
    match current
    case Str(_) => Str(token)
    case I32(_) =>
      (match ParseInt64(token)
       case Some(n) => I32(WrapInt32(n))
       case None => current)
    case StrList(_) => current
  }

  /** `injectIntoInterface`: field `i` takes the token at index `tags[i]`;
      a tag beyond the token list is an index-out-of-range panic. */
  function Inject(vals: seq<FieldValue>, tags: seq<nat>, tokens: seq<string>): (r: Result<seq<FieldValue>, string>)
    requires |tags| == |vals|
    ensures r.Failure? <==> exists i :: 0 <= i < |tags| && tags[i] >= |tokens|
    ensures r.Success? ==> |r.value| == |vals|
    ensures r.Success? ==>
      forall i :: 0 <= i < |vals| ==> r.value[i] == ParseAndSet(vals[i], tokens[tags[i]])
  {
    if exists i :: 0 <= i < |tags| && tags[i] >= |tokens| then Failure("index out of range")
    else Success(seq(|vals|, i requires 0 <= i < |vals| => ParseAndSet(vals[i], tokens[tags[i]])))
  }

  /** `DeserializeMessage`: fill a structure of the template's type from a
      payload. */
  function DeserializeMessage(template: WireMessage, msg: string): (r: Result<WireMessage, string>)
    ensures r.Failure? <==> |Tokenize(msg, 0)| < |Values(template)|
    ensures r.Success? ==> Tags(r.value) == Tags(template)
    ensures r.Success? ==> Kind(r.value) == Kind(template)
  {
    var tokens := Tokenize(msg, 0);
    var vals := Values(template);
    var tags := Tags(template);
    TagsAreDeclarationOrder(template);
    assert |tokens| < |vals| ==> tags[|tokens|] >= |tokens|;
    match Inject(vals, tags, tokens)
    case Failure(e) => Failure(e)
    case Success(vs) => Success(Rebuild(template, vs))
  }

  // ---------------------------------------------------------------------
  // Round trip
  // ---------------------------------------------------------------------

  /** A string field survives encoding and decoding when, once trimmed, it has
      no quote, no backslash, no white space other than the plain space, and
      does not begin with the slice marker `[]`. */
  predicate WireSafe(s: string) {
    var t := TrimSpaces(s);
    && (forall i :: 0 <= i < |t| ==> !IsQuoteOrBackslash(t[i]) && (t[i] == ' ' || !IsRegexSpace(t[i])))
    && !HasPrefix(t, "[]")
  }

  predicate FieldSafe(v: FieldValue) {
    match v
    case Str(s) => WireSafe(s)
    case I32(i) => -0x8000_0000 <= i < 0x8000_0000
    case StrList(_) => false
  }

  /** What a safe field decodes to: strings lose their outer spaces. */
  function Decoded(v: FieldValue): FieldValue {
    match v
    case Str(s) => Str(TrimSpaces(s))
    case _ => v
  }

  /** The text the decoder recovers from a safe field. */
  function FieldText(v: FieldValue): string {
    TrimSpaces(StringifyValue(v))
  }

  predicate NoSpecial(f: string) {
    forall i :: 0 <= i < |f| ==> !IsQuoteOrBackslash(f[i])
  }

  predicate IsBare(e: string) {
    |e| >= 1 && forall i :: 0 <= i < |e| ==> IsBareChar(e[i]) && !IsQuoteOrBackslash(e[i])
  }

  /** A trimmed text free of quotes, backslashes and white space other than
      the plain space is quoted exactly when it is empty or holds a space. */
  lemma QuoteFieldForm(t: string)
    requires |t| == 0 || t[0] != ' '
    requires forall i :: 0 <= i < |t| ==> !IsQuoteOrBackslash(t[i]) && (t[i] == ' ' || !IsRegexSpace(t[i]))
    requires !HasPrefix(t, "[]")
    ensures (QuoteField(t) == t && IsBare(t)) || (QuoteField(t) == "\"" + t + "\"" && NoSpecial(t))
  {
    if Index(t, " ") == -1 && |t| > 0 {
      forall i | 0 <= i < |t| ensures t[i] != ' ' {
        assert !OccursAt(t, " ", i);
      }
    } else if |t| > 0 {
      assert |t| > 1;
      assert t[..2] != "[]";
    }
  }

  /** The decimal form of an integer has no space in it. */
  lemma IntToStringNoSpace(n: int)
    ensures TrimSpaces(IntToString(n)) == IntToString(n)
    ensures forall k :: 0 <= k < |IntToString(n)| ==> IntToString(n)[k] == '-' || IsDigit(IntToString(n)[k])
  {
    var d := IntToString(n);
    assert forall k :: 0 <= k < |d| ==> d[k] == '-' || IsDigit(d[k]);
    TrimSpacesNoop(d);
  }

  /** A safe field is encoded either bare or as a quoted run free of quotes
      and backslashes. */
  lemma EncodedForm(v: FieldValue)
    requires FieldSafe(v)
    ensures var t := FieldText(v);
      (EncodeField(v) == t && IsBare(t)) ||
      (EncodeField(v) == "\"" + t + "\"" && NoSpecial(t))
  {
    match v
    case Str(s) =>
      QuoteFieldForm(TrimSpaces(s));
    case I32(i) =>
      IntToStringNoSpace(i);
      var d := IntToString(i);
      assert !HasPrefix(d, "[]") by {
        if |d| >= 2 { assert d[0] == '-' || IsDigit(d[0]); }
      }
      QuoteFieldForm(d);
  }

  /** The leading-space form of a join: `" " + e0 + " " + e1 + ...`. */
  function LeadJoin(es: seq<string>): string
    decreases |es|
  {
    if |es| == 0 then "" else " " + es[0] + LeadJoin(es[1..])
  }

  lemma JoinAsLeadJoin(es: seq<string>)
    requires |es| >= 1
    ensures Join(es, " ") == es[0] + LeadJoin(es[1..])
    decreases |es|
  {
    if |es| > 1 {
      JoinAsLeadJoin(es[1..]);
      assert es[1..][1..] == es[2..];
    } else {
      assert es[1..] == [];
    }
  }

  lemma GroupOnBare(s: string, j: nat, t: string)
    requires IsBare(t)
    requires j + |t| <= |s| && s[j..j + |t|] == t
    requires j + |t| == |s| || s[j + |t|] == ' '
    ensures MatchGroup(s, j) == Some(Match(t, j + |t|))
  {
    assert s[j] == t[0];
    var end := BareRunEnd(s, j);
    assert end == j + |t|;
  }

  lemma GroupOnQuoted(s: string, j: nat, t: string)
    requires NoSpecial(t)
    requires j + |t| + 2 <= |s| && s[j..j + |t| + 2] == "\"" + t + "\""
    ensures MatchGroup(s, j) == Some(Match(t, j + |t| + 2))
  {
    var e := "\"" + t + "\"";
    assert s[j] == e[0] == '"';
    var k := NextSpecial(s, j + 1);
    assert s[j + 1 + |t|] == e[|t| + 1] == '"';
    assert k == j + 1 + |t|;
    forall x | 0 <= x < |t| ensures s[j + 1 + x] == t[x] {
      assert s[j..j + |t| + 2][x + 1] == s[j + 1 + x];
    }
    assert s[j + 1..k] == t;
  }

  /** `e` is how the encoder writes the text `t`: bare, or quoted. */
  predicate EncodesAs(e: string, t: string) {
    (e == t && IsBare(t)) || (e == "\"" + t + "\"" && NoSpecial(t))
  }

  /** The group matches exactly one encoded field, given that it is followed
      by the end of the payload or by a space. */
  lemma GroupOnEncoded(s: string, j: nat, e: string, t: string)
    requires EncodesAs(e, t)
    requires j + |e| <= |s| && s[j..j + |e|] == e
    requires j + |e| == |s| || s[j + |e|] == ' '
    ensures MatchGroup(s, j) == Some(Match(t, j + |e|))
  {
    if e == t && IsBare(t) {
      GroupOnBare(s, j, t);
    } else {
      GroupOnQuoted(s, j, t);
    }
  }

  /** The first field of a leading-space join: a space, the field, then
      the join of the rest. */
  lemma LeadJoinStep(s: string, p: nat, es: seq<string>)
    requires |es| > 0
    requires 0 < p <= |s| && s[p..] == LeadJoin(es)
    ensures p + 1 + |es[0]| <= |s|
    ensures s[p] == ' '
    ensures s[p + 1..p + 1 + |es[0]|] == es[0]
    ensures s[p + 1 + |es[0]|..] == LeadJoin(es[1..])
    ensures p + 1 + |es[0]| < |s| ==> s[p + 1 + |es[0]|] == ' '
  {
    var e := es[0];
    assert s[p..] == " " + e + LeadJoin(es[1..]);
    assert s[p] == s[p..][0];
    var next := p + 1 + |e|;
    assert s[p + 1..next] == s[p..][1..1 + |e|];
    assert s[next..] == s[p..][1 + |e|..];
    if next < |s| {
      assert |es[1..]| > 0;
      assert s[next] == s[next..][0];
    }
  }

  /** One match at a separator position: the space and the field after it. */
  lemma MatchAtSeparator(s: string, p: nat, e: string, t: string)
    requires EncodesAs(e, t)
    requires 0 < p && p + 1 + |e| <= |s| && s[p] == ' '
    requires s[p + 1..p + 1 + |e|] == e
    requires p + 1 + |e| == |s| || s[p + 1 + |e|] == ' '
    ensures MatchAt(s, p) == Some(Match(t, p + 1 + |e|))
  {
    GroupOnEncoded(s, p + 1, e, t);
  }

  /** Tokenizing from a separator position yields the texts one by one. */
  /** Each encoded field encodes the text at the same position. */
  predicate AllEncode(es: seq<string>, ts: seq<string>)
    requires |es| == |ts|
    decreases |es|
  {
    |es| == 0 || (EncodesAs(es[0], ts[0]) && AllEncode(es[1..], ts[1..]))
  }

  lemma {:induction false} AllEncodeOf(es: seq<string>, ts: seq<string>)
    requires |es| == |ts|
    requires forall i :: 0 <= i < |es| ==> EncodesAs(es[i], ts[i])
    ensures AllEncode(es, ts)
    decreases |es|
  {
    if |es| > 0 {
      assert forall i :: 0 <= i < |es| - 1 ==> es[1..][i] == es[i + 1] && ts[1..][i] == ts[i + 1];
      AllEncodeOf(es[1..], ts[1..]);
    }
  }

  lemma {:induction false} TokenizeLeadJoin(s: string, p: nat, es: seq<string>, ts: seq<string>)
    requires |es| == |ts|
    requires AllEncode(es, ts)
    requires 0 < p <= |s| && s[p..] == LeadJoin(es)
    ensures Tokenize(s, p) == ts
    decreases |es|
  {
    if |es| == 0 {
      assert s[p..] == "";
    } else {
      LeadJoinStep(s, p, es);
      var next := p + 1 + |es[0]|;
      MatchAtSeparator(s, p, es[0], ts[0]);
      TokenizeOnMatch(s, p, Match(ts[0], next));
      assert ts == [ts[0]] + ts[1..];
      if next == |s| {
        assert |LeadJoin(es[1..])| == 0;
        assert |es[1..]| == 0;
      } else {
        TokenizeLeadJoin(s, next, es[1..], ts[1..]);
      }
    }
  }

  lemma TokenizeOnMatch(s: string, p: nat, m: Match)
    requires p < |s| && MatchAt(s, p) == Some(m)
    ensures Tokenize(s, p) == [m.value] + Tokenize(s, m.end)
  {
  }

  lemma TokenizeHead(s: string, e: string, t: string, es: seq<string>, ts: seq<string>)
    requires EncodesAs(e, t)
    requires |es| == |ts|
    requires AllEncode(es, ts)
    requires s == e + LeadJoin(es)
    ensures Tokenize(s, 0) == [t] + ts
  {
    assert s[0..|e|] == e;
    assert s[|e|..] == LeadJoin(es);
    if |es| > 0 {
      assert s[|e|] == ' ';
    }
    GroupOnEncoded(s, 0, e, t);
    assert MatchAt(s, 0) == Some(Match(t, |e|));
    if |es| == 0 {
      assert |s| == |e|;
    } else {
      TokenizeLeadJoin(s, |e|, es, ts);
    }
  }

  /** The decoder recovers every text of a payload of encoded fields joined
      by spaces. */
  lemma TokenizeJoin(es: seq<string>, ts: seq<string>)
    requires |es| == |ts|
    requires forall i :: 0 <= i < |es| ==> EncodesAs(es[i], ts[i])
    ensures Tokenize(Join(es, " "), 0) == ts
  {
    if |es| > 0 {
      JoinAsLeadJoin(es);
      AllEncodeOf(es, ts);
      TokenizeHead(Join(es, " "), es[0], ts[0], es[1..], ts[1..]);
      assert ts == [ts[0]] + ts[1..];
    }
  }

  function FieldTexts(vs: seq<FieldValue>): (r: seq<string>)
    ensures |r| == |vs|
    ensures forall i :: 0 <= i < |vs| ==> r[i] == FieldText(vs[i])
  {
    seq(|vs|, i requires 0 <= i < |vs| => FieldText(vs[i]))
  }

  /** Every safe field encodes as its text. */
  lemma EncodeAllForm(vs: seq<FieldValue>)
    requires forall i :: 0 <= i < |vs| ==> FieldSafe(vs[i])
    ensures forall i :: 0 <= i < |vs| ==> EncodesAs(EncodeAll(vs)[i], FieldTexts(vs)[i])
  {
    forall i | 0 <= i < |vs| ensures EncodesAs(EncodeAll(vs)[i], FieldTexts(vs)[i]) {
      EncodedForm(vs[i]);
    }
  }

  function DecodedAll(vs: seq<FieldValue>): (r: seq<FieldValue>)
    ensures |r| == |vs|
    ensures forall i :: 0 <= i < |vs| ==> r[i] == Decoded(vs[i])
  {
    seq(|vs|, i requires 0 <= i < |vs| => Decoded(vs[i]))
  }

  /** The payload of a message with safe fields tokenizes into the fields'
      texts. */
  lemma SerializedTokens(m: WireMessage)
    requires forall i :: 0 <= i < |Values(m)| ==> FieldSafe(Values(m)[i])
    ensures Tokenize(Join(ExtractFromInterface(m), " "), 0) == FieldTexts(Values(m))
  {
    ExtractInDeclarationOrder(m);
    EncodeAllForm(Values(m));
    TokenizeJoin(EncodeAll(Values(m)), FieldTexts(Values(m)));
  }

  /** Setting fields of the right kinds from the texts of safe values yields
      those values, decoded. */
  lemma InjectTexts(vals: seq<FieldValue>, tags: seq<nat>, vs: seq<FieldValue>)
    requires SameKinds(vals, vs)
    requires |tags| == |vals| && forall i :: 0 <= i < |tags| ==> tags[i] == i
    requires forall i :: 0 <= i < |vs| ==> FieldSafe(vs[i])
    ensures Inject(vals, tags, FieldTexts(vs)) == Success(DecodedAll(vs))
  {
    var tokens := FieldTexts(vs);
    var r := Inject(vals, tags, tokens);
    assert r.Success?;
    forall i | 0 <= i < |vs|
      ensures r.value[i] == Decoded(vs[i])
    {
      SetFromText(vals[i], vs[i]);
    }
    assert r.value == DecodedAll(vs);
  }

  lemma SetFromText(w: FieldValue, v: FieldValue)
    requires SameKind(w, v) && FieldSafe(v)
    ensures ParseAndSet(w, FieldText(v)) == Decoded(v)
  {
    if v.I32? {
      IntToStringNoSpace(v.i);
      ParseFormatInt(v.i);
    }
  }

  /** Round trip: deserializing the serialization of a message whose fields
      are all safe fills a structure of the same layout with the message's
      values, strings trimmed of outer spaces. */
  lemma DeserializeSerialize(template: WireMessage, m: WireMessage)
    requires SameKinds(Values(template), Values(m))
    requires forall i :: 0 <= i < |Values(m)| ==> FieldSafe(Values(m)[i])
    ensures DeserializeMessage(template, SerializeObject(m)) == Success(Rebuild(template, DecodedAll(Values(m))))
  {
    SerializedTokens(m);
    TagsAreDeclarationOrder(template);
    InjectTexts(Values(template), Tags(template), Values(m));
  }

  /** A user-list-add payload decodes, into a message of its kind, to its
      fields without outer spaces. */
  lemma DecodeUserListAdd(template: WireMessage, id: string, nickname: string, color: string, roomId: string)
    requires template.ServerUserListAdd?
    requires WireSafe(id) && WireSafe(nickname) && WireSafe(color) && WireSafe(roomId)
    ensures DeserializeMessage(template, SerializeObject(ServerUserListAdd(id, nickname, color, roomId))) ==
      Success(ServerUserListAdd(TrimSpaces(id), TrimSpaces(nickname), TrimSpaces(color), TrimSpaces(roomId)))
  {
    var m := ServerUserListAdd(id, nickname, color, roomId);
    UserListAddDecoded(template, id, nickname, color, roomId);
    DeserializeSerialize(template, m);
  }

  lemma UserListAddDecoded(template: WireMessage, id: string, nickname: string, color: string, roomId: string)
    requires template.ServerUserListAdd?
    requires WireSafe(id) && WireSafe(nickname) && WireSafe(color) && WireSafe(roomId)
    ensures var vs := Values(ServerUserListAdd(id, nickname, color, roomId));
      && SameKinds(Values(template), vs) && (forall i :: 0 <= i < |vs| ==> FieldSafe(vs[i]))
      && Rebuild(template, DecodedAll(vs)) ==
           ServerUserListAdd(TrimSpaces(id), TrimSpaces(nickname), TrimSpaces(color), TrimSpaces(roomId))
  {
    var vs := Values(ServerUserListAdd(id, nickname, color, roomId));
    assert vs == [Str(id), Str(nickname), Str(color), Str(roomId)];
    var t := template;
    assert Values(t) == [Str(t.userId), Str(t.nickname), Str(t.color), Str(t.roomId)];
    forall i | 0 <= i < |vs| ensures FieldSafe(vs[i]) && SameKind(Values(t)[i], vs[i]) {
      if i == 0 { assert vs[i] == Str(id); }
      else if i == 1 { assert vs[i] == Str(nickname); }
      else if i == 2 { assert vs[i] == Str(color); }
      else { assert vs[i] == Str(roomId); }
    }
    var ds := DecodedAll(vs);
    assert ds[0] == Decoded(Str(id)) && ds[1] == Decoded(Str(nickname));
    assert ds[2] == Decoded(Str(color)) && ds[3] == Decoded(Str(roomId));
  }

  /** A user-list-remove payload decodes, into a message of its kind, to
      its fields without outer spaces. */
  lemma DecodeUserListRemove(template: WireMessage, id: string, roomId: string)
    requires template.ServerUserListRemove?
    requires WireSafe(id) && WireSafe(roomId)
    ensures DeserializeMessage(template, SerializeObject(ServerUserListRemove(id, roomId))) ==
      Success(ServerUserListRemove(TrimSpaces(id), TrimSpaces(roomId)))
  {
    var m := ServerUserListRemove(id, roomId);
    UserListRemoveDecoded(template, id, roomId);
    DeserializeSerialize(template, m);
  }

  lemma UserListRemoveDecoded(template: WireMessage, id: string, roomId: string)
    requires template.ServerUserListRemove?
    requires WireSafe(id) && WireSafe(roomId)
    ensures var vs := Values(ServerUserListRemove(id, roomId));
      && SameKinds(Values(template), vs) && (forall i :: 0 <= i < |vs| ==> FieldSafe(vs[i]))
      && Rebuild(template, DecodedAll(vs)) == ServerUserListRemove(TrimSpaces(id), TrimSpaces(roomId))
  {
    var vs := Values(ServerUserListRemove(id, roomId));
    assert vs == [Str(id), Str(roomId)];
    assert Values(template) == [Str(template.userId), Str(template.roomId)];
    forall i | 0 <= i < |vs| ensures FieldSafe(vs[i]) && SameKind(Values(template)[i], vs[i]) {
      if i == 0 { assert vs[i] == Str(id); } else { assert vs[i] == Str(roomId); }
    }
    var ds := DecodedAll(vs);
    assert ds[0] == Decoded(Str(id)) && ds[1] == Decoded(Str(roomId));
  }

  /** A client request with string fields only comes back as itself, each
      field trimmed of outer spaces. */
  lemma RequestRoundTrip(m: WireMessage)
    requires AllStrings(m)
    requires forall i :: 0 <= i < |Values(m)| ==> WireSafe(Values(m)[i].s)
    ensures DeserializeMessage(m, SerializeObject(m)).Success?
    ensures var r := DeserializeMessage(m, SerializeObject(m)).value;
      |Values(r)| == |Values(m)| &&
      forall i :: 0 <= i < |Values(m)| ==> Values(r)[i] == Str(TrimSpaces(Values(m)[i].s))
  {
    var vs := Values(m);
    forall i | 0 <= i < |vs| ensures FieldSafe(vs[i]) {
      assert vs[i] == Str(vs[i].s);
    }
    var ds := DecodedAll(vs);
    assert SameKinds(vs, vs);
    DeserializeSerialize(m, m);
    assert SameKinds(ds, vs) by {
      forall i | 0 <= i < |vs| ensures SameKind(ds[i], vs[i]) {
        assert vs[i].Str?;
      }
    }
    RebuildValues(m, ds);
  }

  /** A payload with fewer tokens than the structure has fields cannot be
      decoded: the field lookup indexes past the token list. */
  lemma TooFewTokensFails(template: WireMessage, msg: string)
    requires |Tokenize(msg, 0)| < |Values(template)|
    ensures DeserializeMessage(template, msg).Failure?
  {
  }
}

=== FILE: wrappers.dfy ===
/** Failure-compatible wrappers used across the model: an optional value and
    a value-or-error result. */
module Wrappers {

  datatype Option<+T> = None | Some(value: T) {
    predicate IsFailure() { None? }

    function PropagateFailure<U>(): Option<U>
      requires None?
    {
      None
    }

    function Extract(): T
      requires Some?
    {
      value
    }

    function GetOr(default: T): T {
      match this
      case Some(v) => v
      case None => default
    }
  }

  datatype Result<+R, +E> = Success(value: R) | Failure(error: E) {
    predicate IsFailure() { Failure? }

    function PropagateFailure<U>(): Result<U, E>
      requires Failure?
    {
      Failure(error)
    }

    function Extract(): R
      requires Success?
    {
      value
    }
  }
}
